=== FILE: README.md ===
# LunaMC plugin-netty — a Dafny model of the connection front-end

This project models the Netty-based network front-end of the LunaMC Minecraft server plugin in
Dafny, and proves properties about it. The front-end covers:

- accepting a client connection and building its initial handler pipeline;
- answering pre-Netty "legacy" server list pings;
- reading the handshake and deciding which virtual host serves the connection;
- serving the status and ping exchange;
- running the login: an offline login, or the encryption handshake and the session lookup,
  then compression and the hand-over to the play handler;
- keep-alives;
- the lifecycle of the server, its event loop groups and the session client.

## How the model is built

- **Java values become datatypes.** Connection snapshots, handshake requests, pipeline stages and
  throwables are Dafny datatypes.
- **Java objects that change state become classes.** The Netty channel and pipeline, the byte
  buffer, the login handler, the keep-alive handler, the server, the event loop groups and their
  holder, and the session client keep their fields. Their methods carry `modifies` clauses.
- **Exceptions are values.** A thrown exception is a `Failure(...)`/`Fail(...)` value of the
  `Wrappers.Exception` datatype, carrying the message the Java code builds. Each method leaves
  exactly the partial state the Java code leaves at the point where it throws.
- **Each packet handler has a specification function.** `HandshakeTransition`, `PingReply`,
  `LegacyPingReply`, and the `*Step` functions of the login say what a packet does to the
  pipeline and what it sends. The handler method is proved to do exactly that. Lemmas then prove
  what the protocol promises about those functions: round trips of every packet written, pipeline
  order after each edit, unique stage names, and offline and encrypted logins that end with the
  play handler in place.
- **Wire formats are written out from first principles.** This covers the VarInt, the
  length-prefixed UTF-8 string, the big-endian 16/32/64-bit fields, and UTF-16BE for legacy
  strings. Each comes with its round-trip lemma. `ProtocolUtils` is not part of this model; its
  behaviour is taken to be the standard Minecraft protocol encoding.
- **Collaborators are parameters.** The virtual host manager, host policies, JSON mapper,
  encryption factory, RSA decryption, play handler factory and the HTTP client's answers are
  given as parameters or as records of total functions (`Hosts`). Every handler consults the
  policy of the host the manager gives for the decided host. The login handler is also given
  what starting a session lookup does at once: nothing, or the IllegalStateException that
  `SessionClient.NettySessionClient.AnnotateJoin` throws when no HTTP client is available.
- **Asynchronous events are explicit calls.** The scheduler's ticks and the completion of the
  session lookup are calls of `Tick` and `ResumeAuthorization`.
- **Damaged section signs.** The section sign appears with a damaged character encoding in
  `LegacyPingHandler.java` (lines 131-132 and 150); the model uses U+00A7, the value of the
  legacy server list protocol. The legacy delimiter at line 42 is plain ASCII and is modelled as
  written: a backspace (U+0008), two zero digits, then the same three characters again.

### Behaviour of the legacy ping code as written

- `channelRead0` reads the first byte as a signed byte and compares it with the `int` 0xFE. No
  signed byte equals 0xFE, so the handler always removes itself and passes the message on. This
  is reported under Findings.
- `handleLegacyPing` does its reads of the 0x01, the 0xFA and the channel name inside JVM
  `assert` statements (lines 77, 89 and 92). Those reads happen only when assertions are enabled,
  so the model takes whether they are enabled as a parameter.
  - A 1.4 ping is answered only with assertions enabled (`LegacyPing.Legacy14PingAsWritten`).
  - A genuine 1.6 ping is never answered (`LegacyPing.Legacy16PingAsWritten`). With assertions
    enabled, the 0xFA check fails on the signed byte. With them disabled, every later field is
    read one byte off.
- The model keeps the code's length unit for legacy strings, a count of bytes, in both directions.
  So `LegacyPing.LegacyReplyRoundTrip` says that the handler's own `readLegacyString` reads a reply
  back; a client that reads the length as a count of UTF-16 code units is not modelled.
- The 1.4 to 1.6 reply separates its fields with `LEGACY_DELIMITER`, which holds no NUL. A client
  that splits the reply at NUL, as the legacy protocol has it, finds only the marker and one
  field holding everything else. This is reported under Findings. The handlers send the reply
  as written; `LegacyPing.ComposeNulDelimitedStatusData` is the reply with single-NUL delimiters.

## Model

| member | source | states |
|---|---|---|
| Wrappers.RequireNonNull | src/main/java/io/lunamc/plugins/netty/server/NettyServer.java:65-71 | the chain of `Objects.requireNonNull` calls passes exactly when every argument is present, and otherwise throws a NullPointerException naming the first missing argument |
| Bytes.SignedByte | src/main/java/io/lunamc/plugins/netty/handler/LegacyPingHandler.java:54 | `readByte` gives the signed byte whose low 8 bits are the byte read |
| Bytes.ShortRoundTrip | src/main/java/io/lunamc/plugins/netty/handler/LegacyPingHandler.java:139-145 | a signed 16-bit value written with `writeShort` reads back unchanged with `readShort` |
| Bytes.UnsignedShortRoundTrip | src/main/java/io/lunamc/plugins/netty/handler/ProtocolHandshakeHandler.java:73 | a port written as 16 bits reads back unchanged with `readUnsignedShort` |
| Bytes.IntRoundTrip | src/main/java/io/lunamc/plugins/netty/handler/LegacyPingHandler.java:99 | a 32-bit value written big-endian reads back unchanged with `readInt` |
| Bytes.LongRoundTrip | src/main/java/io/lunamc/plugins/netty/handler/ProtocolStatusHandler.java:75-84 | a 64-bit value written big-endian reads back unchanged with `readLong` |
| Bytes.BigEndianRoundTrip | src/main/java/io/lunamc/plugins/netty/handler/ProtocolStatusHandler.java:75-84 | the low n bytes of a number below 256^n, read back as a big-endian number, give the number |
| VarInt.Encode | src/main/java/io/lunamc/plugins/netty/handler/KeepAliveHandler.java:36-37 | a VarInt of any `int`, negative ones included, takes one to five bytes |
| VarInt.GroupsContinuation | src/main/java/io/lunamc/plugins/netty/handler/KeepAliveHandler.java:66-68 | every VarInt byte but the last has the continuation bit set, and the last does not |
| VarInt.Decode | src/main/java/io/lunamc/plugins/netty/handler/ProtocolHandshakeHandler.java:71 | a successful read consumes between one and five bytes, and never more than are there |
| VarInt.RoundTrip | src/main/java/io/lunamc/plugins/netty/handler/ProtocolHandshakeHandler.java:71-74 | reading a written VarInt gives back the same `int` and consumes exactly its bytes, whatever follows |
| Utf8.RoundTrip | src/main/java/io/lunamc/plugins/netty/handler/ProtocolHandshakeHandler.java:72 | decoding the UTF-8 encoding of a string gives the string back |
| Utf16.EncodeBe | src/main/java/io/lunamc/plugins/netty/handler/LegacyPingHandler.java:144 | `getBytes(UTF_16BE)` gives two bytes per UTF-16 code unit |
| Utf16.BmpCodeUnits | src/main/java/io/lunamc/plugins/netty/handler/LegacyPingHandler.java:92 | text inside the Basic Multilingual Plane has one code unit per character |
| Utf16.RoundTrip | src/main/java/io/lunamc/plugins/netty/handler/LegacyPingHandler.java:138-147 | decoding the UTF-16BE encoding of a string without U+FFFE gives the string back |
| Utf16.ReversedMarkReplaced | src/main/java/io/lunamc/plugins/netty/handler/LegacyPingHandler.java:140-144 | U+FFFE is written as the bytes 0xFF 0xFE, which `UTF_16BE` decoding replaces with U+FFFD |
| Utf16.UnpairedHighSurrogateReplaced | src/main/java/io/lunamc/plugins/netty/handler/LegacyPingHandler.java:140 | a high surrogate followed by a unit that is not a low surrogate becomes a single U+FFFD, the following unit included |
| Codec.ReadBytesFrom | src/main/java/io/lunamc/plugins/netty/handler/ProtocolLoginHandler.java:158-159 | reading n bytes succeeds exactly when n bytes are there, and gives those bytes |
| Codec.StringRoundTrip | src/main/java/io/lunamc/plugins/netty/handler/ProtocolHandshakeHandler.java:72 | a protocol string (VarInt byte length, then UTF-8) reads back whole, whatever follows |
| Codec.VarIntRoundTrip | src/main/java/io/lunamc/plugins/netty/handler/ProtocolHandshakeHandler.java:71 | a VarInt read from a stream that starts with its encoding gives the value and its length |
| Codec.Utf16CharsRoundTrip | src/main/java/io/lunamc/plugins/netty/handler/LegacyPingHandler.java:140 | `readCharSequence(n, UTF_16BE)` on the n bytes of an encoded string without U+FFFE gives the string |
| Codec.ReadShortOfBytes | src/main/java/io/lunamc/plugins/netty/handler/LegacyPingHandler.java:139 | a stream starting with a written short reads it back in two bytes |
| Codec.ReadUnsignedShortOfBytes | src/main/java/io/lunamc/plugins/netty/handler/ProtocolHandshakeHandler.java:73 | a stream starting with a written port reads it back in two bytes |
| Codec.ReadIntOfBytes | src/main/java/io/lunamc/plugins/netty/handler/LegacyPingHandler.java:99 | a stream starting with a written int reads it back in four bytes |
| Codec.ReadLongOfBytes | src/main/java/io/lunamc/plugins/netty/handler/ProtocolStatusHandler.java:76 | a stream starting with a written long reads it back in eight bytes |
| Buffers.ByteBuf.ReadByte | src/main/java/io/lunamc/plugins/netty/handler/LegacyPingHandler.java:54 | the buffer yields its next byte as a signed byte and advances by one, or throws IndexOutOfBounds when empty without moving |
| Buffers.ByteBuf.ReadShort | src/main/java/io/lunamc/plugins/netty/handler/LegacyPingHandler.java:95 | reads as `ReadShortFrom` says and advances by what it consumed |
| Buffers.ByteBuf.ReadUnsignedShort | src/main/java/io/lunamc/plugins/netty/handler/ProtocolHandshakeHandler.java:73 | reads as `ReadUnsignedShortFrom` says and advances by what it consumed |
| Buffers.ByteBuf.ReadInt | src/main/java/io/lunamc/plugins/netty/handler/LegacyPingHandler.java:99 | reads as `ReadIntFrom` says and advances by what it consumed |
| Buffers.ByteBuf.ReadLong | src/main/java/io/lunamc/plugins/netty/handler/ProtocolStatusHandler.java:76 | reads as `ReadLongFrom` says and advances by what it consumed |
| Buffers.ByteBuf.ReadBytes | src/main/java/io/lunamc/plugins/netty/handler/ProtocolLoginHandler.java:159 | reads as `ReadBytesFrom` says and advances by what it consumed |
| Buffers.ByteBuf.ReadUtf16Chars | src/main/java/io/lunamc/plugins/netty/handler/LegacyPingHandler.java:140 | reads as `ReadCharsFrom` says and advances by what it consumed |
| Buffers.ByteBuf.ResetReaderIndex | src/main/java/io/lunamc/plugins/netty/handler/LegacyPingHandler.java:64 | rewinds the buffer so that all of it is readable again |
| Buffers.ByteBuf.WriteByte | src/main/java/io/lunamc/plugins/netty/handler/LegacyPingHandler.java:106 | appends the low 8 bits of the value |
| Buffers.ByteBuf.WriteShort | src/main/java/io/lunamc/plugins/netty/handler/LegacyPingHandler.java:145 | appends the low 16 bits of the value, big-endian |
| Buffers.ByteBuf.WriteLong | src/main/java/io/lunamc/plugins/netty/handler/ProtocolStatusHandler.java:75-84 | appends the eight big-endian bytes of the value |
| Buffers.ByteBuf.WriteBytes | src/main/java/io/lunamc/plugins/netty/handler/LegacyPingHandler.java:146 | appends the bytes as given |
| Buffers.ReadVarInt | src/main/java/io/lunamc/plugins/netty/handler/ProtocolHandshakeHandler.java:71 | `readVarInt` on a buffer reads what `ReadVarIntFrom` reads and advances by exactly the bytes it consumed |
| Buffers.ReadString | src/main/java/io/lunamc/plugins/netty/handler/ProtocolHandshakeHandler.java:72 | `readString` on a buffer reads what `ReadStringFrom` reads and advances by exactly the bytes it consumed |
| Buffers.WriteVarInt | src/main/java/io/lunamc/plugins/netty/handler/KeepAliveHandler.java:66-68 | `writeVarInt` appends exactly the VarInt encoding of the value |
| Buffers.WriteString | src/main/java/io/lunamc/plugins/netty/handler/ProtocolLoginHandler.java:208-210 | `writeString` appends exactly the protocol-string encoding |
| Text.DecimalRoundTrip | src/main/java/io/lunamc/plugins/netty/handler/LegacyPingHandler.java:150-154 | the decimal rendering of an `int` in string concatenation parses back to the same number, sign included |
| Text.HexRoundTrip | src/main/java/io/lunamc/plugins/netty/handler/ProtocolHandshakeHandler.java:66 | `Integer.toHexString` renders the 32 bits as an unsigned number; a negative id reads back as itself plus 2^32 |
| Text.SplitJoin | src/main/java/io/lunamc/plugins/netty/handler/LegacyPingHandler.java:131-133 | splitting at a separator what was joined with it gives the fields back, when no field contains the separator |
| Text.Latin1 | src/main/java/io/lunamc/plugins/netty/login/session/NettySessionClient.java:60 | `getBytes(ISO_8859_1)` gives one byte per character, equal to the character for Latin-1 characters |
| Channels.Channel.constructor | src/main/java/io/lunamc/plugins/netty/server/LunaChannelInitializer.java:68-69 | an accepted channel is active, has an empty pipeline and has sent and passed on nothing |
| Channels.Channel.WriteAndFlush | src/main/java/io/lunamc/plugins/netty/utils/NettyUtils.java:54 | the message is appended to what the channel has sent, and nothing else changes |
| Channels.Channel.FireChannelRead | src/main/java/io/lunamc/plugins/netty/handler/LegacyPingHandler.java:65 | the message is appended to what the next inbound handler receives |
| Channels.Channel.Close | src/main/java/io/lunamc/plugins/netty/server/NettyServer.java:128-129 | the channel becomes inactive |
| Connections.NewConnection | src/main/java/io/lunamc/plugins/netty/network/NettyConnection.java:32-35 | a connection is built exactly when the channel is present; it keeps the channel and whether the remote address was local when it was built |
| Connections.NewInitializedConnection | src/main/java/io/lunamc/plugins/netty/handler/ProtocolHandshakeHandler.java:76 | the initialized connection keeps the channel and the announced version, address and port |
| Connections.NewDecidedConnection | src/main/java/io/lunamc/plugins/netty/network/NettyDecidedConnection.java:29-37 | the superclass checks come first, then a missing virtual host throws a NullPointerException; on success every field is as given |
| Connections.NewAuthorizedConnection | src/main/java/io/lunamc/plugins/netty/network/NettyAuthorizedConnection.java:31-42 | channel and host are checked first, then the profile; compression may be absent and is kept as given |
| Connections.LocalAddressClassified | src/main/java/io/lunamc/plugins/netty/network/NettyConnection.java:51-57 | for every remote address: an IPv4 client is local exactly when its address is in 127.0.0.0/8 or is 0.0.0.0, an IPv6 client exactly when it is `::1` or `::`; a non-IP address and a missing address are never local |
| Pipelines.Names | src/main/java/io/lunamc/plugins/netty/server/LunaChannelInitializer.java:72-78 | the names of a pipeline's stages, in order |
| Pipelines.Position | src/main/java/io/lunamc/plugins/netty/handler/ProtocolHandshakeHandler.java:109 | the index of the first stage with a given name |
| Pipelines.PositionOfUnique | src/main/java/io/lunamc/plugins/netty/handler/ProtocolHandshakeHandler.java:109 | with unique names, every name is found at its own index |
| Pipelines.AppendKeepsUnique | src/main/java/io/lunamc/plugins/netty/server/LunaChannelInitializer.java:72-78 | a successful `addLast` keeps stage names unique |
| Pipelines.InsertBeforeKeepsUnique | src/main/java/io/lunamc/plugins/netty/handler/ProtocolLoginHandler.java:184-186 | a successful `addBefore` keeps stage names unique |
| Pipelines.InsertAfterKeepsUnique | src/main/java/io/lunamc/plugins/netty/server/LunaChannelInitializer.java:82 | a successful `addAfter` keeps stage names unique |
| Pipelines.ReplaceKeepsUnique | src/main/java/io/lunamc/plugins/netty/handler/ProtocolHandshakeHandler.java:108-110 | a successful `replace` keeps stage names unique |
| Pipelines.RemoveKeepsUnique | src/main/java/io/lunamc/plugins/netty/handler/LegacyPingHandler.java:63 | a successful `remove` keeps stage names unique |
| Pipelines.AddBeforeAdjacent | src/main/java/io/lunamc/plugins/netty/handler/ProtocolLoginHandler.java:185 | `addBefore` puts the new stage immediately in front of its base, and removing it again gives back the old pipeline |
| Pipelines.AddAfterAdjacent | src/main/java/io/lunamc/plugins/netty/server/LunaChannelInitializer.java:82 | `addAfter` puts the new stage immediately after its base, and removing it again gives back the old pipeline |
| Pipelines.RemoveInserted | src/main/java/io/lunamc/plugins/netty/handler/ProtocolLoginHandler.java:184-186 | removing a stage just inserted at an index gives back the stages from before |
| Pipelines.InsertBeforeAdjacency | src/main/java/io/lunamc/plugins/netty/handler/ProtocolLoginHandler.java:246-248 | `addBefore` keeps adjacent stages adjacent, with the new stage between them when the base was the second of the two |
| Pipelines.Pipeline.constructor | src/main/java/io/lunamc/plugins/netty/server/LunaChannelInitializer.java:69 | a new pipeline has no stages |
| Pipelines.Pipeline.AddLast | src/main/java/io/lunamc/plugins/netty/server/LunaChannelInitializer.java:72-78 | the stages become the `addLast` result; a duplicate name throws IllegalArgumentException and leaves the stages as they were |
| Pipelines.Pipeline.AddBefore | src/main/java/io/lunamc/plugins/netty/handler/ProtocolLoginHandler.java:184-186 | the stages become the `addBefore` result; a duplicate name or a missing base throws and leaves the stages as they were |
| Pipelines.Pipeline.AddAfter | src/main/java/io/lunamc/plugins/netty/server/LunaChannelInitializer.java:82 | the stages become the `addAfter` result; a duplicate name or a missing base throws and leaves the stages as they were |
| Pipelines.Pipeline.Replace | src/main/java/io/lunamc/plugins/netty/handler/ProtocolHandshakeHandler.java:108-110 | the new stage takes the old one's place; a missing old name or a taken new name throws and leaves the stages as they were |
| Pipelines.Pipeline.Remove | src/main/java/io/lunamc/plugins/netty/handler/LegacyPingHandler.java:63 | the named stage is taken out; a missing name throws NoSuchElementException and leaves the stages as they were |
| Initializer.ConstructionCheck | src/main/java/io/lunamc/plugins/netty/server/LunaChannelInitializer.java:57-66 | the initializer is built exactly when all five arguments are present; the configuration is checked first, then the virtual host manager (by the legacy ping handler), then the encryption factory (by the handshake handler) |
| Initializer.InitialStagesUnique | src/main/java/io/lunamc/plugins/netty/server/LunaChannelInitializer.java:72-82 | the initial pipeline's stage names are unique, with or without debugging |
| Initializer.InitialStagesAwaitHandshake | src/main/java/io/lunamc/plugins/netty/server/LunaChannelInitializer.java:72-78 | the initial pipeline holds neither a status nor a login handler, so the handshake can install one |
| Initializer.InitialStagesOrder | src/main/java/io/lunamc/plugins/netty/server/LunaChannelInitializer.java:72-82 | the read timeout with the configured timeout comes first; the logging stage is there exactly in debug mode, and then second; the handshake handler comes last |
| Initializer.InitChannel | src/main/java/io/lunamc/plugins/netty/server/LunaChannelInitializer.java:68-87 | on a fresh channel every `addLast`, and the debug `addAfter`, succeeds, and the pipeline becomes exactly the initial stages |
| Initializer.AppendAll | src/main/java/io/lunamc/plugins/netty/server/LunaChannelInitializer.java:72-78 | the chain of `addLast` calls with distinct names leaves exactly those stages, in order |
| Initializer.AddDebugAfterReadTimeout | src/main/java/io/lunamc/plugins/netty/server/LunaChannelInitializer.java:80-82 | the logging stage is added right after the read timeout, and nothing else moves |
| Initializer.DebugInsertion | src/main/java/io/lunamc/plugins/netty/server/LunaChannelInitializer.java:82 | `addAfter("read-timeout", "debug", ...)` on the appended stages succeeds and puts the logging stage second |
| LegacyPing.ConstructionCheck | src/main/java/io/lunamc/plugins/netty/handler/LegacyPingHandler.java:46-50 | the handler is built exactly when the virtual host manager is present |
| LegacyPing.LegacyStringBytes | src/main/java/io/lunamc/plugins/netty/handler/LegacyPingHandler.java:143-147 | a legacy string is a 16-bit byte count and then two bytes per UTF-16 code unit |
| LegacyPing.ReadLegacyStringFrom | src/main/java/io/lunamc/plugins/netty/handler/LegacyPingHandler.java:138-141 | a read never consumes more than is there |
| LegacyPing.LegacyStringRoundTrip | src/main/java/io/lunamc/plugins/netty/handler/LegacyPingHandler.java:138-147 | a string without U+FFFE of at most 32767 encoded bytes reads back as written, consuming exactly its bytes |
| LegacyPing.LongLegacyStringRefused | src/main/java/io/lunamc/plugins/netty/handler/LegacyPingHandler.java:139-145 | a string of 32768 to 65535 bytes is written, but its length reads back negative and the read throws IndexOutOfBoundsException |
| LegacyPing.ReadLegacyString | src/main/java/io/lunamc/plugins/netty/handler/LegacyPingHandler.java:138-141 | reads as `ReadLegacyStringFrom` says and advances by what it consumed |
| LegacyPing.WriteLegacyString | src/main/java/io/lunamc/plugins/netty/handler/LegacyPingHandler.java:143-147 | appends exactly `LegacyStringBytes` of the string |
| LegacyPing.BetaStatusFields | src/main/java/io/lunamc/plugins/netty/handler/LegacyPingHandler.java:131-133 | splitting a Beta reply at § gives exactly the message of the day and the two player counts, when the message has no § of its own |
| LegacyPing.LegacyStatusFields | src/main/java/io/lunamc/plugins/netty/handler/LegacyPingHandler.java:149-155 | as written, splitting a 1.4-1.6 reply at NUL gives exactly two fields: the marker (the section sign, then the digit one) and the five values run together with the backspace-zero-zero delimiter between each two, when neither text field holds a NUL |
| LegacyPing.JoinedByLacks | src/main/java/io/lunamc/plugins/netty/handler/LegacyPingHandler.java:150-154 | joining values with a delimiter brings in no character that neither the values nor the delimiter hold |
| LegacyPing.JoinedBySingle | src/main/java/io/lunamc/plugins/netty/handler/LegacyPingHandler.java:150-154 | joining with a one-character delimiter is the same as `Text.Join` at that character |
| LegacyPing.NulDelimitedStatusFields | src/main/java/io/lunamc/plugins/netty/handler/LegacyPingHandler.java:149-155 | with single-NUL delimiters, splitting the reply at NUL gives six fields: the marker, then the protocol version, server version, message of the day, current and maximum players in order, when neither text field holds a NUL |
| LegacyPing.LegacyReply | src/main/java/io/lunamc/plugins/netty/handler/LegacyPingHandler.java:105-108 | every legacy reply starts with 0xFF, followed by the payload as a legacy string |
| LegacyPing.LegacyReplyRoundTrip | src/main/java/io/lunamc/plugins/netty/handler/LegacyPingHandler.java:105-109 | a reply of up to 32767 payload bytes without U+FFFE starts with 0xFF, and the handler's own `readLegacyString` (a length in bytes) reads the payload back from the rest, consuming exactly the reply |
| LegacyPing.WriteLegacyReply | src/main/java/io/lunamc/plugins/netty/handler/LegacyPingHandler.java:117-121 | exactly the reply is sent and the channel is closed |
| LegacyPing.ReadPingHostFrom | src/main/java/io/lunamc/plugins/netty/handler/LegacyPingHandler.java:95-99 | the 1.6 fields are read in order (dropped length, version byte, host, port) and never past the input |
| LegacyPing.SignedByteNeverFeOrFa | src/main/java/io/lunamc/plugins/netty/handler/LegacyPingHandler.java:54-55 | no signed byte equals 0xFE or 0xFA, so the comparisons at lines 55 and 89 never hold |
| LegacyPing.Legacy14PingAsWritten | src/main/java/io/lunamc/plugins/netty/handler/LegacyPingHandler.java:77-83 | a 1.4 ping is answered with the 1.4 reply only when assertions are enabled, and otherwise runs out of bytes |
| LegacyPing.Genuine16PingLayout | src/main/java/io/lunamc/plugins/netty/handler/LegacyPingHandler.java:85-92 | a 1.6 ping after its 0xFE starts 0x01 0xFA 0x00 0x0B 0x00 and is 35 bytes plus the host's encoding long |
| LegacyPing.ShiftedPingHostUnreadable | src/main/java/io/lunamc/plugins/netty/handler/LegacyPingHandler.java:95-99 | read one byte off, a 1.6 ping's host length comes out as 0x0B00 and the read throws IndexOutOfBounds |
| LegacyPing.Legacy16PingAsWritten | src/main/java/io/lunamc/plugins/netty/handler/LegacyPingHandler.java:85-109 | a genuine 1.6 ping is never answered: it throws an AssertionError with assertions enabled and IndexOutOfBounds without |
| LegacyPing.SendBetaStatusResponse | src/main/java/io/lunamc/plugins/netty/handler/LegacyPingHandler.java:124-136 | the fallback host's Beta status goes out in one reply and the channel closes; without a fallback host nothing is sent |
| LegacyPing.SendLegacy14Response | src/main/java/io/lunamc/plugins/netty/handler/LegacyPingHandler.java:112-122 | the fallback host's 1.4 status goes out in one reply and the channel closes; without a fallback host nothing is sent |
| LegacyPing.SendLegacy16Response | src/main/java/io/lunamc/plugins/netty/handler/LegacyPingHandler.java:100-109 | the status of the host matched for the announced address goes out and the channel closes; without a match the decided connection throws and nothing is sent |
| LegacyPing.ReadPingHost | src/main/java/io/lunamc/plugins/netty/handler/LegacyPingHandler.java:95-99 | reads as `ReadPingHostFrom` says and advances by what it consumed |
| LegacyPing.HandleLegacyPing | src/main/java/io/lunamc/plugins/netty/handler/LegacyPingHandler.java:69-110 | the reply `LegacyPingReply` gives goes out and the channel closes; when that throws, nothing is sent and the channel stays open |
| LegacyPing.ChannelRead0 | src/main/java/io/lunamc/plugins/netty/handler/LegacyPingHandler.java:52-67 | as written, every non-empty first message makes the handler remove itself, rewind the message and pass it on whole; an empty one throws IndexOutOfBounds and changes nothing |
| LegacyPing.ChannelRead0Unsigned | src/main/java/io/lunamc/plugins/netty/handler/LegacyPingHandler.java:52-67 | with the byte compared unsigned, a first byte 0xFE leaves the pipeline alone and sends the legacy reply; any other message is passed on as before |
| LegacyPing.BetaPingAnsweredWhenUnsigned | src/main/java/io/lunamc/plugins/netty/handler/LegacyPingHandler.java:69-74 | with the unsigned comparison, the single byte 0xFE of a Beta ping produces a reply, and it is the fallback host's Beta reply |
| Handshake.HandshakeHandlerArguments | src/main/java/io/lunamc/plugins/netty/handler/ProtocolHandshakeHandler.java:52-55 | the four registrations in the order they are checked, and all present exactly when each is |
| Handshake.ConstructionCheck | src/main/java/io/lunamc/plugins/netty/handler/ProtocolHandshakeHandler.java:48-56 | the handler is built exactly when all four registrations are present |
| Handshake.ConstructionCheckOrder | src/main/java/io/lunamc/plugins/netty/handler/ProtocolHandshakeHandler.java:52-53 | a missing encryption factory is reported first, then a missing JSON mapper |
| Handshake.ReadHandshakeFrom | src/main/java/io/lunamc/plugins/netty/handler/ProtocolHandshakeHandler.java:71-74 | the four fields are read in order and never past the input |
| Handshake.HandshakeRoundTrip | src/main/java/io/lunamc/plugins/netty/handler/ProtocolHandshakeHandler.java:71-74 | a handshake written by a client reads back field for field, consuming exactly its bytes |
| Handshake.HandshakeServed | src/main/java/io/lunamc/plugins/netty/handler/ProtocolHandshakeHandler.java:70-110 | a handshake for status or login with a matching or fallback host succeeds; the decided connection carries what was announced and the matched host, the fallback only when none matched; the next handler takes the handshake handler's index and names stay unique |
| Handshake.HandshakeWithoutHost | src/main/java/io/lunamc/plugins/netty/handler/ProtocolHandshakeHandler.java:79-82 | with no matching and no fallback host the handshake throws "No fallback host found", whatever state it asks for |
| Handshake.HandshakeUnknownNextState | src/main/java/io/lunamc/plugins/netty/handler/ProtocolHandshakeHandler.java:86-97 | a next state other than 1 and 2 throws a ProtocolException naming it, after a host is found |
| Handshake.ReadHandshake | src/main/java/io/lunamc/plugins/netty/handler/ProtocolHandshakeHandler.java:71-74 | reads as `ReadHandshakeFrom` says and advances by what it consumed |
| Handshake.HandleHandshakeRequest | src/main/java/io/lunamc/plugins/netty/handler/ProtocolHandshakeHandler.java:70-110 | the pipeline becomes what `HandshakeTransition` says and the decided connection is returned; when it throws, the pipeline is unchanged |
| Handshake.HandlePacket | src/main/java/io/lunamc/plugins/netty/handler/ProtocolHandshakeHandler.java:58-68 | packet 0x00 is the handshake; any other id throws "Unexpected packet <hex> during handshake" and changes nothing |
| Status.NewStatusHandler | src/main/java/io/lunamc/plugins/netty/handler/ProtocolStatusHandler.java:39-45 | a sharable class is refused first, then the JSON mapper and the connection must be present, in that order; on success the fields are as given |
| Status.StatusResponsePacket | src/main/java/io/lunamc/plugins/netty/handler/ProtocolStatusHandler.java:63-73 | the status response starts with id 0x00, followed by the JSON as a protocol string |
| Status.PongPacket | src/main/java/io/lunamc/plugins/netty/handler/ProtocolStatusHandler.java:78-82 | the pong is id 0x01 and eight payload bytes |
| Status.PingReply | src/main/java/io/lunamc/plugins/netty/handler/ProtocolStatusHandler.java:75-84 | a ping is answered exactly when it holds eight bytes, and otherwise throws IndexOutOfBounds |
| Status.StatusResponseReadBack | src/main/java/io/lunamc/plugins/netty/handler/ProtocolStatusHandler.java:63-73 | a client reads the status id and then exactly the JSON from the status response |
| Status.PingEcho | src/main/java/io/lunamc/plugins/netty/handler/ProtocolStatusHandler.java:75-84 | the pong echoes whatever long the client sent, ignoring bytes after it, and the client reads it back |
| Status.HandleStatusRequest | src/main/java/io/lunamc/plugins/netty/handler/ProtocolStatusHandler.java:63-73 | one status response with the host's serialized status goes out and the channel stays open |
| Status.HandlePingRequest | src/main/java/io/lunamc/plugins/netty/handler/ProtocolStatusHandler.java:75-84 | the pong goes out and the channel closes; a short ping throws and sends nothing |
| Status.HandlePacket | src/main/java/io/lunamc/plugins/netty/handler/ProtocolStatusHandler.java:47-61 | 0x00 gets the status, 0x01 the pong, and any other id throws "Unexpected packet <hex> during status" and touches nothing |
| Status.StatusTwice | src/main/java/io/lunamc/plugins/netty/handler/ProtocolStatusHandler.java:63-73 | two status requests get two identical answers: the handler keeps no state between them |
| Login.AnnouncedServerId | src/main/java/io/lunamc/plugins/netty/handler/ProtocolLoginHandler.java:132 | the random server id goes to clients of protocol version 5 and lower, and the empty string to newer ones |
| Login.ByteArrayBytes | src/main/java/io/lunamc/plugins/netty/handler/ProtocolLoginHandler.java:134-140 | a byte array is its length as a VarInt, then the bytes |
| Login.ReadByteArrayFrom | src/main/java/io/lunamc/plugins/netty/handler/ProtocolLoginHandler.java:155-164 | a length above the maximum throws ProtocolException, a negative one NegativeArraySize, a length beyond the input IndexOutOfBounds; otherwise the array is read whole |
| Login.ReadEncryptionResponseFrom | src/main/java/io/lunamc/plugins/netty/handler/ProtocolLoginHandler.java:155-164 | the shared secret, then the verify token, read in order and never past the input |
| Login.ByteArrayRoundTrip | src/main/java/io/lunamc/plugins/netty/handler/ProtocolLoginHandler.java:155-164 | an array written with its length reads back whole, whatever follows |
| Login.EncryptionResponseRoundTrip | src/main/java/io/lunamc/plugins/netty/handler/ProtocolLoginHandler.java:155-164 | the Encryption Response a client writes is read back field for field |
| Login.LongestSecretRefused | src/main/java/io/lunamc/plugins/netty/handler/ProtocolLoginHandler.java:156-157 | a shared secret announced with length `Integer.MAX_VALUE` is refused before anything is allocated |
| Login.EncryptionRequestReadBack | src/main/java/io/lunamc/plugins/netty/handler/ProtocolLoginHandler.java:128-142 | a client reads from the Encryption Request the id 0x01, the server id, the public key and the verify token, each whole and in order |
| Login.EncryptionRequestHead | src/main/java/io/lunamc/plugins/netty/handler/ProtocolLoginHandler.java:130-132 | the Encryption Request starts with its id and the server id, and the two arrays follow |
| Login.ByteArraysReadBack | src/main/java/io/lunamc/plugins/netty/handler/ProtocolLoginHandler.java:134-140 | two arrays written one after the other read back one after the other |
| Login.LoginSuccessReadBack | src/main/java/io/lunamc/plugins/netty/handler/ProtocolLoginHandler.java:204-212 | a client reads from Login Success the id 0x02, then the profile's id and name |
| Login.DecryptSecret | src/main/java/io/lunamc/plugins/netty/handler/ProtocolLoginHandler.java:165-182 | the verify token is decrypted and compared first, then the secret is decrypted; each failure throws its own ProtocolException, and an empty key is refused |
| Login.CompressionDecision | src/main/java/io/lunamc/plugins/netty/handler/ProtocolLoginHandler.java:229-256 | compression is used exactly when the host gives one with a non-negative threshold and a level from 1 to 9; the default level -1 and every invalid level mean none |
| Login.InsertTwoPlacement | src/main/java/io/lunamc/plugins/netty/handler/ProtocolLoginHandler.java:184-186 | two `addBefore` calls under fresh names succeed, each new stage lands right in front of its base, and taking both out gives back the old stages |
| Login.CipherPlacement | src/main/java/io/lunamc/plugins/netty/handler/ProtocolLoginHandler.java:184-186 | the cipher encoder ends up right before the length prepender and the decoder right before the frame decoder, and nothing else changes |
| Login.CompressionEditNames | src/main/java/io/lunamc/plugins/netty/handler/ProtocolLoginHandler.java:246-248 | the compression edit adds no names but the compressor's and the decompressor's |
| Login.CompressionPlacement | src/main/java/io/lunamc/plugins/netty/handler/ProtocolLoginHandler.java:246-248 | the order becomes compressor, decompressor, length prepender, and nothing else changes |
| Login.FinalizeStep | src/main/java/io/lunamc/plugins/netty/handler/ProtocolLoginHandler.java:201-227 | finishing sets up compression, sends Login Success, and replaces the login handler with the play handler, which must exist |
| Login.AuthorizeStep | src/main/java/io/lunamc/plugins/netty/handler/ProtocolLoginHandler.java:192-199 | an authenticated login starts the session lookup for its name, server id, key and public key, and sends nothing; when starting the lookup throws (no HTTP client available), that exception is thrown and no lookup is pending; any other login finishes at once with the offline profile |
| Login.LoginStartStep | src/main/java/io/lunamc/plugins/netty/handler/ProtocolLoginHandler.java:119-146 | a second Login Start throws "Login already started" and changes nothing; an unreadable name throws the read's error and changes nothing; otherwise the name and whether the host authenticates are recorded, and an authenticated login keeps its stages and sends exactly one Encryption Request carrying the announced server id and the new key pair, while any other login leaves the encryption unset; no Login Start changes the secret or turns encryption on |
| Login.EncryptionResponseStep | src/main/java/io/lunamc/plugins/netty/handler/ProtocolLoginHandler.java:148-190 | without an earlier Login Start it throws "Expect 0x00 before 0x01", and once encrypted "Already encrypted"; a failed read of the two arrays, a wrong verify token or an undecryptable secret throws that error; each of these leaves state and stages unchanged and sends nothing; a decrypted key becomes the secret, nothing is sent, and a passing step has encryption on; only such a decrypt changes the secret, the encryption flag or the stages |
| Login.PacketStep | src/main/java/io/lunamc/plugins/netty/handler/ProtocolLoginHandler.java:105-117 | 0x00 is Login Start and 0x01 the Encryption Response; any other id changes nothing and throws nothing |
| Login.ResumeStep | src/main/java/io/lunamc/plugins/netty/handler/ProtocolLoginHandler.java:195 | the session lookup's completion clears the pending lookup and otherwise has exactly `FinalizeStep`'s outcome, stages and packets for the profile found |
| Login.OnlineLoginFinishes | src/main/java/io/lunamc/plugins/netty/handler/ProtocolLoginHandler.java:195-222 | on a pipeline ready to finish, the lookup's completion sends exactly Login Success, succeeds exactly when the factory gives a play handler, which then replaces the login handler with the compression stages present exactly when compression was decided, and leaves no lookup pending |
| Login.FinalizeOnReadyPipeline | src/main/java/io/lunamc/plugins/netty/handler/ProtocolLoginHandler.java:201-256 | on a ready pipeline finishing always sends exactly Login Success; it succeeds exactly when the factory gives a play handler, which takes the login handler's place, with compression stages present exactly when compression was decided |
| Login.OfflineLogin | src/main/java/io/lunamc/plugins/netty/handler/ProtocolLoginHandler.java:119-146 | on a host without authentication, a first Login Start logs the player in at once with the offline profile; only Login Success is sent and no encryption is set up |
| Login.EncryptionHandshake | src/main/java/io/lunamc/plugins/netty/handler/ProtocolLoginHandler.java:148-199 | a response whose token decrypts to the token sent turns encryption on with the decrypted key, places both cipher stages and sends nothing; it then starts the session lookup for the login name, announced server id, key and public key, or, when starting the lookup throws, ends with that exception, encryption on and no lookup pending |
| Login.LoginHandlerArguments | src/main/java/io/lunamc/plugins/netty/handler/ProtocolLoginHandler.java:99-102 | the four arguments in the order they are checked, and all present exactly when each is |
| Login.ConstructionCheck | src/main/java/io/lunamc/plugins/netty/handler/ProtocolLoginHandler.java:92-103 | a sharable class is refused before anything else; otherwise the handler is built exactly when all four arguments are present |
| Login.ConstructionCheckOrder | src/main/java/io/lunamc/plugins/netty/handler/ProtocolLoginHandler.java:99-101 | the checks follow the assignments, not the parameters: a missing encryption factory is reported first, then a missing session client |
| Login.ProtocolLoginHandler.constructor | src/main/java/io/lunamc/plugins/netty/handler/ProtocolLoginHandler.java:92-103 | a new handler is neither authenticated nor encrypted and has no login name, encryption, secret or pending lookup |
| Login.ProtocolLoginHandler.SetupCompression | src/main/java/io/lunamc/plugins/netty/handler/ProtocolLoginHandler.java:229-256 | returns `CompressionDecision` of the host's compression and makes the compression edit; the Set Compression packet is never sent |
| Login.ProtocolLoginHandler.FinalizeLogin | src/main/java/io/lunamc/plugins/netty/handler/ProtocolLoginHandler.java:201-227 | the state, pipeline and sent packets become what `FinalizeStep` says |
| Login.ProtocolLoginHandler.Authorize | src/main/java/io/lunamc/plugins/netty/handler/ProtocolLoginHandler.java:192-199 | the state, pipeline and sent packets become what `AuthorizeStep` says |
| Login.ProtocolLoginHandler.WriteEncryptionRequest | src/main/java/io/lunamc/plugins/netty/handler/ProtocolLoginHandler.java:128-140 | the bytes written are exactly the Encryption Request |
| Login.ProtocolLoginHandler.WriteLoginSuccess | src/main/java/io/lunamc/plugins/netty/handler/ProtocolLoginHandler.java:204-210 | the bytes written are exactly Login Success |
| Login.ProtocolLoginHandler.HandleLoginStart | src/main/java/io/lunamc/plugins/netty/handler/ProtocolLoginHandler.java:119-146 | the state, pipeline and sent packets become what `LoginStartStep` says |
| Login.ProtocolLoginHandler.RequestEncryption | src/main/java/io/lunamc/plugins/netty/handler/ProtocolLoginHandler.java:125-142 | the encryption becomes the one created for the connection and the name, nothing else in the state changes, and exactly the Encryption Request with the announced server id and that encryption's public key and verify bytes is written |
| Login.ProtocolLoginHandler.ReadByteArray | src/main/java/io/lunamc/plugins/netty/handler/ProtocolLoginHandler.java:155-164 | reads as `ReadByteArrayFrom` says and advances by what it consumed |
| Login.ProtocolLoginHandler.ReadEncryptionResponse | src/main/java/io/lunamc/plugins/netty/handler/ProtocolLoginHandler.java:155-164 | reads as `ReadEncryptionResponseFrom` says and advances by what it consumed |
| Login.ProtocolLoginHandler.InstallCipher | src/main/java/io/lunamc/plugins/netty/handler/ProtocolLoginHandler.java:184-186 | the pipeline becomes the cipher edit's result; a failing second `addBefore` leaves the first done |
| Login.ProtocolLoginHandler.HandleEncryptionResponse | src/main/java/io/lunamc/plugins/netty/handler/ProtocolLoginHandler.java:148-190 | the state, pipeline and sent packets become what `EncryptionResponseStep` says |
| Login.ProtocolLoginHandler.ResumeAuthorization | src/main/java/io/lunamc/plugins/netty/handler/ProtocolLoginHandler.java:195 | the state, pipeline and sent packets become what `ResumeStep` says |
| Login.ProtocolLoginHandler.HandlePacket | src/main/java/io/lunamc/plugins/netty/handler/ProtocolLoginHandler.java:105-117 | the state, pipeline and sent packets become what `PacketStep` says |
| KeepAlive.KeepAlivePacket | src/main/java/io/lunamc/plugins/netty/handler/KeepAliveHandler.java:36-37 | a keep-alive packet takes two to six bytes, within the buffer size the handler allocates |
| KeepAlive.KeepAliveReadBack | src/main/java/io/lunamc/plugins/netty/handler/KeepAliveHandler.java:61-71 | a client reads packet id 0x1f in one byte, then exactly the keep-alive id sent |
| KeepAlive.ScheduledFuture.Cancel | src/main/java/io/lunamc/plugins/netty/handler/KeepAliveHandler.java:49 | only the first cancellation takes effect, recording whether the running task may be interrupted |
| KeepAlive.KeepAliveHandler.HandlerAdded | src/main/java/io/lunamc/plugins/netty/handler/KeepAliveHandler.java:42-51 | a new schedule: first run after ten seconds, then every ten seconds |
| KeepAlive.KeepAliveHandler.Tick | src/main/java/io/lunamc/plugins/netty/handler/KeepAliveHandler.java:45-50 | a cancelled schedule never runs again and changes nothing; while it is live, an active channel gets exactly one keep-alive, and an inactive one nothing, with the schedule cancelled with interruption |
| KeepAlive.KeepAliveHandler.WriteKeepAlive | src/main/java/io/lunamc/plugins/netty/handler/KeepAliveHandler.java:61-71 | the keep-alive packet goes out in one write |
| KeepAlive.KeepAliveHandler.HandlerRemoved | src/main/java/io/lunamc/plugins/netty/handler/KeepAliveHandler.java:53-59 | a schedule, if there is one, is cancelled without interruption |
| KeepAlive.InactiveThenRemoved | src/main/java/io/lunamc/plugins/netty/handler/KeepAliveHandler.java:45-59 | after the channel goes inactive, the next run cancels with interruption, and a later removal does not change that |
| KeepAlive.NoKeepAliveAfterRemoval | src/main/java/io/lunamc/plugins/netty/handler/KeepAliveHandler.java:53-59 | once the handler is removed, no later run of the schedule writes anything, whether the channel is active or not |
| EventLoops.EventLoopGroup.ShutdownGracefully | src/main/java/io/lunamc/plugins/netty/netty/DefaultEventLoopGroupHolder.java:57 | a running group starts shutting down, and any other keeps its state |
| EventLoops.EventLoopGroup.AwaitTermination | src/main/java/io/lunamc/plugins/netty/netty/DefaultEventLoopGroupHolder.java:89-94 | waiting on a group that is shutting down ends with it terminated |
| EventLoops.ShouldShutDownOnlyRunning | src/main/java/io/lunamc/plugins/netty/netty/DefaultEventLoopGroupHolder.java:85-87 | `shouldShutDown` holds exactly for a running group |
| EventLoops.IndestructibleEventLoopGroup.ShutdownGracefully | src/main/java/io/lunamc/plugins/netty/netty/DefaultEventLoopGroupHolder.java:130-138 | both `shutdownGracefully` overloads throw UnsupportedOperationException |
| EventLoops.IndestructibleEventLoopGroup.Shutdown | src/main/java/io/lunamc/plugins/netty/netty/DefaultEventLoopGroupHolder.java:145-148 | `shutdown` throws UnsupportedOperationException |
| EventLoops.IndestructibleEventLoopGroup.ShutdownNow | src/main/java/io/lunamc/plugins/netty/netty/DefaultEventLoopGroupHolder.java:150-153 | `shutdownNow` throws UnsupportedOperationException |
| EventLoops.ViewCannotShutDown | src/main/java/io/lunamc/plugins/netty/netty/DefaultEventLoopGroupHolder.java:125-153 | a view asked to shut down in every way leaves its group running |
| EventLoops.DefaultEventLoopGroupHolder.constructor | src/main/java/io/lunamc/plugins/netty/netty/DefaultEventLoopGroupHolder.java:40-43 | a new holder holds no groups |
| EventLoops.DefaultEventLoopGroupHolder.Start | src/main/java/io/lunamc/plugins/netty/netty/DefaultEventLoopGroupHolder.java:45-51 | a fresh running one-thread boss group and a fresh default worker group, each behind a fresh view |
| EventLoops.DefaultEventLoopGroupHolder.GetBossGroup | src/main/java/io/lunamc/plugins/netty/netty/DefaultEventLoopGroupHolder.java:75-78 | hands out the view over the boss group, never the group itself |
| EventLoops.DefaultEventLoopGroupHolder.GetWorkerGroup | src/main/java/io/lunamc/plugins/netty/netty/DefaultEventLoopGroupHolder.java:80-83 | hands out the view over the worker group, never the group itself |
| EventLoops.DefaultEventLoopGroupHolder.Shutdown | src/main/java/io/lunamc/plugins/netty/netty/DefaultEventLoopGroupHolder.java:53-73 | a running boss group and any worker group are shut down, released and waited for until terminated; a boss group already on its way down stays held and untouched |
| EventLoops.ShutdownWhenIdle | src/main/java/io/lunamc/plugins/netty/netty/DefaultEventLoopGroupHolder.java:53-73 | a second shutdown changes nothing |
| Server.ServerArguments | src/main/java/io/lunamc/plugins/netty/server/NettyServer.java:65-71 | the seven registrations in the order they are checked, and all present exactly when each is |
| Server.ConstructionCheck | src/main/java/io/lunamc/plugins/netty/server/NettyServer.java:58-72 | the server is built exactly when all seven registrations are present |
| Server.ConstructionCheckOrder | src/main/java/io/lunamc/plugins/netty/server/NettyServer.java:65-66 | a missing configuration is reported first, then a missing play handler factory |
| Server.NettyServer.constructor | src/main/java/io/lunamc/plugins/netty/server/NettyServer.java:58-72 | a new server is not started and has no channel |
| Server.NettyServer.Start | src/main/java/io/lunamc/plugins/netty/server/NettyServer.java:74-115 | a started server refuses with "Already started"; otherwise it is started exactly when the bind gave a channel, which becomes its channel; a failed bind throws nothing |
| Server.NettyServer.Shutdown | src/main/java/io/lunamc/plugins/netty/server/NettyServer.java:122-133 | a stopped server refuses with "Not started."; otherwise its channel is closed and it ends stopped even when closing fails, whose failure is passed on |
| Server.RestartAfterShutdown | src/main/java/io/lunamc/plugins/netty/server/NettyServer.java:74-133 | after a shutdown the server can be started again, whether or not closing succeeded |
| SessionClient.ConstructionCheck | src/main/java/io/lunamc/plugins/netty/login/session/NettySessionClient.java:51-55 | the client is built exactly when both registrations are present, the holder checked first |
| SessionClient.DigestInput | src/main/java/io/lunamc/plugins/netty/login/session/NettySessionClient.java:59-62 | the digest is fed the server id in ISO-8859-1, then the shared secret, then the public key |
| SessionClient.MessageDigest.Update | src/main/java/io/lunamc/plugins/netty/login/session/NettySessionClient.java:60-62 | each update appends its bytes to the digest's input |
| SessionClient.JoinUrlQuery | src/main/java/io/lunamc/plugins/netty/login/session/NettySessionClient.java:44-65 | the query splits back into exactly the user name and the hash parameter, as long as the encoded values hold no `&` |
| SessionClient.AcceptResponse | src/main/java/io/lunamc/plugins/netty/login/session/NettySessionClient.java:67-77 | a profile is read exactly when there is a response with a body, an accepted status (2xx other than 204) and a non-empty body; a missing response or body is refused with "No response", then a bad status with a message naming it; every refusal is an UnsupportedOperationException |
| SessionClient.AvailableIffRunning | src/main/java/io/lunamc/plugins/netty/login/session/NettySessionClient.java:109-111 | a group is available exactly while it runs |
| SessionClient.HttpClient.Close | src/main/java/io/lunamc/plugins/netty/login/session/NettySessionClient.java:82-83 | closing the client leaves the caller's group running |
| SessionClient.HttpClient.Get | src/main/java/io/lunamc/plugins/netty/login/session/NettySessionClient.java:66 | the request for the URL is recorded |
| SessionClient.NettySessionClient.constructor | src/main/java/io/lunamc/plugins/netty/login/session/NettySessionClient.java:51-55 | a new session client holds no HTTP client |
| SessionClient.NettySessionClient.CreateClient | src/main/java/io/lunamc/plugins/netty/login/session/NettySessionClient.java:101-107 | a fresh open client on the holder's worker group, or on a group of its own when the holder has none |
| SessionClient.NettySessionClient.GetClient | src/main/java/io/lunamc/plugins/netty/login/session/NettySessionClient.java:86-99 | a missing or closed client is created; an open one is kept while its group is available and replaced otherwise; the call fails when the new group is not available either |
| SessionClient.NettySessionClient.AnnotateJoin | src/main/java/io/lunamc/plugins/netty/login/session/NettySessionClient.java:57-78 | the digest gets the three parts in order and the join URL is requested through the current client; a failing `getClient` is thrown and nothing is requested |
| SessionClient.NettySessionClient.Shutdown | src/main/java/io/lunamc/plugins/netty/login/session/NettySessionClient.java:80-84 | the client, if there is one, is closed |
| SessionClient.RecoverAfterRestart | src/main/java/io/lunamc/plugins/netty/login/session/NettySessionClient.java:86-99 | after the holder restarts, the next lookup moves to the new worker group and succeeds |
| NettyUtils.FirstMessageOfChain | src/main/java/io/lunamc/plugins/netty/utils/NettyUtils.java:98-105 | `getFirstMessage` finds nothing exactly when no throwable on the cause chain has a message, and otherwise the message of the outermost one that has one |
| NettyUtils.GetEpollUnavailabilityReason | src/main/java/io/lunamc/plugins/netty/utils/NettyUtils.java:72-80 | there is a reason exactly when native transport is unavailable |
| NettyUtils.UnavailabilityReasonFallback | src/main/java/io/lunamc/plugins/netty/utils/NettyUtils.java:72-80 | the reason is the class name exactly when no throwable on the chain has a message, and otherwise the first message |
| NettyUtils.Construct | src/main/java/io/lunamc/plugins/netty/utils/NettyUtils.java:43-45 | the utility class cannot be instantiated |
| NettyUtils.WriteFlushAndClose | src/main/java/io/lunamc/plugins/netty/utils/NettyUtils.java:53-56 | the message goes out, then the channel closes |

## Left out

- Utf8.Decode: replaces each byte that starts no well-formed sequence with its own U+FFFD. Java's UTF-8 decoder replaces a malformed prefix as a whole, so the bytes 0xE2 0x82 0x41 give one U+FFFD then `A` in Java and two U+FFFD then `A` here. Well-formed input decodes the same, and only well-formed input is reasoned about.
- Codec.ReadCharsFrom: the exception a negative length raises is taken to be IndexOutOfBoundsException. The code does not say which exception it is. In Netty, `readCharSequence` reaches `new String(array, offset, length, charset)` on a heap buffer, or `getBytes` on a direct one, and both raise an exception of the IndexOutOfBounds family. The subclass and its message are not modelled.
- Utf16.RoundTrip: strings holding U+FFFE are excluded, here and in `Codec.Utf16CharsRoundTrip`, `LegacyPing.LegacyStringRoundTrip` and `LegacyPing.LegacyReplyRoundTrip`, because Java's `UTF_16BE` decoder treats that unit as malformed (`Utf16.ReversedMarkReplaced`).
- Cryptography is given as parameters and is not computed: RSA decryption, SHA-1 and its
  two's-complement hex rendering, the AES key, and the public key encoding.
- URL encoding (`NettySessionClient.encode`) and JSON (de)serialization are parameters.
  `SessionClient.JoinUrlQuery` assumes only what URL encoding guarantees: no `&` in its output.
- The HTTP transport and asynchrony are not modelled.
  - The response comes back as a parameter of `SessionClient.AcceptResponse`.
  - A lookup that fails later, after `annotateJoin` has returned its future, never reaches the
    login handler, because `thenAccept` has no failure path. The model therefore resumes the
    login only on success. A failure while starting the lookup is modelled (`Login.AuthorizeStep`).
  - The login handler is given the session client's state as one outcome per handler; `authorize`
    runs at most once per handler, so this is the state when it runs.
- Randomness is a parameter: the 17-character server id (only its shape is fixed) and each
  keep-alive id.
- Logging is not modelled: the debug logger's warning in `initChannel`, `debugChannelPipeline`,
  and the timing messages of `start`.
- The choice between epoll and NIO (`createEventLoopGroup`, the socket channel classes) is not
  modelled. Event loop groups are modelled by their lifecycle only.
- The view's other delegating operations (`next`, `register`, `submit`, `schedule`, `invokeAll`
  and the rest) are not modelled, since they only pass calls on.
- `ServiceRegistration.requireInstance` failures are not modelled: registered services are taken
  to be present.
- `msg.release()` and buffer reference counting are not modelled.
- `synchronized` and all concurrency are not modelled.
- `ProtocolUtils`, `NettyInitializedConnection`, `PacketInboundHandlerAdapter`, the frame
  decoder, length prepender, cipher and compression codecs, and `StaticProfile` are not part of
  this model.
  - Their stage names are placeholder constants, distinct from each other.
  - The offline profile is a parameter.
- Two constructor calls do not match the constructors shown, so the model builds each handler
  from its own constructor:
  - `ProtocolHandshakeHandler.java:105` passes three arguments to the four-parameter
    `ProtocolLoginHandler` constructor.
  - `NettyServer.java:93-100` passes six arguments, in a different order, to the five-parameter
    `LunaChannelInitializer` constructor.
- Initializer.InitChannel requires a pipeline with no stages yet, as Netty hands it to the
  initializer; the channel initializer's own stage is not modelled.
- Login.ProtocolLoginHandler.SetupCompression: the Set Compression packet is built (lines 240-244)
  but never written, and the model sends nothing, as the code does.
- EventLoops.DefaultEventLoopGroupHolder.Shutdown: the wait for termination is taken to complete.
  An interrupted or failed wait, which `safeGet` ignores, is not modelled.
- SessionClient.NettySessionClient.GetClient: the old client is dropped without being closed, as
  the code does. Its resources are not modelled.
- The read timeout of `ReadTimeoutHandler` is a stage with its configured timeout; the timing
  itself is not modelled.
- The Netty pipeline is modelled as a named list of stages. Event propagation through handler
  contexts, `voidPromise` and write futures are not modelled, apart from write-then-close.
- `getStartPriority` and `getShutdownPriority` are the constants `Server.START_PRIORITY` and
  `Server.SHUTDOWN_PRIORITY`, with no contract.

## Findings

| source | as written | input that shows it | evidently intended | confidence | as-written member | corrected member |
|---|---|---|---|---|---|---|
| src/main/java/io/lunamc/plugins/netty/handler/LegacyPingHandler.java:54-55 | `readByte()` gives a signed byte (-128..127), which is compared with the `int` 0xFE (254), so the comparison never holds and no legacy ping is ever answered | a Beta 1.8 client's ping, the single byte 0xFE: the handler removes itself and passes the byte on instead of replying | compare the unsigned value (`readUnsignedByte()`, or `b == (byte) 0xfe`), so that a message opening with 0xFE is answered | high (not executed) | LegacyPing.ChannelRead0, LegacyPing.SignedByteNeverFeOrFa | LegacyPing.ChannelRead0Unsigned, LegacyPing.BetaPingAnsweredWhenUnsigned |
| src/main/java/io/lunamc/plugins/netty/handler/LegacyPingHandler.java:42 | `LEGACY_DELIMITER` is a backspace, two zero digits, a backspace and two zero digits; it holds no NUL, so the reply composed at lines 149-155 has a NUL only after the marker | a 1.5 ping answered with protocol version 61, server version "1.5.2", message "A", 0 of 20 players: split at NUL, the reply gives the marker and one field `61`, backspace, `00`, backspace, `001.5.2`, … instead of six fields | separate the five values with a single NUL, as the 1.4 to 1.6 server list reply does | high (not executed) | LegacyPing.ComposeLegacyStatusResponseData, LegacyPing.LegacyStatusFields | LegacyPing.ComposeNulDelimitedStatusData, LegacyPing.NulDelimitedStatusFields |

=== FILE: buffers.dfy ===
/**
 * Netty's ByteBuf as the handlers use it: bytes written so far and a reader index. Reads
 * advance the reader index by what they consume and leave it unchanged when they throw.
 * The static helpers of ProtocolUtils (VarInt and string codecs) sit beside the class.
 */
module Buffers {
  import opened Wrappers
  import opened Bytes
  import opened Codec
  import VarInt

  class ByteBuf {
    var data: seq<uint8>
    var readerIndex: nat

    ghost predicate Valid()
      reads this
    {
      readerIndex <= |data|
    }

    /** The bytes not yet read. */
    function Readable(): seq<uint8>
      reads this
      requires Valid()
    {
      data[readerIndex..]
    }

    /** Netty's `isReadable`. */
    function IsReadable(): (b: bool)
      reads this
      requires Valid()
      ensures b <==> Readable() != []
    {
      readerIndex < |data|
    }

    /** A freshly allocated, empty buffer. */
    constructor Allocate()
      ensures Valid() && data == [] && readerIndex == 0
    {
      data, readerIndex := [], 0;
    }

    /** A buffer holding `bytes`, none of them read yet. */
    constructor Wrap(bytes: seq<uint8>)
      ensures Valid() && data == bytes && readerIndex == 0
    {
      data, readerIndex := bytes, 0;
    }

    /** Applies the outcome of a pure reader to the reader index. */
    method Consume<T>(p: Read<T>) returns (r: Result<T>)
      requires Valid() && Fits(p, Readable())
      modifies this`readerIndex
      ensures Valid() && r == Value(p)
      ensures readerIndex == old(readerIndex) + Consumed(p)
    {
      if p.Success? {
        readerIndex := readerIndex + p.value.1;
        r := Success(p.value.0);
      } else {
        r := Failure(p.error);
      }
    }

    method ReadByte() returns (r: Result<int8>)
      requires Valid()
      modifies this`readerIndex
      ensures Valid() && r == Value(ReadByteFrom(old(Readable())))
      ensures readerIndex == old(readerIndex) + Consumed(ReadByteFrom(old(Readable())))
    {
      r := Consume(ReadByteFrom(Readable()));
    }

    method ReadShort() returns (r: Result<int16>)
      requires Valid()
      modifies this`readerIndex
      ensures Valid() && r == Value(ReadShortFrom(old(Readable())))
      ensures readerIndex == old(readerIndex) + Consumed(ReadShortFrom(old(Readable())))
    {
      r := Consume(ReadShortFrom(Readable()));
    }

    method ReadUnsignedShort() returns (r: Result<uint16>)
      requires Valid()
      modifies this`readerIndex
      ensures Valid() && r == Value(ReadUnsignedShortFrom(old(Readable())))
      ensures readerIndex == old(readerIndex) + Consumed(ReadUnsignedShortFrom(old(Readable())))
    {
      r := Consume(ReadUnsignedShortFrom(Readable()));
    }

    method ReadInt() returns (r: Result<int32>)
      requires Valid()
      modifies this`readerIndex
      ensures Valid() && r == Value(ReadIntFrom(old(Readable())))
      ensures readerIndex == old(readerIndex) + Consumed(ReadIntFrom(old(Readable())))
    {
      r := Consume(ReadIntFrom(Readable()));
    }

    method ReadLong() returns (r: Result<int64>)
      requires Valid()
      modifies this`readerIndex
      ensures Valid() && r == Value(ReadLongFrom(old(Readable())))
      ensures readerIndex == old(readerIndex) + Consumed(ReadLongFrom(old(Readable())))
    {
      r := Consume(ReadLongFrom(Readable()));
    }

    /** `readBytes(byte[] dst)` with a destination of length `n`. */
    method ReadBytes(n: nat) returns (r: Result<seq<uint8>>)
      requires Valid()
      modifies this`readerIndex
      ensures Valid() && r == Value(ReadBytesFrom(old(Readable()), n))
      ensures readerIndex == old(readerIndex) + Consumed(ReadBytesFrom(old(Readable()), n))
    {
      r := Consume(ReadBytesFrom(Readable(), n));
    }

    /** `readCharSequence(length, UTF_16BE)`. */
    method ReadUtf16Chars(length: int) returns (r: Result<string>)
      requires Valid()
      modifies this`readerIndex
      ensures Valid() && r == Value(ReadCharsFrom(old(Readable()), length, true))
      ensures readerIndex == old(readerIndex) + Consumed(ReadCharsFrom(old(Readable()), length, true))
    {
      r := Consume(ReadCharsFrom(Readable(), length, true));
    }

    /** `resetReaderIndex`: back to the marked index, which the handlers never move from 0. */
    method ResetReaderIndex()
      modifies this`readerIndex
      ensures Valid() && readerIndex == 0
    {
      readerIndex := 0;
    }

    /** `writeByte(int)`: the low eight bits. */
    method WriteByte(v: int)
      requires Valid()
      modifies this`data
      ensures Valid() && data == old(data) + [v % 0x100]
    {
      data := data + [v % 0x100];
    }

    method WriteShort(v: int)
      requires Valid()
      modifies this`data
      ensures Valid() && data == old(data) + ShortBytes(v)
    {
      data := data + ShortBytes(v);
    }

    method WriteInt(v: int)
      requires Valid()
      modifies this`data
      ensures Valid() && data == old(data) + IntBytes(v)
    {
      data := data + IntBytes(v);
    }

    method WriteLong(v: int)
      requires Valid()
      modifies this`data
      ensures Valid() && data == old(data) + LongBytes(v)
    {
      data := data + LongBytes(v);
    }

    method WriteBytes(bytes: seq<uint8>)
      requires Valid()
      modifies this`data
      ensures Valid() && data == old(data) + bytes
    {
      data := data + bytes;
    }
  }

  /** `ProtocolUtils.readVarInt`. */
  method ReadVarInt(buf: ByteBuf) returns (r: Result<int32>)
    requires buf.Valid()
    modifies buf`readerIndex
    ensures buf.Valid() && r == Value(ReadVarIntFrom(old(buf.Readable())))
    ensures buf.readerIndex == old(buf.readerIndex) + Consumed(ReadVarIntFrom(old(buf.Readable())))
  {
    r := buf.Consume(ReadVarIntFrom(buf.Readable()));
  }

  /** `ProtocolUtils.readString`. */
  method ReadString(buf: ByteBuf) returns (r: Result<string>)
    requires buf.Valid()
    modifies buf`readerIndex
    ensures buf.Valid() && r == Value(ReadStringFrom(old(buf.Readable())))
    ensures buf.readerIndex == old(buf.readerIndex) + Consumed(ReadStringFrom(old(buf.Readable())))
  {
    r := buf.Consume(ReadStringFrom(buf.Readable()));
  }

  /** `ProtocolUtils.writeVarInt`. */
  method WriteVarInt(buf: ByteBuf, v: int32)
    requires buf.Valid()
    modifies buf`data
    ensures buf.Valid() && buf.data == old(buf.data) + VarInt.Encode(v)
  {
    buf.WriteBytes(VarInt.Encode(v));
  }

  /** `ProtocolUtils.writeString`. */
  method WriteString(buf: ByteBuf, s: string)
    requires buf.Valid() && Writable(s)
    modifies buf`data
    ensures buf.Valid() && buf.data == old(buf.data) + StringBytes(s)
  {
    buf.WriteBytes(StringBytes(s));
  }
}

=== FILE: bytes.dfy ===
/**
 * Fixed-width integers as Java and Netty see them: buffers hold unsigned bytes, reads give
 * the signed two's-complement value of the width read, and writes keep only the low bits.
 */
module Bytes {

  type uint8 = x: int | 0 <= x < 0x100
  type int8 = x: int | -0x80 <= x < 0x80
  type uint16 = x: int | 0 <= x < 0x1_0000
  type int16 = x: int | -0x8000 <= x < 0x8000
  type int32 = x: int | -0x8000_0000 <= x < 0x8000_0000
  type int64 = x: int | -0x8000_0000_0000_0000 <= x < 0x8000_0000_0000_0000

  const TWO_16: nat := 0x1_0000
  const TWO_32: nat := 0x1_0000_0000
  const TWO_64: nat := 0x1_0000_0000_0000_0000

  function Pow256(n: nat): (r: nat)
    ensures r >= 1
  {
    if n == 0 then 1 else 256 * Pow256(n - 1)
  }

  lemma Pow256Values()
    ensures Pow256(1) == 0x100 && Pow256(2) == TWO_16
    ensures Pow256(4) == TWO_32 && Pow256(8) == TWO_64
  {
    assert Pow256(2) == 256 * 256;
    assert Pow256(4) == 256 * 256 * Pow256(2);
    assert Pow256(8) == 256 * 256 * 256 * 256 * Pow256(4);
  }

  /** The low `n` bytes of `x`, most significant byte first (Netty's byte order). */
  function ToBigEndian(x: nat, n: nat): (r: seq<uint8>)
    ensures |r| == n
  {
    if n == 0 then [] else ToBigEndian(x / 256, n - 1) + [x % 256]
  }

  /** The unsigned number whose big-endian bytes are `bs`. */
  function FromBigEndian(bs: seq<uint8>): (r: nat)
    ensures r < Pow256(|bs|)
  {
    if bs == [] then 0
    else
      var hi := FromBigEndian(bs[..|bs| - 1]);
      assert hi * 256 <= (Pow256(|bs| - 1) - 1) * 256;
      hi * 256 + bs[|bs| - 1]
  }

  lemma {:induction false} BigEndianRoundTrip(x: nat, n: nat)
    requires x < Pow256(n)
    ensures FromBigEndian(ToBigEndian(x, n)) == x
  {
    if n > 0 {
      var bs := ToBigEndian(x, n);
      assert bs[..n - 1] == ToBigEndian(x / 256, n - 1);
      assert x / 256 < Pow256(n - 1);
      BigEndianRoundTrip(x / 256, n - 1);
    }
  }

  /** Netty's `readByte`: the byte as a signed Java `byte`. */
  function SignedByte(b: uint8): (r: int8)
    ensures r % 0x100 == b
  {
    if b >= 0x80 then b - 0x100 else b
  }

  /** Netty's `writeShort(int)`: the low 16 bits, big-endian. */
  function ShortBytes(v: int): (r: seq<uint8>)
    ensures |r| == 2
  {
    ToBigEndian(v % TWO_16, 2)
  }

  /** Netty's `readShort`: two bytes as a signed 16-bit value. */
  function ShortValue(bs: seq<uint8>): (r: int16)
    requires |bs| == 2
    ensures r % TWO_16 == FromBigEndian(bs)
  {
    Pow256Values();
    var u := FromBigEndian(bs);
    if u >= 0x8000 then u - TWO_16 else u
  }

  /** The two bytes of a value below 2^16. */
  lemma ShortBytesOf(v: nat)
    requires v < TWO_16
    ensures ShortBytes(v) == [v / 0x100, v % 0x100]
  {
    assert v % TWO_16 == v;
    assert ToBigEndian(v / 0x100, 1) == [v / 0x100];
  }

  /** The signed value of two given bytes. */
  lemma ShortValueOf(hi: uint8, lo: uint8)
    ensures ShortValue([hi, lo]) == if hi < 0x80 then hi * 0x100 + lo else hi * 0x100 + lo - TWO_16
  {
    assert [hi, lo][..1] == [hi];
    assert FromBigEndian([hi]) == hi by { assert [hi][..0] == []; }
    Pow256Values();
  }

  /** Netty's `readUnsignedShort`. */
  function UnsignedShortValue(bs: seq<uint8>): (r: uint16)
    requires |bs| == 2
  {
    Pow256Values();
    FromBigEndian(bs)
  }

  /** Netty's `writeInt(int)`. */
  function IntBytes(v: int): (r: seq<uint8>)
    ensures |r| == 4
  {
    ToBigEndian(v % TWO_32, 4)
  }

  /** Netty's `readInt`. */
  function IntValue(bs: seq<uint8>): (r: int32)
    requires |bs| == 4
    ensures r % TWO_32 == FromBigEndian(bs)
  {
    Pow256Values();
    var u := FromBigEndian(bs);
    if u >= 0x8000_0000 then u - TWO_32 else u
  }

  /** Netty's `writeLong(long)`. */
  function LongBytes(v: int): (r: seq<uint8>)
    ensures |r| == 8
  {
    ToBigEndian(v % TWO_64, 8)
  }

  /** Netty's `readLong`. */
  function LongValue(bs: seq<uint8>): (r: int64)
    requires |bs| == 8
    ensures r % TWO_64 == FromBigEndian(bs)
  {
    Pow256Values();
    var u := FromBigEndian(bs);
    if u >= 0x8000_0000_0000_0000 then u - TWO_64 else u
  }

  /** A Java `int` as the unsigned 32-bit number with the same bits. */
  function Unsigned32(v: int32): (r: nat)
    ensures r < TWO_32
    ensures r % TWO_32 == v % TWO_32
  {
    if v < 0 then v + TWO_32 else v
  }

  /** The Java `int` whose bits are the unsigned 32-bit number `u`. */
  function Signed32(u: nat): (r: int32)
    requires u < TWO_32
    ensures Unsigned32(r) == u
  {
    if u >= 0x8000_0000 then u - TWO_32 else u
  }

  lemma ShortRoundTrip(v: int16)
    ensures ShortValue(ShortBytes(v)) == v
  {
    Pow256Values();
    BigEndianRoundTrip(v % TWO_16, 2);
  }

  lemma UnsignedShortRoundTrip(v: uint16)
    ensures UnsignedShortValue(ShortBytes(v)) == v
  {
    Pow256Values();
    BigEndianRoundTrip(v % TWO_16, 2);
  }

  lemma IntRoundTrip(v: int32)
    ensures IntValue(IntBytes(v)) == v
  {
    Pow256Values();
    BigEndianRoundTrip(v % TWO_32, 4);
  }

  lemma LongRoundTrip(v: int64)
    ensures LongValue(LongBytes(v)) == v
  {
    Pow256Values();
    BigEndianRoundTrip(v % TWO_64, 8);
  }
}

=== FILE: channels.dfy ===
/**
 * A client connection as the handlers see it: its remote address, whether it is active, the
 * handler pipeline, and the messages that went out to the client and on to the next inbound
 * handler, in order.
 */
module Channels {
  import opened Wrappers
  import opened Bytes
  import Pipelines

  /** An IP address by its octets: four for IPv4, sixteen for IPv6. */
  datatype IpAddress = Inet4(octets: seq<uint8>) | Inet6(octets: seq<uint8>) {
    predicate WellFormed() {
      if Inet4? then |octets| == 4 else |octets| == 16
    }
  }

  type InetAddress = a: IpAddress | a.WellFormed() witness Inet4([0, 0, 0, 0])

  /** `InetAddress.isLoopbackAddress`: 127.0.0.0/8, or `::1`. */
  predicate IsLoopback(a: InetAddress) {
    match a
    case Inet4(o) => o[0] == 127
    case Inet6(o) => (forall i :: 0 <= i < 15 ==> o[i] == 0) && o[15] == 1
  }

  /** `InetAddress.isAnyLocalAddress`: the wildcard address `0.0.0.0` or `::`. */
  predicate IsAnyLocal(a: InetAddress) {
    forall i :: 0 <= i < |a.octets| ==> a.octets[i] == 0
  }

  /** A channel's remote address: an IP socket address, or another kind (a local transport). */
  datatype SocketAddress =
    | InetSocketAddress(address: InetAddress, port: uint16)
    | OtherAddress(description: string)

  class Channel {
    const pipeline: Pipelines.Pipeline
    var remoteAddress: Option<SocketAddress>
    var active: bool
    /** Messages written and flushed to the client, in order. */
    var outbound: seq<seq<uint8>>
    /** Messages passed on to the next inbound handler, in order. */
    var inbound: seq<seq<uint8>>

    /** A freshly accepted connection with an empty pipeline. */
    constructor (remote: Option<SocketAddress>)
      ensures fresh(pipeline) && pipeline.Valid() && pipeline.stages == []
      ensures remoteAddress == remote && active && outbound == [] && inbound == []
    {
      pipeline := new Pipelines.Pipeline();
      remoteAddress := remote;
      active := true;
      outbound := [];
      inbound := [];
    }

    /** `writeAndFlush(msg)`. */
    method WriteAndFlush(msg: seq<uint8>)
      modifies this`outbound
      ensures outbound == old(outbound) + [msg]
    {
      outbound := outbound + [msg];
    }

    /** `fireChannelRead(msg)`: hands the message to the next inbound handler. */
    method FireChannelRead(msg: seq<uint8>)
      modifies this`inbound
      ensures inbound == old(inbound) + [msg]
    {
      inbound := inbound + [msg];
    }

    /** `close()`. */
    method Close()
      modifies this`active
      ensures !active
    {
      active := false;
    }
  }
}

=== FILE: codec.dfy ===
/**
 * Pure readers and writers of the wire primitives. A reader takes the readable bytes of a
 * buffer and gives the value read with the number of bytes it consumed, or the exception the
 * read throws; a writer gives the bytes appended.
 */
module Codec {
  import opened Wrappers
  import opened Bytes
  import VarInt
  import Utf8
  import Utf16

  /** A value read from the front of a byte sequence, with the number of bytes consumed. */
  type Read<T> = Result<(T, nat)>

  predicate Fits<T>(p: Read<T>, bs: seq<uint8>) {
    p.Success? ==> p.value.1 <= |bs|
  }

  function Value<T>(p: Read<T>): Result<T> {
    match p
    case Success(v) => Success(v.0)
    case Failure(e) => Failure(e)
  }

  function Consumed<T>(p: Read<T>): nat {
    if p.Success? then p.value.1 else 0
  }

  /** Takes `n` bytes; Netty throws IndexOutOfBoundsException when fewer are readable. */
  function ReadBytesFrom(bs: seq<uint8>, n: nat): (r: Read<seq<uint8>>)
    ensures Fits(r, bs)
    ensures r.Success? <==> n <= |bs|
    ensures r.Success? ==> r.value == (bs[..n], n)
  {
    if n <= |bs| then Success((bs[..n], n)) else Failure(IndexOutOfBoundsException)
  }

  function ReadByteFrom(bs: seq<uint8>): (r: Read<int8>)
    ensures Fits(r, bs)
  {
    if |bs| < 1 then Failure(IndexOutOfBoundsException) else Success((SignedByte(bs[0]), 1))
  }

  function ReadShortFrom(bs: seq<uint8>): (r: Read<int16>)
    ensures Fits(r, bs)
  {
    if |bs| < 2 then Failure(IndexOutOfBoundsException) else Success((ShortValue(bs[..2]), 2))
  }

  function ReadUnsignedShortFrom(bs: seq<uint8>): (r: Read<uint16>)
    ensures Fits(r, bs)
  {
    if |bs| < 2 then Failure(IndexOutOfBoundsException) else Success((UnsignedShortValue(bs[..2]), 2))
  }

  function ReadIntFrom(bs: seq<uint8>): (r: Read<int32>)
    ensures Fits(r, bs)
  {
    if |bs| < 4 then Failure(IndexOutOfBoundsException) else Success((IntValue(bs[..4]), 4))
  }

  function ReadLongFrom(bs: seq<uint8>): (r: Read<int64>)
    ensures Fits(r, bs)
  {
    if |bs| < 8 then Failure(IndexOutOfBoundsException) else Success((LongValue(bs[..8]), 8))
  }

  /**
   * Netty's `readCharSequence(length, charset)`: a negative length, and a length beyond the
   * readable bytes, are refused with an IndexOutOfBoundsException.
   */
  function ReadCharsFrom(bs: seq<uint8>, length: int, utf16: bool): (r: Read<string>)
    ensures Fits(r, bs)
  {
    if length < 0 then Failure(IndexOutOfBoundsException)
    else if length > |bs| then Failure(IndexOutOfBoundsException)
    else Success((if utf16 then Utf16.DecodeBe(bs[..length]) else Utf8.Decode(bs[..length]), length))
  }

  function ReadVarIntFrom(bs: seq<uint8>): (r: Read<int32>)
    ensures Fits(r, bs)
  {
    VarInt.Decode(bs)
  }

  /** A modern protocol string: a VarInt byte count followed by that many bytes of UTF-8. */
  function ReadStringFrom(bs: seq<uint8>): (r: Read<string>)
    ensures Fits(r, bs)
  {
    match VarInt.Decode(bs)
    case Failure(e) => Failure(e)
    case Success(p) =>
      match ReadCharsFrom(bs[p.1..], p.0, false)
      case Failure(e) => Failure(e)
      case Success(q) => Success((q.0, p.1 + q.1))
  }

  /** Strings whose UTF-8 form has a length a Java `int` can hold. */
  predicate Writable(s: string) {
    |Utf8.Encode(s)| < 0x8000_0000
  }

  /** `ProtocolUtils.writeString`. */
  function StringBytes(s: string): (r: seq<uint8>)
    requires Writable(s)
    ensures |r| > |Utf8.Encode(s)|
  {
    VarInt.Encode(|Utf8.Encode(s)|) + Utf8.Encode(s)
  }

  lemma StringRoundTrip(s: string, rest: seq<uint8>)
    requires Writable(s)
    ensures ReadStringFrom(StringBytes(s) + rest) == Success((s, |StringBytes(s)|))
  {
    var e := Utf8.Encode(s);
    var n := VarInt.Encode(|e|);
    var bs := StringBytes(s) + rest;
    assert bs == n + (e + rest);
    VarInt.RoundTrip(|e|, e + rest);
    assert bs[|n|..] == e + rest;
    Utf8CharsRoundTrip(s, rest);
  }

  /** The UTF-16BE bytes of a string without U+FFFE, read back as characters of that byte count. */
  lemma Utf16CharsRoundTrip(s: string, rest: seq<uint8>)
    requires '\U{FFFE}' !in s
    ensures var e := Utf16.EncodeBe(s);
      ReadCharsFrom(e + rest, |e|, true) == Success((s, |e|))
  {
    var e := Utf16.EncodeBe(s);
    assert (e + rest)[..|e|] == e;
    Utf16.RoundTrip(s);
  }

  /** The UTF-8 bytes of a string, read back as characters of that byte count. */
  lemma Utf8CharsRoundTrip(s: string, rest: seq<uint8>)
    ensures var e := Utf8.Encode(s);
      ReadCharsFrom(e + rest, |e|, false) == Success((s, |e|))
  {
    var e := Utf8.Encode(s);
    assert (e + rest)[..|e|] == e;
    Utf8.RoundTrip(s);
  }

  /** `VarInt` round trip stated for the reader. */
  lemma VarIntRoundTrip(v: int32, rest: seq<uint8>)
    ensures ReadVarIntFrom(VarInt.Encode(v) + rest) == Success((v, |VarInt.Encode(v)|))
  {
    VarInt.RoundTrip(v, rest);
  }

  lemma ReadUnsignedShortOfBytes(p: uint16, rest: seq<uint8>)
    ensures ReadUnsignedShortFrom(ShortBytes(p) + rest) == Success((p, 2))
  {
    assert (ShortBytes(p) + rest)[..2] == ShortBytes(p);
    UnsignedShortRoundTrip(p);
  }

  lemma ReadShortOfBytes(v: int16, rest: seq<uint8>)
    ensures ReadShortFrom(ShortBytes(v) + rest) == Success((v, 2))
  {
    assert (ShortBytes(v) + rest)[..2] == ShortBytes(v);
    ShortRoundTrip(v);
  }

  lemma ReadIntOfBytes(v: int32, rest: seq<uint8>)
    ensures ReadIntFrom(IntBytes(v) + rest) == Success((v, 4))
  {
    assert (IntBytes(v) + rest)[..4] == IntBytes(v);
    IntRoundTrip(v);
  }

  lemma ReadLongOfBytes(v: int64, rest: seq<uint8>)
    ensures ReadLongFrom(LongBytes(v) + rest) == Success((v, 8))
  {
    assert (LongBytes(v) + rest)[..8] == LongBytes(v);
    LongRoundTrip(v);
  }
}

=== FILE: connections.dfy ===
/**
 * The immutable connection snapshots handed to the host policies: a connection knows its
 * channel and whether the client is local; an initialized one adds what the client announced
 * in its handshake; a decided one adds the virtual host serving it; an authorized one adds the
 * player's profile and the compression in effect. Java `null` arguments are `None`/`null`
 * here and are refused as the constructors refuse them.
 */
module Connections {
  import opened Wrappers
  import opened Bytes
  import opened Channels
  import Codec

  /** A virtual host, identified by name; what it decides is given by the host policies. */
  datatype VirtualHost = VirtualHost(name: string)

  datatype ProfileData = ProfileData(id: string, name: string)

  /** A player profile; its id and name can be written as protocol strings. */
  type Profile = p: ProfileData | Codec.Writable(p.id) && Codec.Writable(p.name) witness ProfileData("", "")

  /** `VirtualHost.Compression`: the size threshold and the Deflater level. */
  datatype Compression = Compression(threshold: int32, level: int32)

  datatype Connection = Connection(channel: Channel, locallyConnected: bool)

  datatype InitializedConnection =
    InitializedConnection(connection: Connection, protocolVersion: int32, serverAddress: string, port: int32)

  datatype DecidedConnection = DecidedConnection(initialized: InitializedConnection, virtualHost: VirtualHost) {
    function Channel(): Channel {
      initialized.connection.channel
    }

    function ProtocolVersion(): int32 {
      initialized.protocolVersion
    }
  }

  datatype AuthorizedConnection =
    AuthorizedConnection(decided: DecidedConnection, profile: Profile, compression: Option<Compression>)

  /**
   * `isLocalAddress`: only an IP socket address can be local, and it is when its address is
   * the wildcard address or a loopback address.
   */
  predicate IsLocalAddress(remote: Option<SocketAddress>) {
    match remote
    case Some(InetSocketAddress(a, _)) => IsAnyLocal(a) || IsLoopback(a)
    case _ => false
  }

  /** `new NettyConnection(channel)`: whether the client is local is decided once, here. */
  function NewConnection(channel: Channel?): (r: Result<Connection>)
    reads (if channel == null then {} else {channel})`remoteAddress
    ensures r.Success? <==> channel != null
    ensures channel == null ==> r == Failure(NullPointerException("channel must not be null"))
    ensures r.Success? ==> r.value.channel == channel
    ensures r.Success? ==> (r.value.locallyConnected <==> IsLocalAddress(channel.remoteAddress))
  {
    if channel == null then Failure(NullPointerException("channel must not be null"))
    else Success(Connection(channel, IsLocalAddress(channel.remoteAddress)))
  }

  /** `getRemoteAddress`: read from the channel at each call, unlike `locallyConnected`. */
  function RemoteAddress(c: Connection): Option<SocketAddress>
    reads c.channel`remoteAddress
  {
    c.channel.remoteAddress
  }

  /** `new NettyInitializedConnection(channel, protocolVersion, serverAddress, port)`. */
  function NewInitializedConnection(channel: Channel?, protocolVersion: int32, serverAddress: string, port: int32)
    : (r: Result<InitializedConnection>)
    reads (if channel == null then {} else {channel})`remoteAddress
    ensures r.Success? <==> channel != null
    ensures r.Success? ==>
      && r.value.connection.channel == channel && r.value.protocolVersion == protocolVersion
      && r.value.serverAddress == serverAddress && r.value.port == port
  {
    var c :- NewConnection(channel);
    Success(InitializedConnection(c, protocolVersion, serverAddress, port))
  }

  /** `new NettyDecidedConnection(...)`: the superclass checks first, then the virtual host. */
  function NewDecidedConnection(channel: Channel?, protocolVersion: int32, serverAddress: string, port: int32,
                                virtualHost: Option<VirtualHost>): (r: Result<DecidedConnection>)
    reads (if channel == null then {} else {channel})`remoteAddress
    ensures r.Success? <==> channel != null && virtualHost.Some?
    ensures channel != null && virtualHost.None? ==> r == Failure(NullPointerException("virtualHost must not be null"))
    ensures r.Success? ==>
      && r.value.Channel() == channel && r.value.ProtocolVersion() == protocolVersion
      && r.value.initialized.serverAddress == serverAddress && r.value.initialized.port == port
      && r.value.virtualHost == virtualHost.value
  {
    var i :- NewInitializedConnection(channel, protocolVersion, serverAddress, port);
    if virtualHost.None? then Failure(NullPointerException("virtualHost must not be null"))
    else Success(DecidedConnection(i, virtualHost.value))
  }

  /**
   * `new NettyAuthorizedConnection(...)`: the superclasses check channel and host, then the
   * profile is checked; the compression may be absent and is kept as given.
   */
  function NewAuthorizedConnection(channel: Channel?, protocolVersion: int32, serverAddress: string, port: int32,
                                   virtualHost: Option<VirtualHost>, profile: Option<Profile>,
                                   compression: Option<Compression>): (r: Result<AuthorizedConnection>)
    reads (if channel == null then {} else {channel})`remoteAddress
    ensures r.Success? <==> channel != null && virtualHost.Some? && profile.Some?
    ensures channel != null && virtualHost.Some? && profile.None? ==>
      r == Failure(NullPointerException("profile must not be null"))
    ensures r.Success? ==>
      && r.value.decided.Channel() == channel && r.value.decided.ProtocolVersion() == protocolVersion
      && r.value.decided.initialized.serverAddress == serverAddress && r.value.decided.initialized.port == port
      && r.value.decided.virtualHost == virtualHost.value
      && r.value.profile == profile.value && r.value.compression == compression
  {
    var d :- NewDecidedConnection(channel, protocolVersion, serverAddress, port, virtualHost);
    if profile.None? then Failure(NullPointerException("profile must not be null"))
    else Success(AuthorizedConnection(d, profile.value, compression))
  }

  /**
   * Which clients are local, for every remote address: an IPv4 address in 127.0.0.0/8 or equal
   * to 0.0.0.0, an IPv6 address `::1` or `::`, and nothing that is not an IP socket address.
   */
  lemma LocalAddressClassified(remote: Option<SocketAddress>)
    ensures remote.None? ==> !IsLocalAddress(remote)
    ensures remote.Some? && remote.value.OtherAddress? ==> !IsLocalAddress(remote)
    ensures remote.Some? && remote.value.InetSocketAddress? && remote.value.address.Inet4? ==>
      var o := remote.value.address.octets;
      IsLocalAddress(remote) <==> o[0] == 127 || o == [0, 0, 0, 0]
    ensures remote.Some? && remote.value.InetSocketAddress? && remote.value.address.Inet6? ==>
      var o := remote.value.address.octets;
      IsLocalAddress(remote) <==> o[..15] == seq(15, _ => 0) && (o[15] == 0 || o[15] == 1)
  {
    if remote.Some? && remote.value.InetSocketAddress? {
      var o := remote.value.address.octets;
      if remote.value.address.Inet4? {
        assert o == [o[0], o[1], o[2], o[3]];
      } else {
        assert o[..15] == seq(15, _ => 0) <==> forall i :: 0 <= i < 15 ==> o[i] == 0;
      }
    }
  }
}

=== FILE: event_loops.dfy ===
/**
 * DefaultEventLoopGroupHolder: the boss and worker event loop groups of the server, each
 * handed out through a view that delegates everything except shutting the group down. The
 * holder's `shutdown` shuts down the groups it still holds and then waits for them.
 */
module EventLoops {
  import opened Wrappers

  /** The lifecycle of an event loop group, in the order it goes through it. */
  datatype GroupState = Running | ShuttingDown | Shutdown | Terminated

  const REFUSAL: string := "This event loop group cannot be shut down"
  /** The thread count Netty picks itself. */
  const DEFAULT_THREADS: nat := 0

  /** An event loop group with the number of threads it was created with. */
  class EventLoopGroup {
    const threads: nat
    var state: GroupState

    constructor (threads: nat)
      ensures this.threads == threads && state == Running
    {
      this.threads := threads;
      state := Running;
    }

    predicate IsShuttingDown()
      reads this
    {
      state != Running
    }

    predicate IsShutdown()
      reads this
    {
      state == Shutdown || state == Terminated
    }

    predicate IsTerminated()
      reads this
    {
      state == Terminated
    }

    /** `shutdownGracefully`: a running group starts shutting down; any other keeps its state. */
    method ShutdownGracefully()
      modifies this
      ensures state == if old(state) == Running then ShuttingDown else old(state)
    {
      if state == Running {
        state := ShuttingDown;
      }
    }

    /** Waiting on the termination future of a group that is shutting down. */
    method AwaitTermination()
      requires state != Running
      modifies this
      ensures state == Terminated
    {
      state := Terminated;
    }
  }

  /**
   * `shouldShutDown`: neither terminated, nor shutting down, nor shut down. This holds exactly
   * for a running group.
   */
  predicate ShouldShutDown(g: EventLoopGroup)
    reads g
  {
    !g.IsTerminated() && !g.IsShuttingDown() && !g.IsShutdown()
  }

  lemma ShouldShutDownOnlyRunning(g: EventLoopGroup)
    ensures ShouldShutDown(g) <==> g.state == Running
  {
  }

  /** IndestructibleEventLoopGroup: queries go to the delegate, shutting down is refused. */
  class IndestructibleEventLoopGroup {
    const delegate: EventLoopGroup

    constructor (delegate: EventLoopGroup)
      ensures this.delegate == delegate
    {
      this.delegate := delegate;
    }

    predicate IsShuttingDown()
      reads delegate
    {
      delegate.IsShuttingDown()
    }

    predicate IsShutdown()
      reads delegate
    {
      delegate.IsShutdown()
    }

    predicate IsTerminated()
      reads delegate
    {
      delegate.IsTerminated()
    }

    /** `shutdownGracefully()` and `shutdownGracefully(quietPeriod, timeout, unit)`. */
    method ShutdownGracefully() returns (o: Outcome)
      ensures o == Fail(UnsupportedOperationException(REFUSAL))
    {
      o := Fail(UnsupportedOperationException(REFUSAL));
    }

    /** `shutdown()`. */
    method Shutdown() returns (o: Outcome)
      ensures o == Fail(UnsupportedOperationException(REFUSAL))
    {
      o := Fail(UnsupportedOperationException(REFUSAL));
    }

    /** `shutdownNow()`. */
    method ShutdownNow() returns (o: Outcome)
      ensures o == Fail(UnsupportedOperationException(REFUSAL))
    {
      o := Fail(UnsupportedOperationException(REFUSAL));
    }
  }

  /** A view can be asked to shut down in every way and its group keeps running. */
  method ViewCannotShutDown(view: IndestructibleEventLoopGroup)
    requires view.delegate.state == Running
    ensures ShouldShutDown(view.delegate) && !view.IsShuttingDown()
  {
    var a := view.ShutdownGracefully();
    var b := view.Shutdown();
    var c := view.ShutdownNow();
    assert a.Fail? && b.Fail? && c.Fail?;
  }

  class DefaultEventLoopGroupHolder {
    var bossGroup: EventLoopGroup?
    var bossGroupView: IndestructibleEventLoopGroup?
    var workerGroup: EventLoopGroup?
    var workerGroupView: IndestructibleEventLoopGroup?

    /** Each group is held together with its view over it. */
    ghost predicate Valid()
      reads this
    {
      && (bossGroup == null <==> bossGroupView == null)
      && (bossGroupView != null ==> bossGroupView.delegate == bossGroup)
      && (workerGroup == null <==> workerGroupView == null)
      && (workerGroupView != null ==> workerGroupView.delegate == workerGroup)
      && (bossGroup != null && workerGroup != null ==> bossGroup != workerGroup)
    }

    constructor ()
      ensures Valid() && bossGroup == null && workerGroup == null
    {
      bossGroup, bossGroupView, workerGroup, workerGroupView := null, null, null, null;
    }

    /**
     * `start`: a one-thread boss group and a default worker group, each behind a view. Groups
     * held from an earlier start are dropped without being shut down.
     */
    method Start()
      modifies this
      ensures Valid()
      ensures fresh(bossGroup) && bossGroup.threads == 1 && bossGroup.state == Running
      ensures fresh(workerGroup) && workerGroup.threads == DEFAULT_THREADS && workerGroup.state == Running
      ensures fresh(bossGroupView) && fresh(workerGroupView)
    {
      bossGroup := new EventLoopGroup(1);
      bossGroupView := new IndestructibleEventLoopGroup(bossGroup);
      workerGroup := new EventLoopGroup(DEFAULT_THREADS);
      workerGroupView := new IndestructibleEventLoopGroup(workerGroup);
    }

    /** `getBossGroup`: the view, never the group itself. */
    method GetBossGroup() returns (g: IndestructibleEventLoopGroup?)
      requires Valid()
      ensures g == bossGroupView && (g != null ==> g.delegate == bossGroup)
    {
      g := bossGroupView;
    }

    /** `getWorkerGroup`: the view, never the group itself. */
    method GetWorkerGroup() returns (g: IndestructibleEventLoopGroup?)
      requires Valid()
      ensures g == workerGroupView && (g != null ==> g.delegate == workerGroup)
    {
      g := workerGroupView;
    }

    /**
     * `shutdown`: a held boss group is shut down when it is still running, a held worker group
     * always; each one shut down is released and waited for. A boss group that is already on
     * its way down stays held.
     */
    method Shutdown()
      requires Valid()
      modifies this, bossGroup, workerGroup
      ensures Valid()
      ensures old(bossGroup) != null && old(bossGroup.state) == Running ==>
        bossGroup == null && old(bossGroup).state == Terminated
      ensures old(bossGroup) != null && old(bossGroup.state) != Running ==>
        bossGroup == old(bossGroup) && bossGroupView == old(bossGroupView) && bossGroup.state == old(bossGroup.state)
      ensures old(bossGroup) == null ==> bossGroup == null
      ensures workerGroup == null && workerGroupView == null
      ensures old(workerGroup) != null ==> old(workerGroup).state == Terminated
    {
      var bossShutdown: EventLoopGroup? := null;
      if bossGroup != null && ShouldShutDown(bossGroup) {
        bossGroup.ShutdownGracefully();
        bossShutdown := bossGroup;
        bossGroup, bossGroupView := null, null;
      }
      var workerShutdown: EventLoopGroup? := null;
      if workerGroup != null {
        workerGroup.ShutdownGracefully();
        workerShutdown := workerGroup;
        workerGroup, workerGroupView := null, null;
      }
      if bossShutdown != null {
        bossShutdown.AwaitTermination();
      }
      if workerShutdown != null {
        workerShutdown.AwaitTermination();
      }
    }
  }

  /**
   * Shutting down a holder that holds no worker group and no running boss group, as after a
   * first shutdown, changes nothing.
   */
  method ShutdownWhenIdle(h: DefaultEventLoopGroupHolder)
    requires h.Valid() && h.workerGroup == null && (h.bossGroup != null ==> h.bossGroup.state != Running)
    modifies h, h.bossGroup
    ensures h.Valid() && h.workerGroup == null
    ensures h.bossGroup == old(h.bossGroup) && h.bossGroupView == old(h.bossGroupView)
    ensures h.bossGroup != null ==> h.bossGroup.state == old(h.bossGroup.state)
  {
    h.Shutdown();
  }
}

=== FILE: handshake.dfy ===
/**
 * The first handler of the modern protocol. It takes the handshake packet: the protocol
 * version, the address and port the client connected to, and the state it asks for next. The
 * virtual host is decided here, once for the whole connection, and the handshake handler then
 * replaces itself with the status or the login handler.
 */
module Handshake {
  import opened Wrappers
  import opened Bytes
  import opened Codec
  import opened Buffers
  import opened Channels
  import opened Connections
  import opened Hosts
  import opened Pipelines
  import Text
  import VarInt

  const HANDSHAKE_PACKET_ID: int := 0x00
  const NEXT_STATE_STATUS: int := 1
  const NEXT_STATE_LOGIN: int := 2

  /** The arguments `new ProtocolHandshakeHandler(...)` checks, in the order it checks them. */
  function HandshakeHandlerArguments(hasEncryptionFactory: bool, hasJsonMapper: bool,
                                     hasVirtualHostManager: bool, hasSessionClient: bool): (r: seq<(string, bool)>)
    ensures |r| == 4 && r[0] == ("encryptionFactory", hasEncryptionFactory) && r[1] == ("jsonMapper", hasJsonMapper)
    ensures (forall i :: 0 <= i < |r| ==> r[i].1) <==>
      hasEncryptionFactory && hasJsonMapper && hasVirtualHostManager && hasSessionClient
  {
    var r := [("encryptionFactory", hasEncryptionFactory), ("jsonMapper", hasJsonMapper),
              ("virtualHostManager", hasVirtualHostManager), ("sessionClient", hasSessionClient)];
    assert r[2].1 == hasVirtualHostManager && r[3].1 == hasSessionClient;
    r
  }

  /** The constructor: the handler is built exactly when all four service registrations are present. */
  function ConstructionCheck(hasEncryptionFactory: bool, hasJsonMapper: bool,
                             hasVirtualHostManager: bool, hasSessionClient: bool): (r: Outcome)
    ensures r.Pass? <==> hasEncryptionFactory && hasJsonMapper && hasVirtualHostManager && hasSessionClient
  {
    RequireNonNull(HandshakeHandlerArguments(hasEncryptionFactory, hasJsonMapper, hasVirtualHostManager, hasSessionClient))
  }

  /** The encryption factory is checked first, then the JSON mapper. */
  lemma ConstructionCheckOrder(hasEncryptionFactory: bool, hasJsonMapper: bool,
                               hasVirtualHostManager: bool, hasSessionClient: bool)
    ensures var r := ConstructionCheck(hasEncryptionFactory, hasJsonMapper, hasVirtualHostManager, hasSessionClient);
      && (!hasEncryptionFactory ==> r == Fail(NullPointerException("encryptionFactory" + " must not be null")))
      && (hasEncryptionFactory && !hasJsonMapper ==> r == Fail(NullPointerException("jsonMapper" + " must not be null")))
  {
    var arguments := HandshakeHandlerArguments(hasEncryptionFactory, hasJsonMapper, hasVirtualHostManager, hasSessionClient);
    assert arguments[1..][0] == arguments[1];
  }

  /** The handshake packet's fields, in the order they are sent. */
  datatype HandshakeRequest = HandshakeRequest(protocolVersion: int32, serverAddress: string, port: uint16, nextState: int32)

  /** The handshake's fields, read one after the other. */
  function ReadHandshakeFrom(bs: seq<uint8>): (r: Read<HandshakeRequest>)
    ensures Fits(r, bs)
  {
    var head := ReadVersionAndAddressFrom(bs);
    CombineHandshake(head, ReadPortAndNextStateFrom(bs[Consumed(head)..]))
  }

  /** The request from its two halves, or the failure of the first half that failed. */
  function CombineHandshake(head: Read<(int32, string)>, tail: Read<(uint16, int32)>): (r: Read<HandshakeRequest>)
    ensures r.Success? ==> r.value.1 == Consumed(head) + Consumed(tail)
  {
    match head
    case Failure(e) => Failure(e)
    case Success(((version, address), k)) =>
      match tail
      case Failure(e) => Failure(e)
      case Success(((port, nextState), n)) => Success((HandshakeRequest(version, address, port, nextState), k + n))
  }

  /** The protocol version as a VarInt, then the server address as a string. */
  function ReadVersionAndAddressFrom(bs: seq<uint8>): (r: Read<(int32, string)>)
    ensures Fits(r, bs)
  {
    match ReadVarIntFrom(bs)
    case Failure(e) => Failure(e)
    case Success((version, k)) =>
      match ReadStringFrom(bs[k..])
      case Failure(e) => Failure(e)
      case Success((address, n)) => Success(((version, address), k + n))
  }

  /** The port as an unsigned 16-bit value, then the next state as a VarInt. */
  function ReadPortAndNextStateFrom(bs: seq<uint8>): (r: Read<(uint16, int32)>)
    ensures Fits(r, bs)
  {
    match ReadUnsignedShortFrom(bs)
    case Failure(e) => Failure(e)
    case Success((port, k)) =>
      match ReadVarIntFrom(bs[k..])
      case Failure(e) => Failure(e)
      case Success((nextState, n)) => Success(((port, nextState), k + n))
  }

  /** The handshake as a client writes it. */
  function HandshakeBytes(h: HandshakeRequest): seq<uint8>
    requires Writable(h.serverAddress)
  {
    VarInt.Encode(h.protocolVersion) + StringBytes(h.serverAddress) + ShortBytes(h.port) + VarInt.Encode(h.nextState)
  }

  /** The handler reads back every handshake a client can write, and no byte more. */
  lemma HandshakeRoundTrip(h: HandshakeRequest, rest: seq<uint8>)
    requires Writable(h.serverAddress)
    ensures ReadHandshakeFrom(HandshakeBytes(h) + rest) == Success((h, |HandshakeBytes(h)|))
  {
    var head := VarInt.Encode(h.protocolVersion) + StringBytes(h.serverAddress);
    var tail := ShortBytes(h.port) + VarInt.Encode(h.nextState);
    var bs := HandshakeBytes(h) + rest;
    HandshakeBytesHalves(h, rest);
    VersionAndAddressRoundTrip(h.protocolVersion, h.serverAddress, tail + rest);
    PortAndNextStateRoundTrip(h.port, h.nextState, rest);
    ReadHandshakeOfHalves(bs, h, |head|, |tail|);
  }

  lemma HandshakeBytesHalves(h: HandshakeRequest, rest: seq<uint8>)
    requires Writable(h.serverAddress)
    ensures var head := VarInt.Encode(h.protocolVersion) + StringBytes(h.serverAddress);
      var tail := ShortBytes(h.port) + VarInt.Encode(h.nextState);
      && HandshakeBytes(h) + rest == head + (tail + rest)
      && (HandshakeBytes(h) + rest)[|head|..] == tail + rest
      && |HandshakeBytes(h)| == |head| + |tail|
  {
    var head := VarInt.Encode(h.protocolVersion) + StringBytes(h.serverAddress);
    var tail := ShortBytes(h.port) + VarInt.Encode(h.nextState);
    assert HandshakeBytes(h) == head + tail;
  }

  /** The handshake from its two halves, read one after the other. */
  lemma ReadHandshakeOfHalves(bs: seq<uint8>, h: HandshakeRequest, k: nat, n: nat)
    requires ReadVersionAndAddressFrom(bs) == Success(((h.protocolVersion, h.serverAddress), k))
    requires k <= |bs| && ReadPortAndNextStateFrom(bs[k..]) == Success(((h.port, h.nextState), n))
    ensures ReadHandshakeFrom(bs) == Success((h, k + n))
  {
    var head := ReadVersionAndAddressFrom(bs);
    assert Consumed(head) == k;
    assert ReadHandshakeFrom(bs) == CombineHandshake(head, ReadPortAndNextStateFrom(bs[k..]));
    CombineHalves(h, k, n);
  }

  lemma CombineHalves(h: HandshakeRequest, k: nat, n: nat)
    ensures CombineHandshake(Success(((h.protocolVersion, h.serverAddress), k)), Success(((h.port, h.nextState), n)))
      == Success((h, k + n))
  {
  }

  lemma VersionAndAddressRoundTrip(version: int32, address: string, rest: seq<uint8>)
    requires Writable(address)
    ensures var head := VarInt.Encode(version) + StringBytes(address);
      ReadVersionAndAddressFrom(head + rest) == Success(((version, address), |head|))
  {
    var v := VarInt.Encode(version);
    var a := StringBytes(address);
    assert v + a + rest == v + (a + rest);
    VarIntRoundTrip(version, a + rest);
    assert (v + (a + rest))[|v|..] == a + rest;
    StringRoundTrip(address, rest);
  }

  lemma PortAndNextStateRoundTrip(port: uint16, nextState: int32, rest: seq<uint8>)
    ensures var tail := ShortBytes(port) + VarInt.Encode(nextState);
      ReadPortAndNextStateFrom(tail + rest) == Success(((port, nextState), |tail|))
  {
    var p := ShortBytes(port);
    var n := VarInt.Encode(nextState);
    assert p + n + rest == p + (n + rest);
    ReadUnsignedShortOfBytes(port, n + rest);
    assert (p + (n + rest))[2..] == n + rest;
    VarIntRoundTrip(nextState, rest);
  }

  /** The matched host, else the fallback host, else the connection cannot be served. */
  function ChooseHost(matched: Option<VirtualHost>, fallback: Option<VirtualHost>): Result<VirtualHost> {
    if matched.Some? then Success(matched.value)
    else if fallback.Some? then Success(fallback.value)
    else Failure(IllegalStateException("No fallback host found"))
  }

  /** The connection as decided for a handshake: the host that serves it and what was announced. */
  function Decide(h: HandshakeRequest, ch: Channel, hosts: VirtualHostManager): Result<DecidedConnection>
    reads ch`remoteAddress
  {
    var connection := NewInitializedConnection(ch, h.protocolVersion, h.serverAddress, h.port).value;
    var host :- ChooseHost(hosts.matchHost(connection), hosts.fallbackHost);
    NewDecidedConnection(ch, h.protocolVersion, h.serverAddress, h.port, Some(host))
  }

  /** The stage that takes over for the requested next state. */
  function NextStage(nextState: int32): Result<Stage> {
    if nextState == NEXT_STATE_STATUS then Success(Stage(STATUS, StatusHandler))
    else if nextState == NEXT_STATE_LOGIN then Success(Stage(LOGIN, LoginHandler))
    else Failure(ProtocolException("Unexpected next state " + Text.DecimalString(nextState)))
  }

  /**
   * `handleHandshakeRequest` on the packet's content: the decided connection and the pipeline
   * after the replacement, or what is thrown first. The host is decided before the next
   * state is looked at.
   */
  function HandshakeTransition(bs: seq<uint8>, ch: Channel, hosts: VirtualHostManager, stages: seq<Stage>)
    : Result<(DecidedConnection, seq<Stage>)>
    reads ch`remoteAddress
  {
    var request :- ReadHandshakeFrom(bs);
    var decided :- Decide(request.0, ch, hosts);
    var next :- NextStage(request.0.nextState);
    var replaced :- ReplaceStage(stages, HANDSHAKE, next.name, next.handler);
    Success((decided, replaced))
  }

  /**
   * A well-formed handshake asking for status or login, on a channel whose pipeline holds the
   * handshake handler and not yet the next handler, is served when some host matches or a
   * fallback exists: the decided connection carries what was announced and the matched host
   * (the fallback only when none matched), and the next handler takes the handshake handler's
   * place with every other stage left where it was.
   */
  lemma HandshakeServed(h: HandshakeRequest, rest: seq<uint8>, ch: Channel, hosts: VirtualHostManager, stages: seq<Stage>)
    requires Writable(h.serverAddress)
    requires h.nextState == NEXT_STATE_STATUS || h.nextState == NEXT_STATE_LOGIN
    requires Unique(Names(stages)) && HANDSHAKE in Names(stages)
    requires STATUS !in Names(stages) && LOGIN !in Names(stages)
    requires var c := InitializedConnection(Connection(ch, IsLocalAddress(ch.remoteAddress)), h.protocolVersion, h.serverAddress, h.port);
      hosts.matchHost(c).Some? || hosts.fallbackHost.Some?
    ensures var r := HandshakeTransition(HandshakeBytes(h) + rest, ch, hosts, stages);
      var c := InitializedConnection(Connection(ch, IsLocalAddress(ch.remoteAddress)), h.protocolVersion, h.serverAddress, h.port);
      var i := Position(Names(stages), HANDSHAKE);
      && r.Success?
      && r.value.0 == DecidedConnection(c, if hosts.matchHost(c).Some? then hosts.matchHost(c).value else hosts.fallbackHost.value)
      && r.value.1 == stages[i := NextStage(h.nextState).value]
      && r.value.1[i].name == (if h.nextState == NEXT_STATE_STATUS then STATUS else LOGIN)
      && Unique(Names(r.value.1))
  {
    HandshakeRoundTrip(h, rest);
    ReplaceKeepsUnique(stages, HANDSHAKE, NextStage(h.nextState).value.name, NextStage(h.nextState).value.handler);
  }

  /** Without a matching or fallback host the handshake fails, whatever state it asks for next. */
  lemma HandshakeWithoutHost(h: HandshakeRequest, rest: seq<uint8>, ch: Channel, hosts: VirtualHostManager, stages: seq<Stage>)
    requires Writable(h.serverAddress)
    requires hosts.fallbackHost.None?
    requires hosts.matchHost(InitializedConnection(Connection(ch, IsLocalAddress(ch.remoteAddress)), h.protocolVersion, h.serverAddress, h.port)).None?
    ensures HandshakeTransition(HandshakeBytes(h) + rest, ch, hosts, stages) == Failure(IllegalStateException("No fallback host found"))
  {
    HandshakeRoundTrip(h, rest);
  }

  /** A next state other than status and login fails once a host is found, and the pipeline stays. */
  lemma HandshakeUnknownNextState(h: HandshakeRequest, rest: seq<uint8>, ch: Channel, hosts: VirtualHostManager, stages: seq<Stage>)
    requires Writable(h.serverAddress) && hosts.fallbackHost.Some?
    requires h.nextState != NEXT_STATE_STATUS && h.nextState != NEXT_STATE_LOGIN
    ensures HandshakeTransition(HandshakeBytes(h) + rest, ch, hosts, stages) ==
      Failure(ProtocolException("Unexpected next state " + Text.DecimalString(h.nextState)))
  {
    HandshakeRoundTrip(h, rest);
  }

  /** Reads the handshake's fields one after the other, as the handler does. */
  method ReadHandshake(content: ByteBuf) returns (r: Result<HandshakeRequest>)
    requires content.Valid()
    modifies content`readerIndex
    ensures content.Valid() && r == Value(ReadHandshakeFrom(old(content.Readable())))
    ensures r.Success? ==>
      content.readerIndex == old(content.readerIndex) + Consumed(ReadHandshakeFrom(old(content.Readable())))
  {
    ghost var bs := content.Readable();
    var head := ReadVersionAndAddress(content);
    if head.Failure? {
      return Failure(head.error);
    }
    ghost var k := Consumed(ReadVersionAndAddressFrom(bs));
    assert content.Readable() == bs[k..];
    assert ReadHandshakeFrom(bs) == CombineHandshake(ReadVersionAndAddressFrom(bs), ReadPortAndNextStateFrom(bs[k..]));
    var tail := ReadPortAndNextState(content);
    if tail.Failure? {
      return Failure(tail.error);
    }
    r := Success(HandshakeRequest(head.value.0, head.value.1, tail.value.0, tail.value.1));
  }

  method ReadVersionAndAddress(content: ByteBuf) returns (r: Result<(int32, string)>)
    requires content.Valid()
    modifies content`readerIndex
    ensures content.Valid() && r == Value(ReadVersionAndAddressFrom(old(content.Readable())))
    ensures r.Success? ==>
      content.readerIndex == old(content.readerIndex) + Consumed(ReadVersionAndAddressFrom(old(content.Readable())))
  {
    ghost var bs := content.Readable();
    var protocolVersion := ReadVarInt(content);
    if protocolVersion.Failure? {
      return Failure(protocolVersion.error);
    }
    ghost var afterVersion := Consumed(ReadVarIntFrom(bs));
    assert content.Readable() == bs[afterVersion..];
    var serverAddress := ReadString(content);
    if serverAddress.Failure? {
      return Failure(serverAddress.error);
    }
    r := Success((protocolVersion.value, serverAddress.value));
  }

  method ReadPortAndNextState(content: ByteBuf) returns (r: Result<(uint16, int32)>)
    requires content.Valid()
    modifies content`readerIndex
    ensures content.Valid() && r == Value(ReadPortAndNextStateFrom(old(content.Readable())))
    ensures r.Success? ==>
      content.readerIndex == old(content.readerIndex) + Consumed(ReadPortAndNextStateFrom(old(content.Readable())))
  {
    ghost var bs := content.Readable();
    var port := content.ReadUnsignedShort();
    if port.Failure? {
      return Failure(port.error);
    }
    assert content.Readable() == bs[2..];
    var nextState := ReadVarInt(content);
    if nextState.Failure? {
      return Failure(nextState.error);
    }
    r := Success((port.value, nextState.value));
  }

  /**
   * `handleHandshakeRequest`: the pipeline becomes what `HandshakeTransition` says, and stays
   * as it was when that fails. The decided connection is returned for the next handler.
   */
  method HandleHandshakeRequest(ch: Channel, content: ByteBuf, hosts: VirtualHostManager)
    returns (r: Result<DecidedConnection>)
    requires content.Valid() && ch.pipeline.Valid()
    modifies content`readerIndex, ch.pipeline
    ensures content.Valid() && ch.pipeline.Valid()
    ensures var t := old(HandshakeTransition(content.Readable(), ch, hosts, ch.pipeline.stages));
      if t.Success? then r == Success(t.value.0) && ch.pipeline.stages == t.value.1
      else r == Failure(t.error) && ch.pipeline.stages == old(ch.pipeline.stages)
  {
    var request := ReadHandshake(content);
    if request.Failure? {
      return Failure(request.error);
    }
    var h := request.value;
    var connection := NewInitializedConnection(ch, h.protocolVersion, h.serverAddress, h.port).value;
    var virtualHost := hosts.matchHost(connection);
    if virtualHost.None? {
      virtualHost := hosts.fallbackHost;
    }
    if virtualHost.None? {
      return Failure(IllegalStateException("No fallback host found"));
    }
    var decided := NewDecidedConnection(ch, h.protocolVersion, h.serverAddress, h.port, virtualHost).value;
    var o: Outcome;
    if h.nextState == NEXT_STATE_STATUS {
      o := ch.pipeline.Replace(HANDSHAKE, STATUS, StatusHandler);
    } else if h.nextState == NEXT_STATE_LOGIN {
      o := ch.pipeline.Replace(HANDSHAKE, LOGIN, LoginHandler);
    } else {
      return Failure(ProtocolException("Unexpected next state " + Text.DecimalString(h.nextState)));
    }
    if o.Fail? {
      return Failure(o.error);
    }
    r := Success(decided);
  }

  /**
   * `handlePacket`: packet 0x00 is the handshake; any other id is refused with its number in
   * hexadecimal.
   */
  method HandlePacket(ch: Channel, packetId: int32, content: ByteBuf, hosts: VirtualHostManager)
    returns (r: Result<DecidedConnection>)
    requires content.Valid() && ch.pipeline.Valid()
    modifies content`readerIndex, ch.pipeline
    ensures content.Valid() && ch.pipeline.Valid()
    ensures packetId != HANDSHAKE_PACKET_ID ==>
      && r == Failure(ProtocolException("Unexpected packet " + Text.HexString(packetId) + " during handshake"))
      && ch.pipeline.stages == old(ch.pipeline.stages)
    ensures packetId == HANDSHAKE_PACKET_ID ==>
      var t := old(HandshakeTransition(content.Readable(), ch, hosts, ch.pipeline.stages));
      if t.Success? then r == Success(t.value.0) && ch.pipeline.stages == t.value.1
      else r == Failure(t.error) && ch.pipeline.stages == old(ch.pipeline.stages)
  {
    if packetId == HANDSHAKE_PACKET_ID {
      r := HandleHandshakeRequest(ch, content, hosts);
    } else {
      r := Failure(ProtocolException("Unexpected packet " + Text.HexString(packetId) + " during handshake"));
    }
  }
}

=== FILE: hosts.dfy ===
/**
 * The collaborators the handlers consult, as total functions: the virtual host manager that
 * picks a host for a connection, each host's policy (authentication, compression, status
 * content) and the JSON mapper. How they decide is outside this model.
 */
module Hosts {
  import opened Wrappers
  import opened Bytes
  import opened Connections
  import Codec

  /** Serialized JSON, short enough to be written as a protocol string. */
  type Json = s: string | Codec.Writable(s) witness ""

  /** The status a host reports to a modern client; its content is the provider's business. */
  datatype StatusResponse = StatusResponse(content: string)

  /** What a Beta 1.8 to 1.3 client is told. */
  datatype BetaStatusResponse = BetaStatusResponse(motd: string, currentPlayers: int32, maxPlayers: int32)

  /** What a 1.4 to 1.6 client is told. */
  datatype LegacyStatusResponse =
    LegacyStatusResponse(protocolVersion: int32, serverVersion: string, motd: string, currentPlayers: int32, maxPlayers: int32)

  /** A virtual host's policy and status provider. */
  datatype HostPolicy = HostPolicy(
    isAuthenticated: DecidedConnection -> bool,
    compression: (DecidedConnection, Profile) -> Option<Compression>,
    status: DecidedConnection -> StatusResponse,
    beta: Connection -> BetaStatusResponse,
    legacy14: Connection -> LegacyStatusResponse,
    legacy16: DecidedConnection -> LegacyStatusResponse)

  /** `VirtualHostManager`: a host matching the connection, if any, and the fallback host, if any. */
  datatype VirtualHostManager = VirtualHostManager(
    matchHost: InitializedConnection -> Option<VirtualHost>,
    fallbackHost: Option<VirtualHost>,
    policy: VirtualHost -> HostPolicy)

  /**
   * The arguments of `SessionClient.annotateJoin`: the player's name, the server id as sent in
   * the Encryption Request, the shared secret and the encoded public key.
   */
  datatype JoinRequest = JoinRequest(username: string, serverId: string, sharedSecret: seq<uint8>, publicKey: seq<uint8>)

  datatype JsonMapper = JsonMapper(serialize: StatusResponse -> Json, deserializeProfile: string -> Profile)
}

=== FILE: initializer.dfy ===
/**
 * LunaChannelInitializer: gives each accepted channel its initial pipeline. The read timeout
 * comes first, then the legacy ping sniffer, the frame decoder, the length prepender, the
 * outbound exception handler and the handshake handler; when channel debugging is on, a
 * logging stage follows the read timeout. The debug switch is a system property read once
 * per process, here a parameter.
 */
module Initializer {
  import opened Wrappers
  import opened Pipelines
  import opened Channels
  import LegacyPing
  import Handshake

  /**
   * `new LunaChannelInitializer(...)`: the configuration is checked, then the shared legacy
   * ping handler and the shared handshake handler are built, each checking its own arguments.
   * The initializer is built exactly when every argument is present.
   */
  function ConstructionCheck(hasConfig: bool, hasEncryptionFactory: bool, hasJsonMapper: bool,
                             hasVirtualHostManager: bool, hasSessionClient: bool): (r: Outcome)
    ensures r.Pass? <==> hasConfig && hasEncryptionFactory && hasJsonMapper && hasVirtualHostManager && hasSessionClient
    ensures !hasConfig ==> r == Fail(NullPointerException("config" + " must not be null"))
    ensures hasConfig && !hasVirtualHostManager ==> r == Fail(NullPointerException("virtualHostManager" + " must not be null"))
    ensures hasConfig && hasVirtualHostManager && !hasEncryptionFactory ==>
      r == Fail(NullPointerException("encryptionFactory" + " must not be null"))
  {
    if !hasConfig then RequireNonNull([("config", hasConfig)])
    else if !hasVirtualHostManager then LegacyPing.ConstructionCheck(hasVirtualHostManager)
    else
      Handshake.ConstructionCheckOrder(hasEncryptionFactory, hasJsonMapper, hasVirtualHostManager, hasSessionClient);
      Handshake.ConstructionCheck(hasEncryptionFactory, hasJsonMapper, hasVirtualHostManager, hasSessionClient)
  }

  /** The stages `initChannel` leaves on a new channel. */
  function InitialStages(timeoutSeconds: int, debug: bool): seq<Stage> {
    [Stage(READ_TIMEOUT, ReadTimeoutHandler(timeoutSeconds))]
    + (if debug then [Stage(DEBUG, LoggingHandler)] else [])
    + [Stage(LEGACY_PING, LegacyPingHandler), Stage(FRAME_DECODER, FrameDecoder),
       Stage(LENGTH_PREPENDER, LengthPrepender), Stage(OUTBOUND_EXCEPTION, OutboundExceptionHandler),
       Stage(HANDSHAKE, HandshakeHandler)]
  }

  /** A name in front of unique names that do not contain it. */
  lemma UniqueCons(name: string, names: seq<string>)
    requires name !in names && Unique(names)
    ensures Unique([name] + names)
  {
    assert ([name] + names)[1..] == names;
  }

  /** The stages after the read timeout and the optional logging stage. */
  const LATER_NAMES: seq<string> := [LEGACY_PING, FRAME_DECODER, LENGTH_PREPENDER, OUTBOUND_EXCEPTION, HANDSHAKE]

  lemma LaterNamesUnique()
    ensures Unique(LATER_NAMES)
  {
    NameLengths();
    assert Unique([HANDSHAKE]) by {
      assert [HANDSHAKE][1..] == [];
    }
    UniqueCons(OUTBOUND_EXCEPTION, [HANDSHAKE]);
    UniqueCons(LENGTH_PREPENDER, [OUTBOUND_EXCEPTION, HANDSHAKE]);
    UniqueCons(FRAME_DECODER, [LENGTH_PREPENDER, OUTBOUND_EXCEPTION, HANDSHAKE]);
    UniqueCons(LEGACY_PING, [FRAME_DECODER, LENGTH_PREPENDER, OUTBOUND_EXCEPTION, HANDSHAKE]);
  }

  /** The initial pipeline's names are unique. */
  lemma InitialStagesUnique(timeoutSeconds: int, debug: bool)
    ensures Unique(Names(InitialStages(timeoutSeconds, debug)))
  {
    InitialNames(timeoutSeconds, debug);
    NameLengths();
    LaterNamesUnique();
    if debug {
      UniqueCons(DEBUG, LATER_NAMES);
      UniqueCons(READ_TIMEOUT, [DEBUG] + LATER_NAMES);
    } else {
      UniqueCons(READ_TIMEOUT, LATER_NAMES);
    }
  }

  /** Neither a status nor a login handler is there yet, so the handshake can install one. */
  lemma InitialStagesAwaitHandshake(timeoutSeconds: int, debug: bool)
    ensures var names := Names(InitialStages(timeoutSeconds, debug));
      STATUS !in names && LOGIN !in names
  {
    var names := Names(InitialStages(timeoutSeconds, debug));
    InitialNames(timeoutSeconds, debug);
    NameLengths();
    assert STATUS !in LATER_NAMES && LOGIN !in LATER_NAMES by {
      assert LOGIN[0] != FRAME_DECODER[0];
    }
    assert names == ([READ_TIMEOUT] + (if debug then [DEBUG] else [])) + LATER_NAMES;
  }

  /**
   * The read timeout, with the configured timeout, comes first; the logging stage is present
   * exactly in debug mode and then sits right after the read timeout; the handshake handler
   * is last.
   */
  lemma InitialStagesOrder(timeoutSeconds: int, debug: bool)
    ensures var r := InitialStages(timeoutSeconds, debug);
      && r[0] == Stage(READ_TIMEOUT, ReadTimeoutHandler(timeoutSeconds))
      && (DEBUG in Names(r) <==> debug)
      && (debug ==> r[1] == Stage(DEBUG, LoggingHandler))
      && r[|r| - 1] == Stage(HANDSHAKE, HandshakeHandler)
  {
    InitialNames(timeoutSeconds, debug);
    NameLengths();
  }

  /** The names of the initial stages, in order. */
  lemma InitialNames(timeoutSeconds: int, debug: bool)
    ensures Names(InitialStages(timeoutSeconds, debug))
      == [READ_TIMEOUT] + (if debug then [DEBUG] else []) + LATER_NAMES
  {
    var r := InitialStages(timeoutSeconds, debug);
    var l := [READ_TIMEOUT] + (if debug then [DEBUG] else []) + LATER_NAMES;
    assert |Names(r)| == |l|;
    forall k | 0 <= k < |l| ensures Names(r)[k] == l[k] {
      assert Names(r)[k] == r[k].name;
    }
  }

  /** The stage names all have different lengths, which tells them apart. */
  lemma NameLengths()
    ensures |READ_TIMEOUT| == 12 && |DEBUG| == 5 && |LEGACY_PING| == 11 && |FRAME_DECODER| == 13
    ensures |LENGTH_PREPENDER| == 16 && |OUTBOUND_EXCEPTION| == 18 && |HANDSHAKE| == 17
    ensures |STATUS| == 14 && |LOGIN| == 13
  {
  }

  /**
   * `initChannel` on a channel whose pipeline has no stages of its own yet: six stages are
   * appended in order and, in debug mode, the logging stage is added after the read timeout.
   * Every step succeeds.
   */
  method InitChannel(ch: Channel, timeoutSeconds: int, debug: bool) returns (o: Outcome)
    requires ch.pipeline.Valid() && ch.pipeline.stages == []
    modifies ch.pipeline
    ensures o == Pass && ch.pipeline.Valid()
    ensures ch.pipeline.stages == InitialStages(timeoutSeconds, debug)
  {
    var p := ch.pipeline;
    var first := Stage(READ_TIMEOUT, ReadTimeoutHandler(timeoutSeconds));
    var tail := [Stage(LEGACY_PING, LegacyPingHandler), Stage(FRAME_DECODER, FrameDecoder),
                 Stage(LENGTH_PREPENDER, LengthPrepender), Stage(OUTBOUND_EXCEPTION, OutboundExceptionHandler),
                 Stage(HANDSHAKE, HandshakeHandler)];
    AppendedNamesDistinct(first, tail);
    AppendAll(p, [first] + tail);
    if debug {
      AddDebugAfterReadTimeout(p, first.handler, tail);
    }
    o := Pass;
  }

  /** The six appended stages have different names, none of them the logging stage's. */
  lemma AppendedNamesDistinct(first: Stage, tail: seq<Stage>)
    requires first.name == READ_TIMEOUT
    requires tail == [Stage(LEGACY_PING, LegacyPingHandler), Stage(FRAME_DECODER, FrameDecoder),
                      Stage(LENGTH_PREPENDER, LengthPrepender), Stage(OUTBOUND_EXCEPTION, OutboundExceptionHandler),
                      Stage(HANDSHAKE, HandshakeHandler)]
    ensures forall i, j :: 0 <= i < j < |[first] + tail| ==> ([first] + tail)[i].name != ([first] + tail)[j].name
    ensures forall i :: 0 <= i < |tail| ==> tail[i].name != DEBUG
  {
    NameLengths();
    var all := [first] + tail;
    assert forall i :: 0 <= i < |all| ==> |all[i].name| == [12, 11, 13, 16, 18, 17][i];
  }

  /** The chain of `addLast` calls, one per stage, on stages whose names differ. */
  method AppendAll(p: Pipeline, stages: seq<Stage>)
    requires p.Valid() && p.stages == []
    requires forall i, j :: 0 <= i < j < |stages| ==> stages[i].name != stages[j].name
    modifies p
    ensures p.Valid() && p.stages == stages
  {
    var k := 0;
    while k < |stages|
      invariant 0 <= k <= |stages|
      invariant p.Valid() && p.stages == stages[..k]
    {
      assert forall n :: n in Names(stages[..k]) ==> n != stages[k].name by {
        forall n | n in Names(stages[..k]) ensures n != stages[k].name {
          var i :| 0 <= i < k && Names(stages[..k])[i] == n;
        }
      }
      var o := p.AddLast(stages[k].name, stages[k].handler);
      assert stages[..k + 1] == stages[..k] + [stages[k]];
      k := k + 1;
    }
    assert stages[..k] == stages;
  }

  /** `addAfter("read-timeout", "debug", ...)` on the appended stages. */
  method AddDebugAfterReadTimeout(p: Pipeline, h: Handler, tail: seq<Stage>)
    requires p.Valid() && p.stages == [Stage(READ_TIMEOUT, h)] + tail
    requires forall i :: 0 <= i < |tail| ==> tail[i].name != DEBUG
    modifies p
    ensures p.Valid() && p.stages == [Stage(READ_TIMEOUT, h), Stage(DEBUG, LoggingHandler)] + tail
  {
    DebugInsertion(p.stages, h, tail);
    var o := p.AddAfter(READ_TIMEOUT, DEBUG, LoggingHandler);
  }

  /** Adding the logging stage after a leading read timeout puts it second. */
  lemma DebugInsertion(stages: seq<Stage>, h: Handler, tail: seq<Stage>)
    requires Unique(Names(stages)) && stages == [Stage(READ_TIMEOUT, h)] + tail
    requires forall i :: 0 <= i < |tail| ==> tail[i].name != DEBUG
    ensures InsertAfter(stages, READ_TIMEOUT, DEBUG, LoggingHandler)
      == Success([Stage(READ_TIMEOUT, h), Stage(DEBUG, LoggingHandler)] + tail)
  {
    var names := Names(stages);
    assert DEBUG !in names by {
      forall n | n in names ensures n != DEBUG {
        var i :| 0 <= i < |names| && names[i] == n;
        if i > 0 {
          assert n == tail[i - 1].name;
        }
      }
    }
    assert names[0] == READ_TIMEOUT;
    PositionOfUnique(names, 0);
    assert Position(names, READ_TIMEOUT) + 1 == 1;
    assert stages[..1] + [Stage(DEBUG, LoggingHandler)] + stages[1..]
      == [Stage(READ_TIMEOUT, h), Stage(DEBUG, LoggingHandler)] + tail;
  }
}

=== FILE: keep_alive.dfy ===
/**
 * KeepAliveHandler: once added to a pipeline it schedules a task at a fixed rate of ten
 * seconds. Each run writes one keep-alive packet while the channel is active and cancels the
 * schedule once it is not; removing the handler cancels the schedule as well. The scheduler's
 * runs are explicit calls of `Tick`, and the random keep-alive id is a parameter.
 */
module KeepAlive {
  import opened Wrappers
  import opened Bytes
  import opened Codec
  import opened Channels
  import opened Buffers
  import VarInt

  /** Seconds before the first run, and between runs. */
  const INTERVAL: nat := 10
  /** The buffer size the handler allocates: a one-byte packet id and at most five bytes of id. */
  const PACKET_KEEP_ALIVE_SIZE: nat := 6
  const KEEP_ALIVE_ID: int32 := 0x1f

  /** The keep-alive packet: its id, then the keep-alive id, both as VarInts. */
  function KeepAlivePacket(id: int32): (r: seq<uint8>)
    ensures 2 <= |r| <= PACKET_KEEP_ALIVE_SIZE
  {
    VarInt.Encode(KEEP_ALIVE_ID) + VarInt.Encode(id)
  }

  /** A client reading a keep-alive finds the packet id in one byte, then exactly the id sent. */
  lemma {:induction false} KeepAliveReadBack(id: int32)
    ensures var p := KeepAlivePacket(id);
      && ReadVarIntFrom(p) == Success((KEEP_ALIVE_ID, 1))
      && ReadVarIntFrom(p[1..]) == Success((id, |p| - 1))
  {
    var p := KeepAlivePacket(id);
    VarIntRoundTrip(KEEP_ALIVE_ID, VarInt.Encode(id));
    assert p[1..] == VarInt.Encode(id) + [];
    VarIntRoundTrip(id, []);
  }

  /**
   * A task scheduled at a fixed rate. Only the first cancellation takes effect; it records
   * whether the running task may be interrupted.
   */
  class ScheduledFuture {
    const initialDelay: nat
    const period: nat
    /** `None` while scheduled; after the first `cancel`, its `mayInterruptIfRunning`. */
    var cancelled: Option<bool>

    constructor (initialDelay: nat, period: nat)
      ensures this.initialDelay == initialDelay && this.period == period && cancelled == None
    {
      this.initialDelay, this.period := initialDelay, period;
      cancelled := None;
    }

    method Cancel(mayInterruptIfRunning: bool)
      modifies this`cancelled
      ensures cancelled == if old(cancelled).None? then Some(mayInterruptIfRunning) else old(cancelled)
    {
      if cancelled.None? {
        cancelled := Some(mayInterruptIfRunning);
      }
    }
  }

  class KeepAliveHandler {
    var keepAliveFuture: ScheduledFuture?

    constructor ()
      ensures keepAliveFuture == null
    {
      keepAliveFuture := null;
    }

    /** `handlerAdded`: a new schedule, first run after `INTERVAL` seconds and every `INTERVAL` after. */
    method HandlerAdded()
      modifies this
      ensures fresh(keepAliveFuture) && keepAliveFuture.cancelled == None
      ensures keepAliveFuture.initialDelay == INTERVAL && keepAliveFuture.period == INTERVAL
    {
      keepAliveFuture := new ScheduledFuture(INTERVAL, INTERVAL);
    }

    /**
     * One firing of the schedule. The executor never runs a cancelled task again, so a
     * cancelled schedule changes nothing. Otherwise the task runs: on an active channel one
     * keep-alive with the given id is written; on an inactive one the schedule is cancelled
     * with interruption and nothing is written.
     */
    method Tick(ch: Channel, id: int32)
      requires keepAliveFuture != null
      modifies ch`outbound, keepAliveFuture`cancelled
      ensures old(keepAliveFuture.cancelled).Some? ==> ch.outbound == old(ch.outbound) && unchanged(keepAliveFuture)
      ensures old(keepAliveFuture.cancelled).None? && ch.active ==>
        ch.outbound == old(ch.outbound) + [KeepAlivePacket(id)] && unchanged(keepAliveFuture)
      ensures old(keepAliveFuture.cancelled).None? && !ch.active ==>
        ch.outbound == old(ch.outbound) && keepAliveFuture.cancelled == Some(true)
    {
      if keepAliveFuture.cancelled.Some? {
        return;
      }
      if ch.active {
        WriteKeepAlive(ch, id);
      } else {
        keepAliveFuture.Cancel(true);
      }
    }

    /** `writeKeepAlive`: the packet goes out in one write. */
    static method WriteKeepAlive(ch: Channel, id: int32)
      modifies ch`outbound
      ensures ch.outbound == old(ch.outbound) + [KeepAlivePacket(id)]
    {
      var output := new ByteBuf.Allocate();
      WriteVarInt(output, KEEP_ALIVE_ID);
      WriteVarInt(output, id);
      assert output.data == KeepAlivePacket(id);
      ch.WriteAndFlush(output.data);
    }

    /** `handlerRemoved`: the schedule, if there is one, is cancelled without interruption. */
    method HandlerRemoved()
      modifies if keepAliveFuture != null then {keepAliveFuture} else {}
      ensures keepAliveFuture == old(keepAliveFuture)
      ensures keepAliveFuture != null ==>
        keepAliveFuture.cancelled == if old(keepAliveFuture.cancelled).None? then Some(false) else old(keepAliveFuture.cancelled)
    {
      if keepAliveFuture != null {
        keepAliveFuture.Cancel(false);
      }
    }
  }

  /**
   * A channel that went inactive: the next run cancels the schedule with interruption, and
   * removing the handler afterwards does not change that cancellation.
   */
  method InactiveThenRemoved(h: KeepAliveHandler, ch: Channel, id: int32)
    requires h.keepAliveFuture != null && h.keepAliveFuture.cancelled == None && !ch.active
    modifies ch`outbound, h.keepAliveFuture
    ensures h.keepAliveFuture.cancelled == Some(true) && ch.outbound == old(ch.outbound)
  {
    h.Tick(ch, id);
    h.HandlerRemoved();
  }

  /**
   * Removing the handler ends the keep-alives: whatever runs of the schedule follow, on an
   * active channel or not, nothing more is written.
   */
  method NoKeepAliveAfterRemoval(h: KeepAliveHandler, ch: Channel, ids: seq<int32>)
    requires h.keepAliveFuture != null
    modifies ch`outbound, h.keepAliveFuture
    ensures h.keepAliveFuture == old(h.keepAliveFuture) && h.keepAliveFuture.cancelled.Some?
    ensures ch.outbound == old(ch.outbound)
  {
    h.HandlerRemoved();
    for i := 0 to |ids|
      invariant h.keepAliveFuture == old(h.keepAliveFuture) && h.keepAliveFuture.cancelled.Some?
      invariant ch.outbound == old(ch.outbound)
    {
      h.Tick(ch, ids[i]);
    }
  }
}

=== FILE: legacy_ping.dfy ===
/**
 * The handler that answers the server list pings of pre-Netty clients (Beta 1.8 to 1.6). It
 * sits in front of the frame decoder and looks at the first byte of the first message: a
 * legacy ping starts with 0xFE. Any other first message makes it remove itself and pass the
 * message on untouched.
 *
 * As written, the first byte is read as a signed Java `byte` and compared with the `int` 0xFE,
 * which no signed byte equals, so every connection takes the second way. The legacy ping
 * handling is modelled on its own, as it would run if it were reached.
 */
module LegacyPing {
  import opened Wrappers
  import opened Bytes
  import opened Codec
  import opened Buffers
  import opened Channels
  import opened Connections
  import opened Hosts
  import Text
  import Utf16
  import Pipelines
  import NettyUtils

  const SECTION_SIGN: char := '\U{A7}'
  /** Separates the fields of a 1.4 to 1.6 reply: a backspace, two zero digits, twice. */
  const LEGACY_DELIMITER: string := ['\U{8}', '0', '0', '\U{8}', '0', '0']
  /** Opens a 1.4 to 1.6 reply. */
  const LEGACY_PREFIX: string := [SECTION_SIGN, '1', '\0']
  /** The first byte of a legacy ping and of every legacy reply. */
  const LEGACY_PING_ID: int := 0xFE
  const LEGACY_REPLY_ID: uint8 := 0xFF
  /** The plugin channel a 1.6 ping names. */
  const PING_HOST_CHANNEL: string := "MC|PingHost"

  /** `new LegacyPingHandler(virtualHostManager)`: only the virtual host manager is checked. */
  function ConstructionCheck(hasVirtualHostManager: bool): (r: Outcome)
    ensures r.Pass? <==> hasVirtualHostManager
    ensures !hasVirtualHostManager ==> r == Fail(NullPointerException("virtualHostManager" + " must not be null"))
  {
    RequireNonNull([("virtualHostManager", hasVirtualHostManager)])
  }

  // ---------------------------------------------------------------------------------------
  // Legacy strings: a 16-bit length in bytes, then UTF-16BE

  /** `writeLegacyString`: the byte count as a 16-bit value (its low 16 bits), then the bytes. */
  function LegacyStringBytes(s: string): (r: seq<uint8>)
    ensures |r| == 2 + 2 * Utf16.CodeUnits(s)
  {
    ShortBytes(|Utf16.EncodeBe(s)|) + Utf16.EncodeBe(s)
  }

  /** `readLegacyString`: a signed 16-bit length, then that many bytes decoded as UTF-16BE. */
  function ReadLegacyStringFrom(bs: seq<uint8>): (r: Read<string>)
    ensures Fits(r, bs)
  {
    match ReadShortFrom(bs)
    case Failure(e) => Failure(e)
    case Success((length, k)) =>
      match ReadCharsFrom(bs[k..], length, true)
      case Failure(e) => Failure(e)
      case Success((chars, n)) => Success((chars, k + n))
  }

  /** A string without U+FFFE whose encoding fits in 32767 bytes reads back as written. */
  lemma LegacyStringRoundTrip(s: string, rest: seq<uint8>)
    requires |Utf16.EncodeBe(s)| <= 0x7FFF && '\U{FFFE}' !in s
    ensures ReadLegacyStringFrom(LegacyStringBytes(s) + rest) == Success((s, |LegacyStringBytes(s)|))
  {
    var e := Utf16.EncodeBe(s);
    var bs := LegacyStringBytes(s) + rest;
    LegacyStringBytesSplit(s, rest);
    ReadShortOfBytes(|e|, e + rest);
    Utf16CharsRoundTrip(s, rest);
    ReadLegacyStringOfParts(bs, |e|, s, |e|);
  }

  lemma LegacyStringBytesSplit(s: string, rest: seq<uint8>)
    ensures var e := Utf16.EncodeBe(s);
      && LegacyStringBytes(s) + rest == ShortBytes(|e|) + (e + rest)
      && (LegacyStringBytes(s) + rest)[2..] == e + rest
  {
    var e := Utf16.EncodeBe(s);
    assert LegacyStringBytes(s) + rest == ShortBytes(|e|) + (e + rest);
  }

  /** A legacy string from its length and its characters, read one after the other. */
  lemma ReadLegacyStringOfParts(bs: seq<uint8>, length: int16, chars: string, n: nat)
    requires ReadShortFrom(bs) == Success((length, 2))
    requires 2 <= |bs| && ReadCharsFrom(bs[2..], length, true) == Success((chars, n))
    ensures ReadLegacyStringFrom(bs) == Success((chars, 2 + n))
  {
  }

  /**
   * A string of 32768 to 65535 bytes is written, but its length reads back negative and the
   * read is refused.
   */
  lemma LongLegacyStringRefused(s: string, rest: seq<uint8>)
    requires 0x8000 <= |Utf16.EncodeBe(s)| < 0x1_0000
    ensures ReadLegacyStringFrom(LegacyStringBytes(s) + rest).Failure?
    ensures ReadLegacyStringFrom(LegacyStringBytes(s) + rest).error == IndexOutOfBoundsException
  {
    var e := Utf16.EncodeBe(s);
    var v: int16 := |e| - 0x1_0000;
    assert |e| % TWO_16 == v % TWO_16;
    assert ShortBytes(|e|) == ShortBytes(v);
    LegacyStringBytesSplit(s, rest);
    ReadShortOfBytes(v, e + rest);
    ReadLegacyStringOfNegative(LegacyStringBytes(s) + rest, v);
  }

  /** A negative length is refused before any character is read. */
  lemma ReadLegacyStringOfNegative(bs: seq<uint8>, length: int16)
    requires ReadShortFrom(bs) == Success((length, 2)) && length < 0
    ensures ReadLegacyStringFrom(bs).Failure? && ReadLegacyStringFrom(bs).error == IndexOutOfBoundsException
  {
  }

  method ReadLegacyString(buf: ByteBuf) returns (r: Result<string>)
    requires buf.Valid()
    modifies buf`readerIndex
    ensures buf.Valid() && r == Value(ReadLegacyStringFrom(old(buf.Readable())))
    ensures r.Success? ==> buf.readerIndex == old(buf.readerIndex) + Consumed(ReadLegacyStringFrom(old(buf.Readable())))
    ensures r.Failure? ==> buf.readerIndex == old(buf.readerIndex) + if |old(buf.Readable())| < 2 then 0 else 2
  {
    var length := buf.ReadShort();
    if length.Failure? {
      return Failure(length.error);
    }
    assert buf.Readable() == old(buf.Readable())[2..];
    r := buf.ReadUtf16Chars(length.value);
  }

  method WriteLegacyString(buf: ByteBuf, s: string)
    requires buf.Valid()
    modifies buf`data
    ensures buf.Valid() && buf.data == old(buf.data) + LegacyStringBytes(s)
  {
    var data := Utf16.EncodeBe(s);
    buf.WriteShort(|data|);
    buf.WriteBytes(data);
  }

  // ---------------------------------------------------------------------------------------
  // Reply payloads

  /** The Beta reply: message of the day, current players and maximum players, split by `§`. */
  function BetaStatusData(r: BetaStatusResponse): string {
    r.motd + [SECTION_SIGN] + Text.DecimalString(r.currentPlayers) + [SECTION_SIGN] + Text.DecimalString(r.maxPlayers)
  }

  /** The five values of a 1.4 to 1.6 reply, in order. */
  function LegacyValues(r: LegacyStatusResponse): seq<string> {
    [Text.DecimalString(r.protocolVersion), r.serverVersion, r.motd,
     Text.DecimalString(r.currentPlayers), Text.DecimalString(r.maxPlayers)]
  }

  /** The values with the delimiter between each two. */
  function JoinedBy(values: seq<string>, delimiter: string): string
    requires |values| >= 1
  {
    if |values| == 1 then values[0] else values[0] + delimiter + JoinedBy(values[1..], delimiter)
  }

  /** `composeLegacyStatusResponseData`: the prefix, then the five values split by `LEGACY_DELIMITER`. */
  function ComposeLegacyStatusResponseData(r: LegacyStatusResponse): string {
    LEGACY_PREFIX + JoinedBy(LegacyValues(r), LEGACY_DELIMITER)
  }

  /**
   * The reply the 1.4 to 1.6 clients parse: the same prefix, then the five values split by
   * single NUL characters.
   */
  function ComposeNulDelimitedStatusData(r: LegacyStatusResponse): string {
    LEGACY_PREFIX + JoinedBy(LegacyValues(r), ['\0'])
  }

  lemma DecimalHasNo(i: int, c: char)
    requires c != '-' && !Text.IsDigit(c)
    ensures c !in Text.DecimalString(i)
  {
  }

  /**
   * A client splitting a Beta reply at `§` finds exactly the three fields, provided the
   * message of the day has no `§` of its own.
   */
  lemma BetaStatusFields(r: BetaStatusResponse)
    requires SECTION_SIGN !in r.motd
    ensures Text.SplitOn(BetaStatusData(r), SECTION_SIGN) ==
      [r.motd, Text.DecimalString(r.currentPlayers), Text.DecimalString(r.maxPlayers)]
  {
    var cur, max := Text.DecimalString(r.currentPlayers), Text.DecimalString(r.maxPlayers);
    var fields := [r.motd, cur, max];
    DecimalHasNo(r.currentPlayers, SECTION_SIGN);
    DecimalHasNo(r.maxPlayers, SECTION_SIGN);
    assert Text.Join(fields[2..], SECTION_SIGN) == max;
    assert Text.Join(fields[1..], SECTION_SIGN) == cur + [SECTION_SIGN] + max;
    assert BetaStatusData(r) == Text.Join(fields, SECTION_SIGN);
    Text.SplitJoin(fields, SECTION_SIGN);
  }

  /** No value of a reply holds a NUL when neither text field does. */
  lemma LegacyValuesHaveNoNul(r: LegacyStatusResponse)
    requires '\0' !in r.serverVersion && '\0' !in r.motd
    ensures forall i :: 0 <= i < |LegacyValues(r)| ==> '\0' !in LegacyValues(r)[i]
  {
    DecimalHasNo(r.protocolVersion, '\0');
    DecimalHasNo(r.currentPlayers, '\0');
    DecimalHasNo(r.maxPlayers, '\0');
  }

  /** Joining values by a delimiter brings in no character that neither of them holds. */
  lemma {:induction false} JoinedByLacks(values: seq<string>, delimiter: string, c: char)
    requires |values| >= 1
    requires c !in delimiter && forall i :: 0 <= i < |values| ==> c !in values[i]
    ensures c !in JoinedBy(values, delimiter)
  {
    if |values| > 1 {
      JoinedByLacks(values[1..], delimiter, c);
    }
  }

  /** Joining by a one-character delimiter is `Text.Join` at that character. */
  lemma {:induction false} JoinedBySingle(values: seq<string>, c: char)
    requires |values| >= 1
    ensures JoinedBy(values, [c]) == Text.Join(values, c)
  {
    if |values| > 1 {
      JoinedBySingle(values[1..], c);
    }
  }

  /**
   * A client splitting a 1.4 to 1.6 reply at NUL, as those clients read it, finds only two
   * fields: the marker (the section sign, then the digit one) and all five values run
   * together with `LEGACY_DELIMITER` between them, provided neither text field holds a NUL.
   */
  lemma LegacyStatusFields(r: LegacyStatusResponse)
    requires '\0' !in r.serverVersion && '\0' !in r.motd
    ensures Text.SplitOn(ComposeLegacyStatusResponseData(r), '\0') ==
      [[SECTION_SIGN, '1'], JoinedBy(LegacyValues(r), LEGACY_DELIMITER)]
    ensures |Text.SplitOn(ComposeLegacyStatusResponseData(r), '\0')| == 2
  {
    var body := JoinedBy(LegacyValues(r), LEGACY_DELIMITER);
    var fields := [[SECTION_SIGN, '1'], body];
    LegacyValuesHaveNoNul(r);
    JoinedByLacks(LegacyValues(r), LEGACY_DELIMITER, '\0');
    assert fields[1..] == [body];
    assert Text.Join(fields, '\0') == ComposeLegacyStatusResponseData(r);
    Text.SplitJoin(fields, '\0');
  }

  /**
   * Split at NUL, the reply with single-NUL delimiters gives the marker and then exactly the
   * protocol version, server version, message of the day, current and maximum players,
   * provided neither text field holds a NUL.
   */
  lemma NulDelimitedStatusFields(r: LegacyStatusResponse)
    requires '\0' !in r.serverVersion && '\0' !in r.motd
    ensures Text.SplitOn(ComposeNulDelimitedStatusData(r), '\0') == [[SECTION_SIGN, '1']] + LegacyValues(r)
    ensures |Text.SplitOn(ComposeNulDelimitedStatusData(r), '\0')| == 6
  {
    var values := LegacyValues(r);
    var fields := [[SECTION_SIGN, '1']] + values;
    LegacyValuesHaveNoNul(r);
    JoinedBySingle(values, '\0');
    assert fields[1..] == values;
    assert Text.Join(fields, '\0') == ComposeNulDelimitedStatusData(r);
    Text.SplitJoin(fields, '\0');
  }

  /** Every legacy reply: 0xFF, then the payload as a legacy string. */
  function LegacyReply(data: string): (r: seq<uint8>)
    ensures |r| == 3 + 2 * Utf16.CodeUnits(data) && r[0] == LEGACY_REPLY_ID
  {
    [LEGACY_REPLY_ID] + LegacyStringBytes(data)
  }

  /**
   * A reply of up to 32767 payload bytes without U+FFFE starts with 0xFF, and `readLegacyString`, with its
   * length in bytes, reads the payload back from the rest.
   */
  lemma LegacyReplyRoundTrip(data: string, rest: seq<uint8>)
    requires |Utf16.EncodeBe(data)| <= 0x7FFF && '\U{FFFE}' !in data
    ensures (LegacyReply(data) + rest)[0] == LEGACY_REPLY_ID
    ensures ReadLegacyStringFrom((LegacyReply(data) + rest)[1..]) == Success((data, |LegacyReply(data)| - 1))
  {
    AfterFirstByte(LEGACY_REPLY_ID, LegacyStringBytes(data), rest);
    LegacyStringRoundTrip(data, rest);
  }

  lemma AfterFirstByte(b: uint8, a: seq<uint8>, rest: seq<uint8>)
    ensures ([b] + a + rest)[0] == b && ([b] + a + rest)[1..] == a + rest
  {
  }

  /** Builds a reply buffer and sends it with write-flush-close. */
  method WriteLegacyReply(ch: Channel, data: string)
    modifies ch`outbound, ch`active
    ensures ch.outbound == old(ch.outbound) + [LegacyReply(data)] && !ch.active
  {
    var output := new ByteBuf.Allocate();
    output.WriteByte(LEGACY_REPLY_ID);
    WriteLegacyString(output, data);
    assert output.data == LegacyReply(data);
    NettyUtils.WriteFlushAndClose(ch, output.data);
  }

  // ---------------------------------------------------------------------------------------
  // What handleLegacyPing answers

  /** `sendBetaStatusResponse`: the fallback host answers; without one the call hits `null`. */
  function BetaReply(ch: Channel, hosts: VirtualHostManager): Result<seq<uint8>>
    reads ch`remoteAddress
  {
    var connection := NewConnection(ch).value;
    if hosts.fallbackHost.None? then Failure(NullPointerException(""))
    else Success(LegacyReply(BetaStatusData(hosts.policy(hosts.fallbackHost.value).beta(connection))))
  }

  /** `sendLegacy14Response`: as the Beta reply, in the 1.4 format. */
  function Legacy14Reply(ch: Channel, hosts: VirtualHostManager): Result<seq<uint8>>
    reads ch`remoteAddress
  {
    var connection := NewConnection(ch).value;
    if hosts.fallbackHost.None? then Failure(NullPointerException(""))
    else Success(LegacyReply(ComposeLegacyStatusResponseData(hosts.policy(hosts.fallbackHost.value).legacy14(connection))))
  }

  /** The fields of a 1.6 ping the handler uses. */
  datatype PingHost = PingHost(protocolVersion: int8, host: string, port: int32)

  /**
   * The 1.6 fields in their order: a 16-bit length of the rest (read and dropped), a one-byte
   * protocol version, the host as a legacy string and a 32-bit port.
   */
  function ReadPingHostFrom(bs: seq<uint8>): (r: Read<PingHost>)
    ensures Fits(r, bs)
  {
    match ReadShortFrom(bs)
    case Failure(e) => Failure(e)
    case Success((_, afterLength)) =>
      match ReadByteFrom(bs[afterLength..])
      case Failure(e) => Failure(e)
      case Success((version, k)) =>
        var afterVersion := afterLength + k;
        match ReadLegacyStringFrom(bs[afterVersion..])
        case Failure(e) => Failure(e)
        case Success((host, n)) =>
          var afterHost := afterVersion + n;
          match ReadIntFrom(bs[afterHost..])
          case Failure(e) => Failure(e)
          case Success((port, m)) => Success((PingHost(version, host, port), afterHost + m))
  }

  /** The 1.6 answer: the host matched for the announced address answers, with no fallback. */
  function Legacy16Reply(ping: PingHost, ch: Channel, hosts: VirtualHostManager): Result<seq<uint8>>
    reads ch`remoteAddress
  {
    var connection := NewInitializedConnection(ch, ping.protocolVersion, ping.host, ping.port).value;
    var decided :- NewDecidedConnection(ch, ping.protocolVersion, ping.host, ping.port, hosts.matchHost(connection));
    Success(LegacyReply(ComposeLegacyStatusResponseData(hosts.policy(decided.virtualHost).legacy16(decided))))
  }

  /**
   * What `handleLegacyPing` sends for the bytes after the 0xFE, or what it throws. Nothing left
   * means Beta. The JVM assertions are a parameter: only when they are enabled is the 0x01
   * consumed, and then the next assertion, a signed byte compared with 0xFA, always fails.
   */
  function LegacyPingReply(bs: seq<uint8>, ch: Channel, hosts: VirtualHostManager, assertionsEnabled: bool)
    : Result<seq<uint8>>
    reads ch`remoteAddress
  {
    if bs == [] then BetaReply(ch, hosts)
    else if assertionsEnabled && SignedByte(bs[0]) != 0x01 then Failure(AssertionError)
    else
      var rest := if assertionsEnabled then bs[1..] else bs;
      if rest == [] then Legacy14Reply(ch, hosts)
      else if assertionsEnabled then Failure(AssertionError)
      else
        var ping :- ReadPingHostFrom(rest);
        Legacy16Reply(ping.0, ch, hosts)
  }

  /** No signed byte equals 0xFE or 0xFA. */
  lemma SignedByteNeverFeOrFa(b: uint8)
    ensures SignedByte(b) as int != LEGACY_PING_ID && SignedByte(b) as int != 0xFA
  {
  }

  /** A string as a 1.6 client writes it: its length in UTF-16 code units, then UTF-16BE. */
  function ClientString(s: string): seq<uint8> {
    ShortBytes(Utf16.CodeUnits(s)) + Utf16.EncodeBe(s)
  }

  /** The bytes a 1.6 client sends after its 0xFE: a plugin message on the ping-host channel. */
  function Genuine16Ping(protocolVersion: uint8, host: string, port: int32): seq<uint8> {
    PluginMessageStart(PING_HOST_CHANNEL) + PingHostData(protocolVersion, host, port)
  }

  /** The plugin message's data: its length, the protocol version, the host and the port. */
  function PingHostData(protocolVersion: uint8, host: string, port: int32): (r: seq<uint8>)
    ensures |r| == 9 + |Utf16.EncodeBe(host)|
  {
    ShortBytes(7 + |Utf16.EncodeBe(host)|) + [protocolVersion] + ClientString(host) + IntBytes(port)
  }

  /** The 0x01 left after the 0xFE, the plugin message id 0xFA and the channel name. */
  function PluginMessageStart(channel: string): seq<uint8> {
    [0x01, 0xFA] + ClientString(channel)
  }

  /**
   * With assertions disabled the 0x01 stays unread, so a 1.4 ping is taken for the start of a
   * 1.6 one and runs out of bytes.
   */
  lemma Legacy14PingAsWritten(ch: Channel, hosts: VirtualHostManager)
    ensures LegacyPingReply([0x01], ch, hosts, false) == Failure(IndexOutOfBoundsException)
    ensures LegacyPingReply([0x01], ch, hosts, true) == Legacy14Reply(ch, hosts)
  {
  }

  /** The first five bytes of a 1.6 ping, and its length. */
  lemma Genuine16PingLayout(protocolVersion: uint8, host: string, port: int32)
    ensures |Genuine16Ping(protocolVersion, host, port)| == 35 + |Utf16.EncodeBe(host)|
    ensures Genuine16Ping(protocolVersion, host, port)[..5] == [0x01, 0xFA, 0x00, 0x0B, 0x00]
  {
    PingHostChannelEncoding();
    PluginMessageStartLayout(PING_HOST_CHANNEL);
    var start := PluginMessageStart(PING_HOST_CHANNEL);
    PrefixOfConcat(start, PingHostData(protocolVersion, host, port), 5);
  }

  lemma PrefixOfConcat(a: seq<uint8>, b: seq<uint8>, k: nat)
    requires k <= |a|
    ensures (a + b)[..k] == a[..k]
  {
  }

  lemma PingHostChannelEncoding()
    ensures Utf16.CodeUnits(PING_HOST_CHANNEL) == 11
    ensures Utf16.EncodeBe(PING_HOST_CHANNEL)[0] == 0x00
  {
    assert forall i :: 0 <= i < |PING_HOST_CHANNEL| ==> PING_HOST_CHANNEL[i] as int < 0x80;
    Utf16.BmpCodeUnits(PING_HOST_CHANNEL);
    assert PING_HOST_CHANNEL[0] == 'M';
    assert Utf16.EncodeBe(PING_HOST_CHANNEL) == Utf16.EncodeChar('M') + Utf16.EncodeBe(PING_HOST_CHANNEL[1..]);
  }

  lemma PluginMessageStartLayout(channel: string)
    requires Utf16.CodeUnits(channel) == 11 && Utf16.EncodeBe(channel)[0] == 0x00
    ensures |PluginMessageStart(channel)| == 26
    ensures PluginMessageStart(channel)[..5] == [0x01, 0xFA, 0x00, 0x0B, 0x00]
  {
    ShortBytesOf(11);
  }

  /**
   * Read from a 1.6 ping whose 0x01 was left unread, the fields come out shifted by one byte:
   * the host length is read as 0x0B00 bytes, more than a short ping holds.
   */
  lemma ShiftedPingHostUnreadable(bs: seq<uint8>)
    requires 5 <= |bs| < 5 + 0x0B00 && bs[..5] == [0x01, 0xFA, 0x00, 0x0B, 0x00]
    ensures ReadPingHostFrom(bs) == Failure(IndexOutOfBoundsException)
  {
    assert bs[..2] == [0x01, 0xFA];
    assert bs[2..][..1] == [0x00];
    var afterVersion := bs[3..];
    assert afterVersion[..2] == [0x0B, 0x00];
    ShortValueOf(0x0B, 0x00);
    assert ReadShortFrom(afterVersion) == Success((0x0B00, 2));
  }

  /**
   * A 1.6 ping is never answered. With assertions enabled it fails the second assertion. With
   * them disabled the 0x01 stays unread and, for a host of up to a thousand characters, the
   * shifted read runs out of bytes.
   */
  lemma Legacy16PingAsWritten(ch: Channel, hosts: VirtualHostManager, protocolVersion: uint8, host: string, port: int32)
    requires Utf16.CodeUnits(host) <= 1000
    ensures LegacyPingReply(Genuine16Ping(protocolVersion, host, port), ch, hosts, false) == Failure(IndexOutOfBoundsException)
    ensures LegacyPingReply(Genuine16Ping(protocolVersion, host, port), ch, hosts, true) == Failure(AssertionError)
  {
    var bs := Genuine16Ping(protocolVersion, host, port);
    Genuine16PingLayout(protocolVersion, host, port);
    ShiftedPingHostUnreadable(bs);
    assert bs[0] == 0x01;
  }

  // ---------------------------------------------------------------------------------------
  // The handler

  method SendBetaStatusResponse(ch: Channel, hosts: VirtualHostManager) returns (o: Outcome)
    modifies ch`outbound, ch`active
    ensures var r := old(BetaReply(ch, hosts));
      if r.Success? then o == Pass && ch.outbound == old(ch.outbound) + [r.value] && !ch.active
      else o == Fail(r.error) && ch.outbound == old(ch.outbound) && ch.active == old(ch.active)
  {
    var connection := NewConnection(ch).value;
    if hosts.fallbackHost.None? {
      return Fail(NullPointerException(""));
    }
    var response := hosts.policy(hosts.fallbackHost.value).beta(connection);
    WriteLegacyReply(ch, BetaStatusData(response));
    o := Pass;
  }

  method SendLegacy14Response(ch: Channel, hosts: VirtualHostManager) returns (o: Outcome)
    modifies ch`outbound, ch`active
    ensures var r := old(Legacy14Reply(ch, hosts));
      if r.Success? then o == Pass && ch.outbound == old(ch.outbound) + [r.value] && !ch.active
      else o == Fail(r.error) && ch.outbound == old(ch.outbound) && ch.active == old(ch.active)
  {
    var connection := NewConnection(ch).value;
    if hosts.fallbackHost.None? {
      return Fail(NullPointerException(""));
    }
    var response := hosts.policy(hosts.fallbackHost.value).legacy14(connection);
    WriteLegacyReply(ch, ComposeLegacyStatusResponseData(response));
    o := Pass;
  }

  method SendLegacy16Response(ch: Channel, hosts: VirtualHostManager, ping: PingHost) returns (o: Outcome)
    modifies ch`outbound, ch`active
    ensures var r := old(Legacy16Reply(ping, ch, hosts));
      if r.Success? then o == Pass && ch.outbound == old(ch.outbound) + [r.value] && !ch.active
      else o == Fail(r.error) && ch.outbound == old(ch.outbound) && ch.active == old(ch.active)
  {
    var connection := NewInitializedConnection(ch, ping.protocolVersion, ping.host, ping.port).value;
    var decided := NewDecidedConnection(ch, ping.protocolVersion, ping.host, ping.port, hosts.matchHost(connection));
    if decided.Failure? {
      return Fail(decided.error);
    }
    var response := hosts.policy(decided.value.virtualHost).legacy16(decided.value);
    WriteLegacyReply(ch, ComposeLegacyStatusResponseData(response));
    o := Pass;
  }

  /** Reads the 1.6 fields one after the other, as the handler does. */
  method ReadPingHost(buffer: ByteBuf) returns (r: Result<PingHost>)
    requires buffer.Valid()
    modifies buffer`readerIndex
    ensures buffer.Valid() && r == Value(ReadPingHostFrom(old(buffer.Readable())))
    ensures r.Success? ==>
      buffer.readerIndex == old(buffer.readerIndex) + Consumed(ReadPingHostFrom(old(buffer.Readable())))
  {
    ghost var bs := buffer.Readable();
    var length := buffer.ReadShort();
    if length.Failure? {
      return Failure(length.error);
    }
    assert buffer.Readable() == bs[2..];
    var version := buffer.ReadByte();
    if version.Failure? {
      return Failure(version.error);
    }
    assert buffer.Readable() == bs[3..];
    var host := ReadLegacyString(buffer);
    if host.Failure? {
      return Failure(host.error);
    }
    ghost var afterHost := 3 + Consumed(ReadLegacyStringFrom(bs[3..]));
    assert buffer.Readable() == bs[afterHost..];
    var port := buffer.ReadInt();
    if port.Failure? {
      return Failure(port.error);
    }
    r := Success(PingHost(version.value, host.value, port.value));
  }

  /**
   * `handleLegacyPing` on the bytes after the 0xFE: the reply of `LegacyPingReply` goes out and
   * the channel closes; when it throws, nothing is sent.
   */
  method HandleLegacyPing(ch: Channel, buffer: ByteBuf, hosts: VirtualHostManager, assertionsEnabled: bool)
    returns (o: Outcome)
    requires buffer.Valid()
    modifies buffer`readerIndex, ch`outbound, ch`active
    ensures buffer.Valid()
    ensures var r := old(LegacyPingReply(buffer.Readable(), ch, hosts, assertionsEnabled));
      if r.Success? then o == Pass && ch.outbound == old(ch.outbound) + [r.value] && !ch.active
      else o == Fail(r.error) && ch.outbound == old(ch.outbound) && ch.active == old(ch.active)
  {
    ghost var bs := buffer.Readable();
    if !buffer.IsReadable() {
      o := SendBetaStatusResponse(ch, hosts);
      return;
    }
    if assertionsEnabled {
      var payload := buffer.ReadByte();
      if payload.value != 0x01 {
        return Fail(AssertionError);
      }
    }
    ghost var rest := if assertionsEnabled then bs[1..] else bs;
    assert buffer.Readable() == rest;
    if !buffer.IsReadable() {
      o := SendLegacy14Response(ch, hosts);
      return;
    }
    if assertionsEnabled {
      // The plugin message id is compared as a signed byte with 0xFA, which always fails.
      var pluginMessage := buffer.ReadByte();
      if pluginMessage.value as int != 0xFA {
        return Fail(AssertionError);
      }
    }
    var ping := ReadPingHost(buffer);
    if ping.Failure? {
      return Fail(ping.error);
    }
    o := SendLegacy16Response(ch, hosts, ping.value);
  }

  /**
   * `channelRead0`: the first byte is read as a signed byte; since it never equals 0xFE, the
   * handler removes itself from the pipeline, rewinds the message and passes it on whole. An
   * empty message makes the first read throw.
   */
  method ChannelRead0(ch: Channel, msg: ByteBuf, hosts: VirtualHostManager, assertionsEnabled: bool)
    returns (o: Outcome)
    requires msg.Valid() && ch.pipeline.Valid()
    modifies msg`readerIndex, ch.pipeline, ch`inbound
    ensures msg.Valid() && ch.pipeline.Valid()
    ensures old(msg.Readable()) == [] ==>
      o == Fail(IndexOutOfBoundsException) && msg.readerIndex == old(msg.readerIndex)
      && ch.pipeline.stages == old(ch.pipeline.stages) && ch.inbound == old(ch.inbound)
    ensures old(msg.Readable()) != [] ==>
      var r := Pipelines.RemoveStage(old(ch.pipeline.stages), Pipelines.LEGACY_PING);
      if r.Success? then
        o == Pass && ch.pipeline.stages == r.value && msg.readerIndex == 0 && ch.inbound == old(ch.inbound) + [msg.data]
      else
        o == Fail(r.error) && ch.pipeline.stages == old(ch.pipeline.stages) && ch.inbound == old(ch.inbound)
        && msg.readerIndex == old(msg.readerIndex) + 1
  {
    var b := msg.ReadByte();
    if b.Failure? {
      return Fail(b.error);
    }
    if b.value as int == LEGACY_PING_ID {
      // handleLegacyPing(ctx, msg) would run here; a signed byte is never 0xFE.
      assert false;
    }
    o := ch.pipeline.Remove(Pipelines.LEGACY_PING);
    if o.Fail? {
      return;
    }
    msg.ResetReaderIndex();
    ch.FireChannelRead(msg.data);
  }

  /**
   * `channelRead0` as evidently intended: the first byte compared as an unsigned value, so a
   * message opening with 0xFE is answered as a legacy ping and leaves the pipeline alone, and
   * any other message is passed on as before.
   */
  method ChannelRead0Unsigned(ch: Channel, msg: ByteBuf, hosts: VirtualHostManager, assertionsEnabled: bool)
    returns (o: Outcome)
    requires msg.Valid() && ch.pipeline.Valid()
    modifies msg`readerIndex, ch.pipeline, ch`inbound, ch`outbound, ch`active
    ensures msg.Valid() && ch.pipeline.Valid()
    ensures old(msg.Readable()) == [] ==>
      o == Fail(IndexOutOfBoundsException) && msg.readerIndex == old(msg.readerIndex)
      && ch.pipeline.stages == old(ch.pipeline.stages) && ch.inbound == old(ch.inbound)
      && ch.outbound == old(ch.outbound)
    ensures old(msg.Readable()) != [] && old(msg.Readable())[0] == LEGACY_PING_ID as uint8 ==>
      && ch.pipeline.stages == old(ch.pipeline.stages) && ch.inbound == old(ch.inbound)
      && var r := old(LegacyPingReply(msg.Readable()[1..], ch, hosts, assertionsEnabled));
        if r.Success? then o == Pass && ch.outbound == old(ch.outbound) + [r.value] && !ch.active
        else o == Fail(r.error) && ch.outbound == old(ch.outbound) && ch.active == old(ch.active)
    ensures old(msg.Readable()) != [] && old(msg.Readable())[0] != LEGACY_PING_ID as uint8 ==>
      && ch.outbound == old(ch.outbound)
      && var r := Pipelines.RemoveStage(old(ch.pipeline.stages), Pipelines.LEGACY_PING);
        if r.Success? then
          o == Pass && ch.pipeline.stages == r.value && msg.readerIndex == 0 && ch.inbound == old(ch.inbound) + [msg.data]
        else
          o == Fail(r.error) && ch.pipeline.stages == old(ch.pipeline.stages) && ch.inbound == old(ch.inbound)
  {
    ghost var bs := msg.Readable();
    var b := msg.ReadByte();
    if b.Failure? {
      return Fail(b.error);
    }
    assert msg.Readable() == bs[1..];
    if b.value as int % 0x100 == LEGACY_PING_ID {
      o := HandleLegacyPing(ch, msg, hosts, assertionsEnabled);
      return;
    }
    o := ch.pipeline.Remove(Pipelines.LEGACY_PING);
    if o.Fail? {
      return;
    }
    msg.ResetReaderIndex();
    ch.FireChannelRead(msg.data);
  }

  /** With the unsigned comparison, the lone 0xFE of a Beta ping produces the fallback host's Beta reply. */
  lemma BetaPingAnsweredWhenUnsigned(ch: Channel, hosts: VirtualHostManager, assertionsEnabled: bool)
    requires hosts.fallbackHost.Some?
    ensures LegacyPingReply([LEGACY_PING_ID as uint8][1..], ch, hosts, assertionsEnabled).Success?
    ensures LegacyPingReply([LEGACY_PING_ID as uint8][1..], ch, hosts, assertionsEnabled) == BetaReply(ch, hosts)
  {
    assert [LEGACY_PING_ID as uint8][1..] == [];
  }
}

=== FILE: login.dfy ===
/**
 * ProtocolLoginHandler: the login state of one connection. Login Start records the player's
 * name; a host that authenticates answers with an Encryption Request and waits for the
 * Encryption Response, which installs the cipher stages and starts the session lookup; a host
 * that does not authenticate logs the player in at once with an offline profile. Finishing the
 * login decides compression, sends Login Success and hands the connection to the play handler.
 *
 * The effect of each packet is given by a step function on the handler's state, the pipeline
 * and the packets sent; the methods of the class are proved to do what the step says.
 */
module Login {
  import opened Wrappers
  import opened Bytes
  import opened Codec
  import opened Buffers
  import opened Channels
  import opened Connections
  import opened Hosts
  import opened Pipelines
  import VarInt

  const LOGIN_START_ID: int32 := 0x00
  const ENCRYPTION_RESPONSE_ID: int32 := 0x01
  const ENCRYPTION_REQUEST_ID: int32 := 0x01
  const LOGIN_SUCCESS_ID: int32 := 0x02
  const SET_COMPRESSION_ID: int32 := 0x03
  /** Clients up to this protocol version (1.7.x) are sent the server id. */
  const MC_1_7_PROTOCOL_VERSION: int32 := 5
  const MAX_SHARED_SECRET_LENGTH: int32 := 0x7FFF_FFFE
  /** Deflater's levels: the default (-1), none (0) and best (9). */
  const DEFAULT_COMPRESSION: int32 := -1
  const NO_COMPRESSION: int32 := 0
  const BEST_COMPRESSION: int32 := 9

  predicate IsAlphanumeric(c: char) {
    '0' <= c <= '9' || 'a' <= c <= 'z' || 'A' <= c <= 'Z'
  }

  /** `SERVER_ID` is drawn at random once; all that is fixed is its shape. */
  predicate IsServerId(s: string) {
    |s| == 17 && forall i :: 0 <= i < |s| ==> IsAlphanumeric(s[i])
  }

  type ServerId = s: string | IsServerId(s) witness "00000000000000000"

  /** The server id written into the Encryption Request: `SERVER_ID` for 1.7 clients, else empty. */
  function AnnouncedServerId(protocolVersion: int32, serverId: ServerId): (r: string)
    ensures Writable(r) && |r| <= 17
  {
    if protocolVersion <= MC_1_7_PROTOCOL_VERSION then serverId else ""
  }

  datatype EncryptionData =
    EncryptionData(publicKey: seq<uint8>, verifyBytes: seq<uint8>, decrypt: seq<uint8> -> Option<seq<uint8>>)

  /**
   * What the encryption factory creates for one login: the encoded public key, the verify
   * token and RSA decryption with the private key, which fails (`None`) where the cipher
   * rejects its input. Java arrays are shorter than 2^31.
   */
  type Encryption = e: EncryptionData | |e.publicKey| < 0x8000_0000 && |e.verifyBytes| < 0x8000_0000
    witness EncryptionData([], [], (_: seq<uint8>) => None)

  // ---------------------------------------------------------------------------------------
  // Packets
  // ---------------------------------------------------------------------------------------

  /** A byte array as the login packets carry it: its length as a VarInt, then the bytes. */
  function ByteArrayBytes(bs: seq<uint8>): (r: seq<uint8>)
    requires |bs| < 0x8000_0000
    ensures |bs| < |r| <= |bs| + VarInt.MAX_VARINT_BYTES
  {
    VarInt.Encode(|bs|) + bs
  }

  /** The Encryption Request: id 0x01, server id, public key and verify token. */
  function EncryptionRequestPacket(serverId: string, e: Encryption): seq<uint8>
    requires Writable(serverId)
  {
    VarInt.Encode(ENCRYPTION_REQUEST_ID) + StringBytes(serverId) + ByteArrayBytes(e.publicKey)
      + ByteArrayBytes(e.verifyBytes)
  }

  /** Login Success: id 0x02, then the profile's id and name as strings. */
  function LoginSuccessPacket(profile: Profile): seq<uint8> {
    VarInt.Encode(LOGIN_SUCCESS_ID) + StringBytes(profile.id) + StringBytes(profile.name)
  }

  /**
   * One length-prefixed array of the Encryption Response. The shared secret's length is first
   * checked against the maximum; a negative length fails allocating the array, and a length
   * beyond the readable bytes fails the read.
   */
  function ReadByteArrayFrom(bs: seq<uint8>, limited: bool): (r: Read<seq<uint8>>)
    ensures Fits(r, bs)
  {
    match ReadVarIntFrom(bs)
    case Failure(e) => Failure(e)
    case Success((n, k)) =>
      if limited && n > MAX_SHARED_SECRET_LENGTH then Failure(ProtocolException("Shared secret exceed maximum size"))
      else if n < 0 then Failure(NegativeArraySizeException)
      else
        match ReadBytesFrom(bs[k..], n)
        case Failure(e) => Failure(e)
        case Success((a, m)) => Success((a, k + m))
  }

  /** The Encryption Response's fields: the encrypted shared secret, then the encrypted verify token. */
  function ReadEncryptionResponseFrom(bs: seq<uint8>): (r: Read<(seq<uint8>, seq<uint8>)>)
    ensures Fits(r, bs)
  {
    match ReadByteArrayFrom(bs, true)
    case Failure(e) => Failure(e)
    case Success((sharedSecret, k)) =>
      match ReadByteArrayFrom(bs[k..], false)
      case Failure(e) => Failure(e)
      case Success((verifyBytes, m)) => Success(((sharedSecret, verifyBytes), k + m))
  }

  /** An array written with its length reads back whole, whatever follows it. */
  lemma {:induction false} ByteArrayRoundTrip(a: seq<uint8>, limited: bool, rest: seq<uint8>)
    requires |a| <= MAX_SHARED_SECRET_LENGTH as int
    ensures ReadByteArrayFrom(ByteArrayBytes(a) + rest, limited) == Success((a, |ByteArrayBytes(a)|))
  {
    var n := VarInt.Encode(|a|);
    var bs := ByteArrayBytes(a) + rest;
    assert bs == n + (a + rest);
    VarIntRoundTrip(|a|, a + rest);
    assert bs[|n|..] == a + rest;
    assert (a + rest)[..|a|] == a;
  }

  /** The Encryption Response a client writes is read back field for field. */
  lemma {:induction false} EncryptionResponseRoundTrip(sharedSecret: seq<uint8>, verifyBytes: seq<uint8>, rest: seq<uint8>)
    requires |sharedSecret| <= MAX_SHARED_SECRET_LENGTH as int && |verifyBytes| <= MAX_SHARED_SECRET_LENGTH as int
    ensures var bs := ByteArrayBytes(sharedSecret) + ByteArrayBytes(verifyBytes) + rest;
      ReadEncryptionResponseFrom(bs) == Success(((sharedSecret, verifyBytes), |bs| - |rest|))
  {
    var head := ByteArrayBytes(sharedSecret);
    var tail := ByteArrayBytes(verifyBytes) + rest;
    var bs := ByteArrayBytes(sharedSecret) + ByteArrayBytes(verifyBytes) + rest;
    assert bs == head + tail;
    ByteArrayRoundTrip(sharedSecret, true, tail);
    assert bs[|head|..] == tail;
    ByteArrayRoundTrip(verifyBytes, false, rest);
  }

  /** A shared secret announced with the largest `int` length is refused before anything is allocated. */
  lemma {:induction false} LongestSecretRefused(rest: seq<uint8>)
    ensures ReadEncryptionResponseFrom(VarInt.Encode(0x7FFF_FFFF) + rest)
      == Failure(ProtocolException("Shared secret exceed maximum size"))
  {
    VarIntRoundTrip(0x7FFF_FFFF, rest);
  }

  /**
   * A client reading the Encryption Request finds the request id, the server id, the public
   * key and the verify token, in that order and each whole.
   */
  lemma {:induction false} EncryptionRequestReadBack(serverId: string, e: Encryption)
    requires Writable(serverId)
    requires |e.publicKey| <= MAX_SHARED_SECRET_LENGTH as int && |e.verifyBytes| <= MAX_SHARED_SECRET_LENGTH as int
    ensures var p := EncryptionRequestPacket(serverId, e);
      var k := 1 + |StringBytes(serverId)|;
      var m := k + |ByteArrayBytes(e.publicKey)|;
      && ReadVarIntFrom(p) == Success((ENCRYPTION_REQUEST_ID, 1))
      && ReadStringFrom(p[1..]) == Success((serverId, |StringBytes(serverId)|))
      && ReadByteArrayFrom(p[k..], false) == Success((e.publicKey, |ByteArrayBytes(e.publicKey)|))
      && ReadByteArrayFrom(p[m..], false) == Success((e.verifyBytes, |ByteArrayBytes(e.verifyBytes)|))
  {
    EncryptionRequestHead(serverId, e);
    ByteArraysReadBack(e.publicKey, e.verifyBytes);
  }

  /** The Encryption Request starts with its id and the server id; the two arrays follow. */
  lemma {:induction false} EncryptionRequestHead(serverId: string, e: Encryption)
    requires Writable(serverId)
    ensures var p := EncryptionRequestPacket(serverId, e);
      && ReadVarIntFrom(p) == Success((ENCRYPTION_REQUEST_ID, 1))
      && ReadStringFrom(p[1..]) == Success((serverId, |StringBytes(serverId)|))
      && p[1 + |StringBytes(serverId)|..] == ByteArrayBytes(e.publicKey) + ByteArrayBytes(e.verifyBytes)
  {
    var id := VarInt.Encode(ENCRYPTION_REQUEST_ID);
    var sid := StringBytes(serverId);
    var arrays := ByteArrayBytes(e.publicKey) + ByteArrayBytes(e.verifyBytes);
    var p := EncryptionRequestPacket(serverId, e);
    assert p == id + (sid + arrays);
    VarIntRoundTrip(ENCRYPTION_REQUEST_ID, sid + arrays);
    assert p[1..] == sid + arrays;
    StringRoundTrip(serverId, arrays);
  }

  /** Two arrays written one after the other read back one after the other. */
  lemma {:induction false} ByteArraysReadBack(a: seq<uint8>, b: seq<uint8>)
    requires |a| <= MAX_SHARED_SECRET_LENGTH as int && |b| <= MAX_SHARED_SECRET_LENGTH as int
    ensures var bs := ByteArrayBytes(a) + ByteArrayBytes(b);
      && ReadByteArrayFrom(bs, false) == Success((a, |ByteArrayBytes(a)|))
      && ReadByteArrayFrom(bs[|ByteArrayBytes(a)|..], false) == Success((b, |ByteArrayBytes(b)|))
  {
    var bs := ByteArrayBytes(a) + ByteArrayBytes(b);
    ByteArrayRoundTrip(a, false, ByteArrayBytes(b));
    assert bs[|ByteArrayBytes(a)|..] == ByteArrayBytes(b) + [];
    ByteArrayRoundTrip(b, false, []);
  }

  /** A client reading Login Success finds the success id, then the profile's id and name. */
  lemma {:induction false} LoginSuccessReadBack(profile: Profile)
    ensures var p := LoginSuccessPacket(profile);
      var k := 1 + |StringBytes(profile.id)|;
      && ReadVarIntFrom(p) == Success((LOGIN_SUCCESS_ID, 1))
      && ReadStringFrom(p[1..]) == Success((profile.id, |StringBytes(profile.id)|))
      && ReadStringFrom(p[k..]) == Success((profile.name, |StringBytes(profile.name)|))
  {
    var id := VarInt.Encode(LOGIN_SUCCESS_ID);
    var a := StringBytes(profile.id);
    var b := StringBytes(profile.name);
    var p := LoginSuccessPacket(profile);
    assert p == id + (a + b);
    VarIntRoundTrip(LOGIN_SUCCESS_ID, a + b);
    assert p[1..] == a + b;
    StringRoundTrip(profile.id, b);
    assert p[1 + |a|..] == b + [];
    StringRoundTrip(profile.name, []);
  }

  // ---------------------------------------------------------------------------------------
  // Decisions
  // ---------------------------------------------------------------------------------------

  /**
   * The AES key from an Encryption Response: the verify token is decrypted and compared
   * first, then the shared secret is decrypted; an empty key is refused by `SecretKeySpec`.
   */
  function DecryptSecret(e: Encryption, sharedSecret: seq<uint8>, verifyBytes: seq<uint8>): (r: Result<seq<uint8>>)
    ensures r.Success? <==>
      && e.decrypt(verifyBytes) == Some(e.verifyBytes)
      && e.decrypt(sharedSecret).Some? && e.decrypt(sharedSecret).value != []
    ensures r.Success? ==> e.decrypt(sharedSecret) == Some(r.value)
    ensures e.decrypt(verifyBytes).Some? && e.decrypt(verifyBytes) != Some(e.verifyBytes) ==>
      r == Failure(ProtocolException("Verify token does not match"))
  {
    match e.decrypt(verifyBytes)
    case None => Failure(ProtocolException("Invalid verify bytes"))
    case Some(token) =>
      if token != e.verifyBytes then Failure(ProtocolException("Verify token does not match"))
      else
        match e.decrypt(sharedSecret)
        case None => Failure(ProtocolException("Invalid shared secret"))
        case Some(key) => if key == [] then Failure(IllegalArgumentException("Empty key")) else Success(key)
  }

  /**
   * `setupCompression`'s decision on the host's compression: none without one, with a negative
   * threshold, with an invalid level (only logged), or with a level that does not compress.
   */
  function CompressionDecision(c: Option<Compression>): (r: Option<Compression>)
    ensures r.Some? <==> c.Some? && c.value.threshold >= 0 && 1 <= c.value.level <= 9
    ensures r.Some? ==> r == c
  {
    if c.None? || c.value.threshold < 0 then None
    else
      var level := c.value.level;
      if level != DEFAULT_COMPRESSION && (level < NO_COMPRESSION || level > BEST_COMPRESSION) then None
      else if level > NO_COMPRESSION then c
      else None
  }

  /** A pipeline edit and how far it got: the stages when it finished or threw. */
  datatype Edit = Edit(outcome: Outcome, stages: seq<Stage>)

  /** Two `addBefore` calls in a row; when the second throws, the first stays done. */
  function InsertTwo(stages: seq<Stage>, base1: string, name1: string, h1: Handler,
                     base2: string, name2: string, h2: Handler): Edit
  {
    match InsertBefore(stages, base1, name1, h1)
    case Failure(e) => Edit(Fail(e), stages)
    case Success(first) =>
      match InsertBefore(first, base2, name2, h2)
      case Failure(e) => Edit(Fail(e), first)
      case Success(second) => Edit(Pass, second)
  }

  /** The cipher encoder goes before the length prepender, the decoder before the frame decoder. */
  function CipherEdit(stages: seq<Stage>, secret: seq<uint8>): Edit {
    InsertTwo(stages, LENGTH_PREPENDER, CIPHER_ENCODER, CipherEncoder(secret),
              FRAME_DECODER, CIPHER_DECODER, CipherDecoder(secret))
  }

  /** The compressor, then the decompressor, each before the length prepender. */
  function CompressionEdit(stages: seq<Stage>, c: Compression): Edit {
    InsertTwo(stages, LENGTH_PREPENDER, COMPRESSOR, PacketCompressor(c.threshold as int, c.level as int),
              LENGTH_PREPENDER, DECOMPRESSOR, PacketDecompressor)
  }

  /** The pipeline edit of `setupCompression`: the compression stages when compression was decided, else none. */
  function CompressionSetup(stages: seq<Stage>, decided: Option<Compression>): Edit {
    if decided.Some? then CompressionEdit(stages, decided.value) else Edit(Pass, stages)
  }

  /**
   * Two insertions under fresh names into a pipeline holding both bases succeed; each new
   * stage ends up right in front of its base (or of the second new stage when the bases are
   * the same), and taking both out again gives back the original stages.
   */
  lemma {:induction false} InsertTwoPlacement(stages: seq<Stage>, base1: string, name1: string, h1: Handler,
                           base2: string, name2: string, h2: Handler)
    requires Unique(Names(stages)) && base1 in Names(stages) && base2 in Names(stages)
    requires name1 !in Names(stages) && name2 !in Names(stages) && name1 != name2
    ensures var e := InsertTwo(stages, base1, name1, h1, base2, name2, h2);
      && e.outcome == Pass && Unique(Names(e.stages))
      && Adjacent(e.stages, name2, base2)
      && (base2 != base1 ==> Adjacent(e.stages, name1, base1))
      && (base2 == base1 ==> Adjacent(e.stages, name1, name2))
      && (forall n :: n in Names(e.stages) <==> n in Names(stages) || n == name1 || n == name2)
      && RemoveStage(e.stages, name2).Success?
      && RemoveStage(RemoveStage(e.stages, name2).value, name1) == Success(stages)
  {
    InsertBeforeFacts(stages, base1, name1, h1);
    var first := InsertBefore(stages, base1, name1, h1).value;
    InsertBeforeFacts(first, base2, name2, h2);
    InsertBeforeAdjacency(first, base2, name2, h2, name1, base1);
  }

  /**
   * On a pipeline with a length prepender and a frame decoder and no cipher stages yet, the
   * cipher encoder ends up immediately before the length prepender and the cipher decoder
   * immediately before the frame decoder, and nothing else changes.
   */
  lemma {:induction false} CipherPlacement(stages: seq<Stage>, secret: seq<uint8>)
    requires Unique(Names(stages)) && LENGTH_PREPENDER in Names(stages) && FRAME_DECODER in Names(stages)
    requires CIPHER_ENCODER !in Names(stages) && CIPHER_DECODER !in Names(stages)
    ensures var e := CipherEdit(stages, secret);
      && e.outcome == Pass && Unique(Names(e.stages))
      && Adjacent(e.stages, CIPHER_ENCODER, LENGTH_PREPENDER) && Adjacent(e.stages, CIPHER_DECODER, FRAME_DECODER)
      && RemoveStage(e.stages, CIPHER_DECODER).Success?
      && RemoveStage(RemoveStage(e.stages, CIPHER_DECODER).value, CIPHER_ENCODER) == Success(stages)
  {
    InsertTwoPlacement(stages, LENGTH_PREPENDER, CIPHER_ENCODER, CipherEncoder(secret),
                       FRAME_DECODER, CIPHER_DECODER, CipherDecoder(secret));
  }

  /** The compression stages are the only names the compression edit adds. */
  lemma {:induction false} CompressionEditNames(stages: seq<Stage>, c: Compression, n: string)
    requires Unique(Names(stages)) && LENGTH_PREPENDER in Names(stages)
    requires COMPRESSOR !in Names(stages) && DECOMPRESSOR !in Names(stages)
    ensures n in Names(CompressionEdit(stages, c).stages) <==> n in Names(stages) || n == COMPRESSOR || n == DECOMPRESSOR
  {
    InsertTwoPlacement(stages, LENGTH_PREPENDER, COMPRESSOR, PacketCompressor(c.threshold as int, c.level as int),
                       LENGTH_PREPENDER, DECOMPRESSOR, PacketDecompressor);
  }

  /**
   * On a pipeline with a length prepender and no compression stages yet, the order becomes
   * compressor, decompressor, length prepender, and nothing else changes.
   */
  lemma {:induction false} CompressionPlacement(stages: seq<Stage>, c: Compression)
    requires Unique(Names(stages)) && LENGTH_PREPENDER in Names(stages)
    requires COMPRESSOR !in Names(stages) && DECOMPRESSOR !in Names(stages)
    ensures var e := CompressionEdit(stages, c);
      && e.outcome == Pass && Unique(Names(e.stages))
      && Adjacent(e.stages, COMPRESSOR, DECOMPRESSOR) && Adjacent(e.stages, DECOMPRESSOR, LENGTH_PREPENDER)
      && RemoveStage(e.stages, DECOMPRESSOR).Success?
      && RemoveStage(RemoveStage(e.stages, DECOMPRESSOR).value, COMPRESSOR) == Success(stages)
  {
    InsertTwoPlacement(stages, LENGTH_PREPENDER, COMPRESSOR, PacketCompressor(c.threshold as int, c.level as int),
                       LENGTH_PREPENDER, DECOMPRESSOR, PacketDecompressor);
  }

  // ---------------------------------------------------------------------------------------
  // The state machine
  // ---------------------------------------------------------------------------------------

  /**
   * What the handler works with: the channel, the decided connection, the virtual host manager
   * whose policy for the decided host is consulted, the server id, the encryption,
   * offline-profile and play-handler factories, and what starting the session lookup does.
   * `annotateJoin` asks the session client for its HTTP client before it returns its future,
   * and that can throw at once (`SessionClient.NettySessionClient.AnnotateJoin`); `startLookup`
   * is `Pass` when it does not, and the exception otherwise.
   */
  datatype LoginContext = LoginContext(
    channel: Channel,
    connection: DecidedConnection,
    hosts: VirtualHostManager,
    serverId: ServerId,
    createEncryption: (DecidedConnection, string) -> Encryption,
    offlineProfile: string -> Profile,
    createPlayHandler: AuthorizedConnection -> Option<Handler>,
    startLookup: Outcome)
  {
    /** `connection.getVirtualHost()`'s policy: the host the handshake decided on. */
    function policy(): HostPolicy {
      hosts.policy(connection.virtualHost)
    }
  }

  /** The handler's mutable fields, and the session lookup that `authorize` started, if any. */
  datatype LoginState = LoginState(
    authenticated: bool,
    encrypted: bool,
    encryption: Option<Encryption>,
    loginData: Option<string>,
    secret: Option<seq<uint8>>,
    pendingJoin: Option<JoinRequest>)

  const INITIAL_STATE: LoginState := LoginState(false, false, None, None, None, None)

  /**
   * What the fields can hold together: an encryption context only for a started, authenticated
   * login; a secret only with an encryption context; encryption on only with a secret; and a
   * session lookup only once encryption is on.
   */
  predicate ValidState(s: LoginState) {
    && (s.authenticated ==> s.loginData.Some?)
    && (s.encryption.Some? ==> s.authenticated)
    && (s.secret.Some? ==> s.encryption.Some?)
    && (s.encrypted ==> s.secret.Some?)
    && (s.pendingJoin.Some? ==> s.encrypted)
  }

  /** The effect of one step: its outcome, the new state and pipeline, and the packets sent. */
  datatype Step = Step(outcome: Outcome, state: LoginState, stages: seq<Stage>, sent: seq<seq<uint8>>)

  /** The connection handed to the play handler factory, built afresh on the channel. */
  function Authorized(c: LoginContext, profile: Profile, compression: Option<Compression>): AuthorizedConnection
    reads c.channel`remoteAddress
  {
    var d := c.connection;
    NewAuthorizedConnection(c.channel, d.ProtocolVersion(), d.initialized.serverAddress, d.initialized.port,
                            Some(d.virtualHost), Some(profile), compression).value
  }

  /**
   * `finalizeLogin`: compression is set up (which can throw while editing the pipeline), Login
   * Success is sent, and the login handler is replaced by the play handler, which must exist.
   */
  function FinalizeStep(c: LoginContext, s: LoginState, stages: seq<Stage>, profile: Profile): (r: Step)
    reads c.channel`remoteAddress
    ensures r.state == s
    ensures r.sent == [] || r.sent == [LoginSuccessPacket(profile)]
    ensures r.outcome.Pass? ==> r.sent == [LoginSuccessPacket(profile)]
  {
    var compression := CompressionDecision(c.policy().compression(c.connection, profile));
    var edit := CompressionSetup(stages, compression);
    if edit.outcome.Fail? then Step(edit.outcome, s, edit.stages, [])
    else
      var sent := [LoginSuccessPacket(profile)];
      match c.createPlayHandler(Authorized(c, profile, compression))
      case None => Step(Fail(IllegalStateException("No play handler available")), s, edit.stages, sent)
      case Some(h) =>
        match ReplaceStage(edit.stages, LOGIN, PLAY, h)
        case Failure(e) => Step(Fail(e), s, edit.stages, sent)
        case Success(after) => Step(Pass, s, after, sent)
  }

  /**
   * `authorize`: an authenticated login starts the session lookup, whose completion finishes
   * the login later, unless starting it throws; any other login finishes now with an offline
   * profile.
   */
  function AuthorizeStep(c: LoginContext, s: LoginState, stages: seq<Stage>): (r: Step)
    requires s.loginData.Some? && (s.authenticated ==> s.secret.Some? && s.encryption.Some?)
    reads c.channel`remoteAddress
    ensures ValidState(s) && (s.authenticated ==> s.encrypted) ==> ValidState(r.state)
    ensures r.state == s.(pendingJoin := r.state.pendingJoin)
    ensures !s.authenticated ==> r.state == s
    ensures s.authenticated ==>
      && r.outcome == c.startLookup && r.stages == stages && r.sent == []
      && r.state.pendingJoin == if c.startLookup.Pass? then Some(LookupRequest(c, s)) else s.pendingJoin
  {
    if s.authenticated then
      if c.startLookup.Fail? then Step(c.startLookup, s, stages, [])
      else Step(Pass, s.(pendingJoin := Some(LookupRequest(c, s))), stages, [])
    else
      FinalizeStep(c, s, stages, c.offlineProfile(s.loginData.value))
  }

  /** What `authorize` hands to `annotateJoin`: the name, the announced server id, the key and the public key. */
  function LookupRequest(c: LoginContext, s: LoginState): JoinRequest
    requires s.loginData.Some? && s.secret.Some? && s.encryption.Some?
  {
    JoinRequest(s.loginData.value, AnnouncedServerId(c.connection.ProtocolVersion(), c.serverId),
                s.secret.value, s.encryption.value.publicKey)
  }

  /** Unfolds `LoginStartStep` once the name is read, for `HandleLoginStart`'s proof. */
  lemma LoginStartNamed(c: LoginContext, s: LoginState, bs: seq<uint8>, stages: seq<Stage>)
    requires s.loginData.None? && ReadStringFrom(bs).Success?
    ensures var named := s.(loginData := Some(ReadStringFrom(bs).value.0),
                            authenticated := c.policy().isAuthenticated(c.connection));
      LoginStartStep(c, s, bs, stages)
        == if named.authenticated then
             var e := c.createEncryption(c.connection, named.loginData.value);
             Step(Pass, named.(encryption := Some(e)), stages,
                  [EncryptionRequestPacket(AnnouncedServerId(c.connection.ProtocolVersion(), c.serverId), e)])
           else AuthorizeStep(c, named, stages)
  {
  }

  /** `handleLoginStart` on the packet's content `bs`. */
  function LoginStartStep(c: LoginContext, s: LoginState, bs: seq<uint8>, stages: seq<Stage>): (r: Step)
    reads c.channel`remoteAddress
    ensures ValidState(s) ==> ValidState(r.state)
    ensures s.loginData.Some? ==> r.state == s && r.stages == stages && r.sent == [] && r.outcome.Fail?
    ensures r.state.encrypted == s.encrypted && r.state.secret == s.secret
    ensures s.loginData.None? && ReadStringFrom(bs).Failure? ==>
      r == Step(Fail(ReadStringFrom(bs).error), s, stages, [])
    ensures s.loginData.None? && ReadStringFrom(bs).Success? ==>
      var name := ReadStringFrom(bs).value.0;
      var authenticated := c.policy().isAuthenticated(c.connection);
      && r.state.loginData == Some(name) && r.state.authenticated == authenticated
      && (authenticated ==>
            var e := c.createEncryption(c.connection, name);
            && r.outcome == Pass && r.stages == stages && r.state.encryption == Some(e)
            && r.sent == [EncryptionRequestPacket(AnnouncedServerId(c.connection.ProtocolVersion(), c.serverId), e)])
      && (!authenticated ==> r.state.encryption == s.encryption)
  {
    if s.loginData.Some? then Step(Fail(ProtocolException("Login already started")), s, stages, [])
    else
      match ReadStringFrom(bs)
      case Failure(e) => Step(Fail(e), s, stages, [])
      case Success((name, _)) =>
        var authenticated := c.policy().isAuthenticated(c.connection);
        var named := s.(loginData := Some(name), authenticated := authenticated);
        if authenticated then
          var e := c.createEncryption(c.connection, name);
          var request := EncryptionRequestPacket(AnnouncedServerId(c.connection.ProtocolVersion(), c.serverId), e);
          Step(Pass, named.(encryption := Some(e)), stages, [request])
        else
          AuthorizeStep(c, named, stages)
  }

  /** `handleEncryptionResponse` on the packet's content `bs`. */
  function EncryptionResponseStep(c: LoginContext, s: LoginState, bs: seq<uint8>, stages: seq<Stage>): (r: Step)
    requires ValidState(s)
    reads c.channel`remoteAddress
    ensures ValidState(r.state)
    ensures r.state.loginData == s.loginData && r.state.authenticated == s.authenticated
    ensures r.state.encryption == s.encryption
    ensures (r.state.secret != s.secret || r.state.encrypted != s.encrypted || r.stages != stages) ==>
      && s.encryption.Some? && !s.encrypted
      && var read := ReadEncryptionResponseFrom(bs);
         && read.Success?
         && r.state.secret.Some?
         && DecryptSecret(s.encryption.value, read.value.0.0, read.value.0.1) == Success(r.state.secret.value)
    ensures s.encryption.None? ==> r == Step(Fail(ProtocolException("Expect 0x00 before 0x01")), s, stages, [])
    ensures s.encryption.Some? && s.encrypted ==> r == Step(Fail(ProtocolException("Already encrypted")), s, stages, [])
    ensures s.encryption.Some? && !s.encrypted && ReadEncryptionResponseFrom(bs).Failure? ==>
      r == Step(Fail(ReadEncryptionResponseFrom(bs).error), s, stages, [])
    ensures s.encryption.Some? && !s.encrypted && ReadEncryptionResponseFrom(bs).Success? ==>
      var read := ReadEncryptionResponseFrom(bs).value.0;
      var key := DecryptSecret(s.encryption.value, read.0, read.1);
      && (key.Failure? ==> r == Step(Fail(key.error), s, stages, []))
      && (key.Success? ==> r.state.secret == Some(key.value) && r.sent == [] && (r.outcome.Pass? ==> r.state.encrypted))
  {
    if s.encryption.None? then Step(Fail(ProtocolException("Expect 0x00 before 0x01")), s, stages, [])
    else if s.encrypted then Step(Fail(ProtocolException("Already encrypted")), s, stages, [])
    else
      match ReadEncryptionResponseFrom(bs)
      case Failure(e) => Step(Fail(e), s, stages, [])
      case Success(((sharedSecret, verifyBytes), _)) =>
        match DecryptSecret(s.encryption.value, sharedSecret, verifyBytes)
        case Failure(e) => Step(Fail(e), s, stages, [])
        case Success(key) =>
          var keyed := s.(secret := Some(key));
          var edit := CipherEdit(stages, key);
          if edit.outcome.Fail? then Step(edit.outcome, keyed, edit.stages, [])
          else AuthorizeStep(c, keyed.(encrypted := true), edit.stages)
  }

  /** `handlePacket`: Login Start, Encryption Response, and nothing at all for any other id. */
  function PacketStep(c: LoginContext, s: LoginState, packetId: int32, bs: seq<uint8>, stages: seq<Stage>): (r: Step)
    requires ValidState(s)
    reads c.channel`remoteAddress
    ensures ValidState(r.state)
    ensures s.loginData.Some? ==> r.state.loginData == s.loginData
    ensures packetId != LOGIN_START_ID && packetId != ENCRYPTION_RESPONSE_ID ==> r == Step(Pass, s, stages, [])
  {
    if packetId == LOGIN_START_ID then LoginStartStep(c, s, bs, stages)
    else if packetId == ENCRYPTION_RESPONSE_ID then EncryptionResponseStep(c, s, bs, stages)
    else Step(Pass, s, stages, [])
  }

  /**
   * The continuation of the session lookup: the login finishes with the profile it found, and
   * the lookup is no longer pending.
   */
  function ResumeStep(c: LoginContext, s: LoginState, stages: seq<Stage>, profile: Profile): (r: Step)
    reads c.channel`remoteAddress
    ensures r.state == s.(pendingJoin := None)
    ensures ValidState(s) ==> ValidState(r.state)
    ensures var t := FinalizeStep(c, s, stages, profile);
      r.outcome == t.outcome && r.stages == t.stages && r.sent == t.sent
  {
    var t := FinalizeStep(c, s, stages, profile);
    t.(state := s.(pendingJoin := None))
  }

  // ---------------------------------------------------------------------------------------
  // Properties of the state machine
  // ---------------------------------------------------------------------------------------

  /** A pipeline the login handler can finish on: its own stage and the length prepender, no play or compression stages yet. */
  predicate ReadyToFinish(stages: seq<Stage>) {
    && Unique(Names(stages)) && LOGIN in Names(stages) && LENGTH_PREPENDER in Names(stages)
    && PLAY !in Names(stages) && COMPRESSOR !in Names(stages) && DECOMPRESSOR !in Names(stages)
  }

  /**
   * On such a pipeline, finishing always sends exactly Login Success; it succeeds exactly when
   * the factory gives a play handler, which then takes the login handler's place, with the
   * compression stages present exactly when compression was decided.
   */
  lemma {:induction false} FinalizeOnReadyPipeline(c: LoginContext, s: LoginState, stages: seq<Stage>, profile: Profile)
    requires ReadyToFinish(stages)
    ensures var t := FinalizeStep(c, s, stages, profile);
      var compression := CompressionDecision(c.policy().compression(c.connection, profile));
      && t.state == s && t.sent == [LoginSuccessPacket(profile)]
      && (t.outcome.Pass? <==> c.createPlayHandler(Authorized(c, profile, compression)).Some?)
      && (t.outcome.Pass? ==>
            && Unique(Names(t.stages)) && PLAY in Names(t.stages) && LOGIN !in Names(t.stages)
            && (COMPRESSOR in Names(t.stages) <==> compression.Some?))
  {
    var compression := CompressionDecision(c.policy().compression(c.connection, profile));
    var edit := CompressionSetup(stages, compression);
    if compression.Some? {
      var e := CompressionEdit(stages, compression.value);
      CompressionPlacement(stages, compression.value);
      CompressionEditNames(stages, compression.value, LOGIN);
      CompressionEditNames(stages, compression.value, PLAY);
      assert e.outcome == Pass && LOGIN in Names(e.stages) && PLAY !in Names(e.stages) && COMPRESSOR in Names(e.stages);
    }
    var h := c.createPlayHandler(Authorized(c, profile, compression));
    if h.Some? {
      ReplaceFacts(edit.stages, LOGIN, PLAY, h.value);
    }
  }

  /**
   * An online login: when the session lookup completes with a profile on such a pipeline, the
   * login finishes exactly as an offline one does: exactly Login Success is sent, the play
   * handler takes the login handler's place when the factory gives one, and the lookup is no
   * longer pending.
   */
  lemma {:induction false} OnlineLoginFinishes(c: LoginContext, s: LoginState, stages: seq<Stage>, profile: Profile)
    requires ReadyToFinish(stages)
    ensures var t := ResumeStep(c, s, stages, profile);
      var compression := CompressionDecision(c.policy().compression(c.connection, profile));
      && t.state == s.(pendingJoin := None)
      && t.sent == [LoginSuccessPacket(profile)]
      && (t.outcome.Pass? <==> c.createPlayHandler(Authorized(c, profile, compression)).Some?)
      && (t.outcome.Pass? ==>
            && Unique(Names(t.stages)) && PLAY in Names(t.stages) && LOGIN !in Names(t.stages)
            && (COMPRESSOR in Names(t.stages) <==> compression.Some?))
  {
    FinalizeOnReadyPipeline(c, s, stages, profile);
  }

  /**
   * An offline login: on a host that does not authenticate, a first Login Start carrying `name`
   * logs the player in at once with the offline profile for that name. Nothing but Login
   * Success is sent, no encryption context is created, and the play handler takes over when
   * the factory gives one.
   */
  lemma {:induction false} OfflineLogin(c: LoginContext, name: string, rest: seq<uint8>, stages: seq<Stage>)
    requires Writable(name) && !c.policy().isAuthenticated(c.connection) && ReadyToFinish(stages)
    ensures var t := LoginStartStep(c, INITIAL_STATE, StringBytes(name) + rest, stages);
      var profile := c.offlineProfile(name);
      var compression := CompressionDecision(c.policy().compression(c.connection, profile));
      && t.state == INITIAL_STATE.(loginData := Some(name))
      && t.sent == [LoginSuccessPacket(profile)]
      && (t.outcome.Pass? <==> c.createPlayHandler(Authorized(c, profile, compression)).Some?)
      && (t.outcome.Pass? ==> PLAY in Names(t.stages) && LOGIN !in Names(t.stages))
  {
    StringRoundTrip(name, rest);
    var named := INITIAL_STATE.(loginData := Some(name), authenticated := false);
    FinalizeOnReadyPipeline(c, named, stages, c.offlineProfile(name));
  }

  /**
   * The encryption handshake: a response whose token decrypts to the token sent and whose
   * secret decrypts to a non-empty key turns encryption on with that key, puts each cipher
   * stage right in front of its framing stage and sends nothing. It then starts the session
   * lookup for the login name, the announced server id, the key and the public key; when
   * starting the lookup throws, the exception leaves the handler with encryption already on
   * and no lookup pending.
   */
  lemma {:induction false} EncryptionHandshake(c: LoginContext, s: LoginState, sharedSecret: seq<uint8>,
                                               verifyBytes: seq<uint8>, rest: seq<uint8>, stages: seq<Stage>)
    requires ValidState(s) && s.encryption.Some? && !s.encrypted
    requires |sharedSecret| <= MAX_SHARED_SECRET_LENGTH as int && |verifyBytes| <= MAX_SHARED_SECRET_LENGTH as int
    requires s.encryption.value.decrypt(verifyBytes) == Some(s.encryption.value.verifyBytes)
    requires s.encryption.value.decrypt(sharedSecret).Some? && s.encryption.value.decrypt(sharedSecret).value != []
    requires Unique(Names(stages)) && LENGTH_PREPENDER in Names(stages) && FRAME_DECODER in Names(stages)
    requires CIPHER_ENCODER !in Names(stages) && CIPHER_DECODER !in Names(stages)
    ensures var t := EncryptionResponseStep(c, s, ByteArrayBytes(sharedSecret) + ByteArrayBytes(verifyBytes) + rest, stages);
      var key := s.encryption.value.decrypt(sharedSecret).value;
      var join := JoinRequest(s.loginData.value, AnnouncedServerId(c.connection.ProtocolVersion(), c.serverId),
                              key, s.encryption.value.publicKey);
      && t.outcome == c.startLookup && t.sent == []
      && t.state == s.(secret := Some(key), encrypted := true,
                       pendingJoin := if c.startLookup.Pass? then Some(join) else None)
      && Adjacent(t.stages, CIPHER_ENCODER, LENGTH_PREPENDER) && Adjacent(t.stages, CIPHER_DECODER, FRAME_DECODER)
  {
    EncryptionResponseRoundTrip(sharedSecret, verifyBytes, rest);
    CipherPlacement(stages, s.encryption.value.decrypt(sharedSecret).value);
  }

  // ---------------------------------------------------------------------------------------
  // The handler
  // ---------------------------------------------------------------------------------------

  /** The arguments `new ProtocolLoginHandler(...)` checks, in the order it checks them. */
  function LoginHandlerArguments(hasEncryptionFactory: bool, hasSessionClient: bool,
                                 hasPlayHandlerFactory: bool, hasConnection: bool): (r: seq<(string, bool)>)
    ensures |r| == 4 && r[0] == ("encryptionFactory", hasEncryptionFactory) && r[1] == ("sessionClient", hasSessionClient)
    ensures (forall i :: 0 <= i < |r| ==> r[i].1) <==>
      hasEncryptionFactory && hasSessionClient && hasPlayHandlerFactory && hasConnection
  {
    var r := [("encryptionFactory", hasEncryptionFactory), ("sessionClient", hasSessionClient),
              ("playHandlerFactory", hasPlayHandlerFactory), ("connection", hasConnection)];
    assert r[2].1 == hasPlayHandlerFactory && r[3].1 == hasConnection;
    r
  }

  /**
   * The constructor's checks: a sharable handler class is refused before anything else; then
   * the encryption factory, the session client, the play handler factory and the connection
   * must each be present.
   */
  function ConstructionCheck(sharable: bool, hasEncryptionFactory: bool, hasSessionClient: bool,
                             hasPlayHandlerFactory: bool, hasConnection: bool): (r: Outcome)
    ensures r.Pass? <==> !sharable && hasEncryptionFactory && hasSessionClient && hasPlayHandlerFactory && hasConnection
    ensures sharable ==> r == Fail(IllegalStateException("@Sharable not allowed here"))
  {
    if sharable then Fail(IllegalStateException("@Sharable not allowed here"))
    else RequireNonNull(LoginHandlerArguments(hasEncryptionFactory, hasSessionClient, hasPlayHandlerFactory, hasConnection))
  }

  /**
   * The null checks follow the order of the assignments, not of the parameters: a missing
   * encryption factory is reported before a missing session client, and both before the play
   * handler factory, which is the first parameter.
   */
  lemma ConstructionCheckOrder(hasEncryptionFactory: bool, hasSessionClient: bool,
                               hasPlayHandlerFactory: bool, hasConnection: bool)
    ensures var r := ConstructionCheck(false, hasEncryptionFactory, hasSessionClient, hasPlayHandlerFactory, hasConnection);
      && (!hasEncryptionFactory ==> r == Fail(NullPointerException("encryptionFactory" + " must not be null")))
      && (hasEncryptionFactory && !hasSessionClient ==>
            r == Fail(NullPointerException("sessionClient" + " must not be null")))
  {
    var arguments := LoginHandlerArguments(hasEncryptionFactory, hasSessionClient, hasPlayHandlerFactory, hasConnection);
    assert arguments[1..][0] == arguments[1];
  }

  /**
   * One connection's login handler. Each packet method does what the matching step function
   * says: same outcome, same fields, same pipeline, and the step's packets appended to what the
   * channel has sent.
   */
  class ProtocolLoginHandler {
    const ctx: LoginContext
    var authenticated: bool
    var encrypted: bool
    var encryption: Option<Encryption>
    var loginData: Option<string>
    var secret: Option<seq<uint8>>
    /** The session lookup started by `authorize` whose completion has not been delivered yet. */
    var pendingJoin: Option<JoinRequest>

    function State(): LoginState
      reads this
    {
      LoginState(authenticated, encrypted, encryption, loginData, secret, pendingJoin)
    }

    ghost predicate Valid()
      reads this
    {
      ValidState(State())
    }

    /** A handler that has seen no packet yet (its arguments already checked). */
    constructor (ctx: LoginContext)
      ensures this.ctx == ctx && State() == INITIAL_STATE && Valid()
    {
      this.ctx := ctx;
      authenticated, encrypted := false, false;
      encryption, loginData, secret, pendingJoin := None, None, None, None;
    }

    /**
     * `setupCompression`: the decided compression, and the pipeline edit it makes. The Set
     * Compression packet is assembled but never written to the channel.
     */
    method SetupCompression(profile: Profile) returns (o: Outcome, compression: Option<Compression>)
      requires ctx.channel.pipeline.Valid()
      modifies ctx.channel.pipeline
      ensures ctx.channel.pipeline.Valid()
      ensures compression == CompressionDecision(ctx.policy().compression(ctx.connection, profile))
      ensures var e := CompressionSetup(old(ctx.channel.pipeline.stages), compression);
        o == e.outcome && ctx.channel.pipeline.stages == e.stages
    {
      var pipeline := ctx.channel.pipeline;
      var c := ctx.policy().compression(ctx.connection, profile);
      compression := CompressionDecision(c);
      o := Pass;
      if c.Some? {
        var threshold := c.value.threshold;
        if threshold >= 0 {
          var level := c.value.level;
          if level != DEFAULT_COMPRESSION && (level < NO_COMPRESSION || level > BEST_COMPRESSION) {
            // only logged
          } else if level > NO_COMPRESSION {
            var output := new ByteBuf.Allocate();
            WriteVarInt(output, SET_COMPRESSION_ID);
            WriteVarInt(output, threshold);
            o := pipeline.AddBefore(LENGTH_PREPENDER, COMPRESSOR, PacketCompressor(threshold as int, level as int));
            if o.Pass? {
              o := pipeline.AddBefore(LENGTH_PREPENDER, DECOMPRESSOR, PacketDecompressor);
            }
          }
        }
      }
    }

    /**
     * `finalizeLogin`: compression, then Login Success, then the play handler takes the login
     * handler's place.
     */
    method FinalizeLogin(profile: Profile) returns (o: Outcome)
      requires ctx.channel.pipeline.Valid()
      modifies ctx.channel`outbound, ctx.channel.pipeline
      ensures ctx.channel.pipeline.Valid()
      ensures var t := old(FinalizeStep(ctx, State(), ctx.channel.pipeline.stages, profile));
        && o == t.outcome && ctx.channel.pipeline.stages == t.stages
        && ctx.channel.outbound == old(ctx.channel.outbound) + t.sent
    {
      var compression;
      o, compression := SetupCompression(profile);
      if o.Fail? {
        return;
      }
      var success := WriteLoginSuccess(profile);
      ctx.channel.WriteAndFlush(success);
      var playHandler := ctx.createPlayHandler(Authorized(ctx, profile, compression));
      if playHandler.None? {
        return Fail(IllegalStateException("No play handler available"));
      }
      o := ctx.channel.pipeline.Replace(LOGIN, PLAY, playHandler.value);
    }

    /** `authorize`: the session lookup for an authenticated login, else an offline login now. */
    method Authorize() returns (o: Outcome)
      requires loginData.Some? && (authenticated ==> secret.Some? && encryption.Some?)
      requires ctx.channel.pipeline.Valid()
      modifies this`pendingJoin, ctx.channel`outbound, ctx.channel.pipeline
      ensures ctx.channel.pipeline.Valid()
      ensures var t := old(AuthorizeStep(ctx, State(), ctx.channel.pipeline.stages));
        && o == t.outcome && State() == t.state && ctx.channel.pipeline.stages == t.stages
        && ctx.channel.outbound == old(ctx.channel.outbound) + t.sent
    {
      if authenticated {
        if ctx.startLookup.Fail? {
          return ctx.startLookup;
        }
        var serverId := AnnouncedServerId(ctx.connection.ProtocolVersion(), ctx.serverId);
        pendingJoin := Some(JoinRequest(loginData.value, serverId, secret.value, encryption.value.publicKey));
        o := Pass;
      } else {
        o := FinalizeLogin(ctx.offlineProfile(loginData.value));
      }
    }

    /** The Encryption Request as `handleLoginStart` writes it into a fresh buffer. */
    static method WriteEncryptionRequest(serverId: string, e: Encryption) returns (packet: seq<uint8>)
      requires Writable(serverId)
      ensures packet == EncryptionRequestPacket(serverId, e)
    {
      var output := new ByteBuf.Allocate();
      WriteVarInt(output, ENCRYPTION_REQUEST_ID);
      WriteString(output, serverId);
      ghost var head := output.data;
      WriteVarInt(output, |e.publicKey| as int32);
      output.WriteBytes(e.publicKey);
      assert output.data == head + ByteArrayBytes(e.publicKey);
      WriteVarInt(output, |e.verifyBytes| as int32);
      output.WriteBytes(e.verifyBytes);
      assert output.data == head + ByteArrayBytes(e.publicKey) + ByteArrayBytes(e.verifyBytes);
      packet := output.data;
    }

    /** Login Success as `finalizeLogin` writes it into a fresh buffer. */
    static method WriteLoginSuccess(profile: Profile) returns (packet: seq<uint8>)
      ensures packet == LoginSuccessPacket(profile)
    {
      var output := new ByteBuf.Allocate();
      WriteVarInt(output, LOGIN_SUCCESS_ID);
      WriteString(output, profile.id);
      WriteString(output, profile.name);
      packet := output.data;
    }

    /** `handleLoginStart`. */
    method HandleLoginStart(content: ByteBuf) returns (o: Outcome)
      requires content.Valid() && ctx.channel.pipeline.Valid()
      modifies this, content`readerIndex, ctx.channel`outbound, ctx.channel.pipeline
      ensures content.Valid() && ctx.channel.pipeline.Valid()
      ensures var t := old(LoginStartStep(ctx, State(), content.Readable(), ctx.channel.pipeline.stages));
        && o == t.outcome && State() == t.state && ctx.channel.pipeline.stages == t.stages
        && ctx.channel.outbound == old(ctx.channel.outbound) + t.sent
    {
      if loginData.Some? {
        return Fail(ProtocolException("Login already started"));
      }
      var name := ReadString(content);
      if name.Failure? {
        return Fail(name.error);
      }
      ghost var named := State().(loginData := Some(name.value), authenticated := ctx.policy().isAuthenticated(ctx.connection));
      ghost var stages := ctx.channel.pipeline.stages;
      LoginStartNamed(ctx, State(), old(content.Readable()), stages);
      loginData := Some(name.value);
      authenticated := ctx.policy().isAuthenticated(ctx.connection);
      assert State() == named;
      if authenticated {
        RequestEncryption(name.value);
        o := Pass;
      } else {
        o := Authorize();
      }
    }

    /** The authenticated branch of `handleLoginStart`: a key pair for the name, then the Encryption Request. */
    method RequestEncryption(name: string)
      modifies this`encryption, ctx.channel`outbound
      ensures var e := ctx.createEncryption(ctx.connection, name);
        && State() == old(State()).(encryption := Some(e))
        && ctx.channel.outbound ==
             old(ctx.channel.outbound) + [EncryptionRequestPacket(AnnouncedServerId(ctx.connection.ProtocolVersion(), ctx.serverId), e)]
    {
      var e := ctx.createEncryption(ctx.connection, name);
      encryption := Some(e);
      var request := WriteEncryptionRequest(AnnouncedServerId(ctx.connection.ProtocolVersion(), ctx.serverId), e);
      ctx.channel.WriteAndFlush(request);
    }

    /** One length-prefixed array of the Encryption Response, read from `content`. */
    static method ReadByteArray(content: ByteBuf, limited: bool) returns (r: Result<seq<uint8>>)
      requires content.Valid()
      modifies content`readerIndex
      ensures content.Valid() && r == Value(ReadByteArrayFrom(old(content.Readable()), limited))
      ensures r.Success? ==>
        content.readerIndex == old(content.readerIndex) + Consumed(ReadByteArrayFrom(old(content.Readable()), limited))
    {
      ghost var bs := content.Readable();
      var length := ReadVarInt(content);
      if length.Failure? {
        return Failure(length.error);
      }
      if limited && length.value > MAX_SHARED_SECRET_LENGTH {
        return Failure(ProtocolException("Shared secret exceed maximum size"));
      }
      if length.value < 0 {
        return Failure(NegativeArraySizeException);
      }
      assert content.Readable() == bs[Consumed(ReadVarIntFrom(bs))..];
      r := content.ReadBytes(length.value as nat);
    }

    /** The two arrays of the Encryption Response, read from `content`. */
    static method ReadEncryptionResponse(content: ByteBuf) returns (r: Result<(seq<uint8>, seq<uint8>)>)
      requires content.Valid()
      modifies content`readerIndex
      ensures content.Valid() && r == Value(ReadEncryptionResponseFrom(old(content.Readable())))
      ensures r.Success? ==>
        content.readerIndex == old(content.readerIndex) + Consumed(ReadEncryptionResponseFrom(old(content.Readable())))
    {
      ghost var bs := content.Readable();
      var sharedSecret := ReadByteArray(content, true);
      if sharedSecret.Failure? {
        return Failure(sharedSecret.error);
      }
      assert content.Readable() == bs[Consumed(ReadByteArrayFrom(bs, true))..];
      var verifyBytes := ReadByteArray(content, false);
      if verifyBytes.Failure? {
        return Failure(verifyBytes.error);
      }
      r := Success((sharedSecret.value, verifyBytes.value));
    }

    /** The cipher stages around the framing stages, as `handleEncryptionResponse` adds them. */
    method InstallCipher(key: seq<uint8>) returns (o: Outcome)
      requires ctx.channel.pipeline.Valid()
      modifies ctx.channel.pipeline
      ensures ctx.channel.pipeline.Valid()
      ensures var e := CipherEdit(old(ctx.channel.pipeline.stages), key);
        o == e.outcome && ctx.channel.pipeline.stages == e.stages
    {
      var pipeline := ctx.channel.pipeline;
      o := pipeline.AddBefore(LENGTH_PREPENDER, CIPHER_ENCODER, CipherEncoder(key));
      if o.Pass? {
        o := pipeline.AddBefore(FRAME_DECODER, CIPHER_DECODER, CipherDecoder(key));
      }
    }

    /** `handleEncryptionResponse`. */
    method HandleEncryptionResponse(content: ByteBuf) returns (o: Outcome)
      requires Valid() && content.Valid() && ctx.channel.pipeline.Valid()
      modifies this, content`readerIndex, ctx.channel`outbound, ctx.channel.pipeline
      ensures Valid() && content.Valid() && ctx.channel.pipeline.Valid()
      ensures var t := old(EncryptionResponseStep(ctx, State(), content.Readable(), ctx.channel.pipeline.stages));
        && o == t.outcome && State() == t.state && ctx.channel.pipeline.stages == t.stages
        && ctx.channel.outbound == old(ctx.channel.outbound) + t.sent
    {
      if encryption.None? {
        return Fail(ProtocolException("Expect 0x00 before 0x01"));
      } else if encrypted {
        return Fail(ProtocolException("Already encrypted"));
      }
      var response := ReadEncryptionResponse(content);
      if response.Failure? {
        return Fail(response.error);
      }
      var (sharedSecret, verifyBytes) := response.value;
      var decrypted := DecryptSecret(encryption.value, sharedSecret, verifyBytes);
      if decrypted.Failure? {
        return Fail(decrypted.error);
      }
      var key := decrypted.value;
      ghost var keyed := State().(secret := Some(key));
      secret := Some(key);
      assert State() == keyed;
      o := InstallCipher(key);
      if o.Fail? {
        return;
      }
      encrypted := true;
      assert State() == keyed.(encrypted := true);
      o := Authorize();
    }

    /** The session lookup's completion with the profile it found. */
    method ResumeAuthorization(profile: Profile) returns (o: Outcome)
      requires pendingJoin.Some? && ctx.channel.pipeline.Valid()
      modifies this`pendingJoin, ctx.channel`outbound, ctx.channel.pipeline
      ensures ctx.channel.pipeline.Valid()
      ensures var t := old(ResumeStep(ctx, State(), ctx.channel.pipeline.stages, profile));
        && o == t.outcome && State() == t.state && ctx.channel.pipeline.stages == t.stages
        && ctx.channel.outbound == old(ctx.channel.outbound) + t.sent
    {
      o := FinalizeLogin(profile);
      pendingJoin := None;
    }

    /** `handlePacket`. */
    method HandlePacket(packetId: int32, content: ByteBuf) returns (o: Outcome)
      requires Valid() && content.Valid() && ctx.channel.pipeline.Valid()
      modifies this, content`readerIndex, ctx.channel`outbound, ctx.channel.pipeline
      ensures Valid() && content.Valid() && ctx.channel.pipeline.Valid()
      ensures var t := old(PacketStep(ctx, State(), packetId, content.Readable(), ctx.channel.pipeline.stages));
        && o == t.outcome && State() == t.state && ctx.channel.pipeline.stages == t.stages
        && ctx.channel.outbound == old(ctx.channel.outbound) + t.sent
    {
      if packetId == LOGIN_START_ID {
        o := HandleLoginStart(content);
      } else if packetId == ENCRYPTION_RESPONSE_ID {
        o := HandleEncryptionResponse(content);
      } else {
        o := Pass;
      }
    }
  }
}

=== FILE: netty_utils.dfy ===
/**
 * The static helpers of NettyUtils: the walk along a throwable's cause chain for the first
 * message, the reason native transport is unavailable, and write-flush-close. The class itself
 * cannot be instantiated.
 */
module NettyUtils {
  import opened Wrappers
  import opened Bytes
  import opened Channels

  /** A throwable: its class name, its own message and its cause, any of which Java may leave null. */
  datatype Throwable = Throwable(className: string, message: Option<string>, cause: Option<Throwable>)

  /** The throwable followed by its causes, outermost first. */
  function CauseChain(t: Option<Throwable>): seq<Throwable> {
    match t
    case None => []
    case Some(x) => [x] + CauseChain(x.cause)
  }

  /** `getFirstMessage`: a throwable's own message, or else the first message among its causes. */
  function GetFirstMessage(t: Option<Throwable>): Option<string> {
    match t
    case None => None
    case Some(x) => if x.message.Some? then x.message else GetFirstMessage(x.cause)
  }

  /** No throwable along the chain carries a message. */
  predicate Silent(chain: seq<Throwable>) {
    forall i :: 0 <= i < |chain| ==> chain[i].message.None?
  }

  /**
   * The walk finds the first message along the cause chain: nothing when no throwable carries
   * one, and otherwise the message of the outermost throwable that has one.
   */
  lemma {:induction false} FirstMessageOfChain(t: Option<Throwable>)
    ensures GetFirstMessage(t).None? <==> Silent(CauseChain(t))
    ensures GetFirstMessage(t).Some? ==>
      exists i :: 0 <= i < |CauseChain(t)| && CauseChain(t)[i].message == GetFirstMessage(t)
        && Silent(CauseChain(t)[..i])
  {
    match t
    case None =>
    case Some(x) =>
      var chain := CauseChain(t);
      FirstMessageOfChain(x.cause);
      assert chain[1..] == CauseChain(x.cause);
      if x.message.Some? {
        assert chain[0].message == GetFirstMessage(t) && Silent(chain[..0]);
      } else if GetFirstMessage(t).Some? {
        var i :| 0 <= i < |CauseChain(x.cause)| && CauseChain(x.cause)[i].message == GetFirstMessage(x.cause)
          && Silent(CauseChain(x.cause)[..i]);
        assert chain[i + 1].message == GetFirstMessage(t);
        assert chain[..i + 1] == [x] + CauseChain(x.cause)[..i];
        assert Silent(chain[..i + 1]);
      } else {
        assert Silent(chain) by {
          forall k | 0 <= k < |chain| ensures chain[k].message.None? {
            if k > 0 { assert chain[k] == CauseChain(x.cause)[k - 1]; }
          }
        }
      }
  }

  /**
   * `getEpollUnavailabilityReason`, given `Epoll.unavailabilityCause()`: nothing when native
   * transport is available, else the first message along the cause chain, else the class name.
   */
  function GetEpollUnavailabilityReason(cause: Option<Throwable>): (r: Option<string>)
    ensures r.None? <==> cause.None?
  {
    if cause.None? then None
    else
      var message := GetFirstMessage(cause);
      if message.None? then Some(cause.value.className) else message
  }

  /** The reason falls back to the class name exactly when no throwable on the chain has a message. */
  lemma UnavailabilityReasonFallback(cause: Throwable)
    ensures Silent(CauseChain(Some(cause))) ==> GetEpollUnavailabilityReason(Some(cause)) == Some(cause.className)
    ensures !Silent(CauseChain(Some(cause))) ==>
      GetEpollUnavailabilityReason(Some(cause)) == GetFirstMessage(Some(cause)) != None
  {
    FirstMessageOfChain(Some(cause));
  }

  /** The private constructor: NettyUtils is never instantiated. */
  function Construct(): (r: Outcome)
    ensures r.Fail? && r.error.UnsupportedOperationException?
  {
    Fail(UnsupportedOperationException("NettyUtils is a utility class and should not be constructed"))
  }

  /** `writeFlushAndClose`: the message goes out, then the channel is closed once it is written. */
  method WriteFlushAndClose(ch: Channel, msg: seq<uint8>)
    modifies ch`outbound, ch`active
    ensures ch.outbound == old(ch.outbound) + [msg] && !ch.active
  {
    ch.WriteAndFlush(msg);
    ch.Close();
  }
}

=== FILE: pipeline.dfy ===
/**
 * A channel's handler pipeline as an ordered list of named stages, with the editing operations
 * of Netty's DefaultChannelPipeline: names are unique, adding a taken name throws
 * IllegalArgumentException and naming a missing stage throws NoSuchElementException.
 * Inbound data passes the stages front to back, outbound data back to front.
 */
module Pipelines {
  import opened Wrappers

  /** The handler a stage holds, with the configuration that it was built with. */
  datatype Handler =
    | ReadTimeoutHandler(timeoutSeconds: int)
    | LoggingHandler
    | LegacyPingHandler
    | FrameDecoder
    | LengthPrepender
    | OutboundExceptionHandler
    | HandshakeHandler
    | StatusHandler
    | LoginHandler
    | CipherEncoder(secret: seq<int>)
    | CipherDecoder(secret: seq<int>)
    | PacketCompressor(threshold: int, level: int)
    | PacketDecompressor
    | KeepAliveHandler
    | PlayHandler(id: nat)

  datatype Stage = Stage(name: string, handler: Handler)

  const READ_TIMEOUT: string := "read-timeout"
  const DEBUG: string := "debug"
  const LEGACY_PING: string := "legacy-ping"
  const FRAME_DECODER: string := "frame-decoder"
  const LENGTH_PREPENDER: string := "length-prepender"
  const OUTBOUND_EXCEPTION: string := "outbound-exception"
  const HANDSHAKE: string := "handshake-handler"
  const STATUS: string := "status-handler"
  const LOGIN: string := "login-handler"
  const CIPHER_ENCODER: string := "cipher-encoder"
  const CIPHER_DECODER: string := "cipher-decoder"
  const COMPRESSOR: string := "compressor"
  const DECOMPRESSOR: string := "decompressor"
  const PLAY: string := "play-handler"
  const KEEP_ALIVE: string := "keep-alive"

  function Names(stages: seq<Stage>): (r: seq<string>)
    ensures |r| == |stages|
    ensures forall i :: 0 <= i < |stages| ==> r[i] == stages[i].name
  {
    if stages == [] then [] else [stages[0].name] + Names(stages[1..])
  }

  /** No name occurs twice. */
  predicate Unique(names: seq<string>) {
    names == [] || (names[0] !in names[1..] && Unique(names[1..]))
  }

  /** The index of `name`, which occurs in `names`. */
  function Position(names: seq<string>, name: string): (i: nat)
    requires name in names
    ensures i < |names| && names[i] == name && name !in names[..i]
  {
    if names[0] == name then 0
    else
      var j := Position(names[1..], name);
      assert names[1..][..j] == names[1..j + 1];
      j + 1
  }

  /** In a list of unique names, every name is found at its own index. */
  lemma {:induction false} PositionOfUnique(names: seq<string>, i: nat)
    requires Unique(names) && i < |names|
    ensures Position(names, names[i]) == i
  {
    if i > 0 {
      assert names[i] == names[1..][i - 1];
      PositionOfUnique(names[1..], i - 1);
    }
  }

  lemma {:induction false} UniqueInsert(names: seq<string>, i: nat, x: string)
    requires Unique(names) && i <= |names| && x !in names
    ensures Unique(names[..i] + [x] + names[i..])
  {
    var r := names[..i] + [x] + names[i..];
    if i == 0 {
      assert r[1..] == names;
    } else {
      var t := names[1..];
      UniqueInsert(t, i - 1, x);
      assert names[..i] == [names[0]] + t[..i - 1];
      assert names[i..] == t[i - 1..];
      assert r == [names[0]] + (t[..i - 1] + [x] + t[i - 1..]);
      assert r[1..] == t[..i - 1] + [x] + t[i - 1..];
      forall y | y in r[1..] ensures y == x || y in t {
        if y != x {
          var k :| 0 <= k < |r[1..]| && r[1..][k] == y;
          if k < i - 1 { assert y == t[k]; } else { assert y == t[k - 1]; }
        }
      }
    }
  }

  lemma {:induction false} UniqueRemove(names: seq<string>, i: nat)
    requires Unique(names) && i < |names|
    ensures Unique(names[..i] + names[i + 1..])
  {
    var r := names[..i] + names[i + 1..];
    if i == 0 {
      assert r == names[1..];
    } else {
      var t := names[1..];
      UniqueRemove(t, i - 1);
      assert names[..i] == [names[0]] + t[..i - 1];
      assert names[i + 1..] == t[i..];
      assert r == [names[0]] + (t[..i - 1] + t[i..]);
      assert r[1..] == t[..i - 1] + t[i..];
      forall y | y in r[1..] ensures y in t {
        var k :| 0 <= k < |r[1..]| && r[1..][k] == y;
        if k < i - 1 { assert y == t[k]; } else { assert y == t[k + 1]; }
      }
    }
  }

  lemma {:induction false} UniqueUpdate(names: seq<string>, i: nat, x: string)
    requires Unique(names) && i < |names| && (x == names[i] || x !in names)
    ensures Unique(names[i := x])
  {
    var r := names[i := x];
    var t := names[1..];
    if i == 0 {
      assert r[1..] == t;
    } else {
      assert x == t[i - 1] || x !in t;
      UniqueUpdate(t, i - 1, x);
      assert r[1..] == t[i - 1 := x];
      assert names[0] != x by {
        if x == names[i] { assert names[i] in t; }
      }
      forall y | y in r[1..] ensures y == x || y in t {
        var k :| 0 <= k < |r[1..]| && r[1..][k] == y;
        if k != i - 1 { assert y == t[k]; }
      }
    }
  }

  lemma {:induction false} NamesOfConcat(a: seq<Stage>, b: seq<Stage>)
    ensures Names(a + b) == Names(a) + Names(b)
  {
    if a != [] {
      assert (a + b)[1..] == a[1..] + b;
      NamesOfConcat(a[1..], b);
    }
  }

  lemma {:induction false} NamesOfInsert(stages: seq<Stage>, i: nat, s: Stage)
    requires i <= |stages|
    ensures Names(stages[..i] + [s] + stages[i..]) == Names(stages)[..i] + [s.name] + Names(stages)[i..]
  {
    var r := stages[..i] + [s] + stages[i..];
    var ns := Names(stages);
    var l := ns[..i] + [s.name] + ns[i..];
    forall k | 0 <= k < |r| ensures Names(r)[k] == l[k] {
      if k < i {
        assert r[k] == stages[k] && l[k] == ns[k];
      } else if k > i {
        assert r[k] == stages[k - 1] && l[k] == ns[k - 1];
      }
    }
  }

  lemma {:induction false} NamesOfRemove(stages: seq<Stage>, i: nat)
    requires i < |stages|
    ensures Names(stages[..i] + stages[i + 1..]) == Names(stages)[..i] + Names(stages)[i + 1..]
  {
    var r := stages[..i] + stages[i + 1..];
    var ns := Names(stages);
    var l := ns[..i] + ns[i + 1..];
    forall k | 0 <= k < |r| ensures Names(r)[k] == l[k] {
      if k < i {
        assert r[k] == stages[k] && l[k] == ns[k];
      } else {
        assert r[k] == stages[k + 1] && l[k] == ns[k + 1];
      }
    }
  }

  lemma {:induction false} NamesOfUpdate(stages: seq<Stage>, i: nat, s: Stage)
    requires i < |stages|
    ensures Names(stages[i := s]) == Names(stages)[i := s.name]
  {
  }

  /** `addLast(name, handler)`. */
  function AppendStage(stages: seq<Stage>, name: string, h: Handler): Result<seq<Stage>> {
    if name in Names(stages) then Failure(IllegalArgumentException("Duplicate handler name: " + name))
    else Success(stages + [Stage(name, h)])
  }

  /** `addBefore(baseName, name, handler)`: the new stage takes the base stage's index. */
  function InsertBefore(stages: seq<Stage>, base: string, name: string, h: Handler): Result<seq<Stage>> {
    if name in Names(stages) then Failure(IllegalArgumentException("Duplicate handler name: " + name))
    else if base !in Names(stages) then Failure(NoSuchElementException(base))
    else
      var i := Position(Names(stages), base);
      Success(stages[..i] + [Stage(name, h)] + stages[i..])
  }

  /** `addAfter(baseName, name, handler)`: the new stage follows the base stage. */
  function InsertAfter(stages: seq<Stage>, base: string, name: string, h: Handler): Result<seq<Stage>> {
    if name in Names(stages) then Failure(IllegalArgumentException("Duplicate handler name: " + name))
    else if base !in Names(stages) then Failure(NoSuchElementException(base))
    else
      var i := Position(Names(stages), base) + 1;
      Success(stages[..i] + [Stage(name, h)] + stages[i..])
  }

  /** `replace(oldName, newName, handler)`: the new stage takes the old one's place. */
  function ReplaceStage(stages: seq<Stage>, oldName: string, newName: string, h: Handler): Result<seq<Stage>> {
    if oldName !in Names(stages) then Failure(NoSuchElementException(oldName))
    else if newName != oldName && newName in Names(stages) then
      Failure(IllegalArgumentException("Duplicate handler name: " + newName))
    else
      var i := Position(Names(stages), oldName);
      Success(stages[i := Stage(newName, h)])
  }

  /** `remove(name)`. */
  function RemoveStage(stages: seq<Stage>, name: string): Result<seq<Stage>> {
    if name !in Names(stages) then Failure(NoSuchElementException(name))
    else
      var i := Position(Names(stages), name);
      Success(stages[..i] + stages[i + 1..])
  }

  /** `addLast` keeps the stage names unique. */
  lemma {:induction false} AppendKeepsUnique(stages: seq<Stage>, name: string, h: Handler)
    requires Unique(Names(stages))
    ensures AppendStage(stages, name, h).Success? ==> Unique(Names(AppendStage(stages, name, h).value))
  {
    if name !in Names(stages) {
      var s := Stage(name, h);
      assert stages[..|stages|] + [s] + stages[|stages|..] == stages + [s];
      NamesOfInsert(stages, |stages|, s);
      UniqueInsert(Names(stages), |stages|, name);
    }
  }

  /** `addBefore` keeps the stage names unique. */
  lemma {:induction false} InsertBeforeKeepsUnique(stages: seq<Stage>, base: string, name: string, h: Handler)
    requires Unique(Names(stages))
    ensures InsertBefore(stages, base, name, h).Success? ==> Unique(Names(InsertBefore(stages, base, name, h).value))
  {
    if name !in Names(stages) && base in Names(stages) {
      var i := Position(Names(stages), base);
      NamesOfInsert(stages, i, Stage(name, h));
      UniqueInsert(Names(stages), i, name);
    }
  }

  /** `addAfter` keeps the stage names unique. */
  lemma {:induction false} InsertAfterKeepsUnique(stages: seq<Stage>, base: string, name: string, h: Handler)
    requires Unique(Names(stages))
    ensures InsertAfter(stages, base, name, h).Success? ==> Unique(Names(InsertAfter(stages, base, name, h).value))
  {
    if name !in Names(stages) && base in Names(stages) {
      var i := Position(Names(stages), base) + 1;
      NamesOfInsert(stages, i, Stage(name, h));
      UniqueInsert(Names(stages), i, name);
    }
  }

  /** `replace` keeps the stage names unique. */
  lemma {:induction false} ReplaceKeepsUnique(stages: seq<Stage>, oldName: string, newName: string, h: Handler)
    requires Unique(Names(stages))
    ensures ReplaceStage(stages, oldName, newName, h).Success? ==> Unique(Names(ReplaceStage(stages, oldName, newName, h).value))
  {
    if oldName in Names(stages) && (newName == oldName || newName !in Names(stages)) {
      var i := Position(Names(stages), oldName);
      NamesOfUpdate(stages, i, Stage(newName, h));
      UniqueUpdate(Names(stages), i, newName);
    }
  }

  /** `remove` keeps the stage names unique. */
  lemma {:induction false} RemoveKeepsUnique(stages: seq<Stage>, name: string)
    requires Unique(Names(stages))
    ensures RemoveStage(stages, name).Success? ==> Unique(Names(RemoveStage(stages, name).value))
  {
    if name in Names(stages) {
      var i := Position(Names(stages), name);
      NamesOfRemove(stages, i);
      UniqueRemove(Names(stages), i);
    }
  }

  /**
   * A successful `addBefore` places the new stage immediately in front of the base stage, and
   * taking it out again gives back the old pipeline: nothing else moves or changes.
   */
  lemma {:induction false} AddBeforeAdjacent(stages: seq<Stage>, base: string, name: string, h: Handler)
    requires Unique(Names(stages))
    requires name !in Names(stages) && base in Names(stages)
    ensures var i := Position(Names(stages), base);
      InsertBefore(stages, base, name, h) == Success(stages[..i] + [Stage(name, h)] + stages[i..])
    ensures var r := InsertBefore(stages, base, name, h);
      && r.Success?
      && RemoveStage(r.value, name) == Success(stages)
  {
    RemoveInserted(stages, Position(Names(stages), base), Stage(name, h));
  }

  /** A successful `addAfter` places the new stage immediately behind the base stage. */
  lemma {:induction false} AddAfterAdjacent(stages: seq<Stage>, base: string, name: string, h: Handler)
    requires Unique(Names(stages))
    requires name !in Names(stages) && base in Names(stages)
    ensures var i := Position(Names(stages), base) + 1;
      InsertAfter(stages, base, name, h) == Success(stages[..i] + [Stage(name, h)] + stages[i..])
    ensures var r := InsertAfter(stages, base, name, h);
      && r.Success?
      && RemoveStage(r.value, name) == Success(stages)
  {
    RemoveInserted(stages, Position(Names(stages), base) + 1, Stage(name, h));
  }

  /** Removing a stage inserted under a fresh name gives back the stages it was inserted into. */
  lemma {:induction false} RemoveInserted(stages: seq<Stage>, i: nat, s: Stage)
    requires Unique(Names(stages)) && s.name !in Names(stages) && i <= |stages|
    ensures RemoveStage(stages[..i] + [s] + stages[i..], s.name) == Success(stages)
  {
    var r := stages[..i] + [s] + stages[i..];
    NamesOfInsert(stages, i, s);
    InsertedNamePosition(Names(stages), i, s.name, s.name);
    SpliceOut(stages, i, s);
  }

  lemma {:induction false} SpliceOut(stages: seq<Stage>, i: nat, s: Stage)
    requires i <= |stages|
    ensures var r := stages[..i] + [s] + stages[i..];
      r[..i] + r[i + 1..] == stages
  {
    var r := stages[..i] + [s] + stages[i..];
    assert r[..i] == stages[..i] && r[i + 1..] == stages[i..];
  }

  /** The stage named `a` sits immediately in front of the stage named `b`. */
  predicate Adjacent(stages: seq<Stage>, a: string, b: string) {
    a in Names(stages) && b in Names(stages) && Position(Names(stages), b) == Position(Names(stages), a) + 1
  }

  /**
   * Where every stage is after a successful `addBefore`: the new stage takes the base stage's
   * index, stages in front of it keep theirs and the others move back by one.
   */
  lemma {:induction false} InsertBeforePositions(stages: seq<Stage>, base: string, name: string, h: Handler, n: string)
    requires Unique(Names(stages)) && name !in Names(stages) && base in Names(stages)
    requires n in Names(stages) || n == name
    ensures InsertBefore(stages, base, name, h).Success?
    ensures var r := Names(InsertBefore(stages, base, name, h).value);
      var ns := Names(stages);
      var i := Position(ns, base);
      && Unique(r) && n in r
      && Position(r, n) == if n == name then i else if Position(ns, n) < i then Position(ns, n) else Position(ns, n) + 1
  {
    var ns := Names(stages);
    var i := Position(ns, base);
    var s := Stage(name, h);
    assert InsertBefore(stages, base, name, h) == Success(stages[..i] + [s] + stages[i..]);
    NamesOfInsert(stages, i, s);
    InsertedNamePosition(ns, i, name, n);
  }

  /** Positions in a list of unique names after a fresh name is inserted at index `i`. */
  lemma {:induction false} InsertedNamePosition(ns: seq<string>, i: nat, name: string, n: string)
    requires Unique(ns) && name !in ns && i <= |ns|
    requires n in ns || n == name
    ensures var r := ns[..i] + [name] + ns[i..];
      && Unique(r) && n in r
      && Position(r, n) == if n == name then i else if Position(ns, n) < i then Position(ns, n) else Position(ns, n) + 1
  {
    var r := ns[..i] + [name] + ns[i..];
    UniqueInsert(ns, i, name);
    var p: nat;
    if n == name {
      p := i;
    } else {
      var q := Position(ns, n);
      p := if q < i then q else q + 1;
    }
    assert r[p] == n;
    PositionOfUnique(r, p);
  }

  /**
   * Everything a successful `addBefore` under a fresh name guarantees: the names stay unique,
   * the new stage sits right in front of its base, the names are the old ones plus the new
   * one, and removing the new stage gives back the old pipeline.
   */
  lemma {:induction false} InsertBeforeFacts(stages: seq<Stage>, base: string, name: string, h: Handler)
    requires Unique(Names(stages)) && name !in Names(stages) && base in Names(stages)
    ensures InsertBefore(stages, base, name, h).Success?
    ensures var r := InsertBefore(stages, base, name, h).value;
      && Unique(Names(r)) && Adjacent(r, name, base)
      && (forall n :: n in Names(r) <==> n in Names(stages) || n == name)
      && RemoveStage(r, name) == Success(stages)
  {
    AddBeforeAdjacent(stages, base, name, h);
    InsertBeforePositions(stages, base, name, h, name);
    InsertBeforePositions(stages, base, name, h, base);
    InsertBeforeNameSet(stages, base, name, h);
  }

  lemma {:induction false} InsertBeforeNameSet(stages: seq<Stage>, base: string, name: string, h: Handler)
    requires name !in Names(stages) && base in Names(stages)
    ensures InsertBefore(stages, base, name, h).Success?
    ensures forall n :: n in Names(InsertBefore(stages, base, name, h).value) <==> n in Names(stages) || n == name
  {
    var ns := Names(stages);
    var i := Position(ns, base);
    var r := stages[..i] + [Stage(name, h)] + stages[i..];
    assert InsertBefore(stages, base, name, h) == Success(r);
    NamesOfInsert(stages, i, Stage(name, h));
    var rn := ns[..i] + [name] + ns[i..];
    assert Names(r) == rn;
    assert ns == ns[..i] + ns[i..];
    forall n ensures n in rn <==> n in ns || n == name {
      calc {
        n in rn;
        n in ns[..i] || n == name || n in ns[i..];
        n in ns || n == name;
      }
    }
  }

  /**
   * A successful `replace` under a fresh name: the names stay unique, the old name is gone,
   * the new one takes its index, and every other name stays.
   */
  lemma {:induction false} ReplaceFacts(stages: seq<Stage>, oldName: string, newName: string, h: Handler)
    requires Unique(Names(stages)) && oldName in Names(stages) && newName !in Names(stages)
    ensures ReplaceStage(stages, oldName, newName, h).Success?
    ensures var r := ReplaceStage(stages, oldName, newName, h).value;
      && Unique(Names(r))
      && (forall n :: n in Names(r) <==> (n in Names(stages) && n != oldName) || n == newName)
      && Position(Names(r), newName) == Position(Names(stages), oldName)
  {
    var ns := Names(stages);
    var i := Position(ns, oldName);
    ReplaceKeepsUnique(stages, oldName, newName, h);
    NamesOfUpdate(stages, i, Stage(newName, h));
    assert Names(ReplaceStage(stages, oldName, newName, h).value) == ns[i := newName];
    ReplacedNames(ns, i, newName);
  }

  /** Names after the one at index `i` is replaced by a fresh name. */
  lemma {:induction false} ReplacedNames(ns: seq<string>, i: nat, newName: string)
    requires Unique(ns) && i < |ns| && newName !in ns
    ensures var after := ns[i := newName];
      && Unique(after)
      && (forall n :: n in after <==> (n in ns && n != ns[i]) || n == newName)
      && Position(after, newName) == i
  {
    var after := ns[i := newName];
    UniqueUpdate(ns, i, newName);
    assert after[i] == newName;
    forall n ensures n in after <==> (n in ns && n != ns[i]) || n == newName {
      if n in after && n != newName {
        var j :| 0 <= j < |after| && after[j] == n;
        assert ns[j] == n && j != i;
        if n == ns[i] {
          PositionOfUnique(ns, j);
          PositionOfUnique(ns, i);
        }
      }
      if n in ns && n != ns[i] {
        var j :| 0 <= j < |ns| && ns[j] == n;
        assert after[j] == n;
      }
    }
    PositionOfUnique(after, i);
  }

  /**
   * `addBefore` puts the new stage right in front of its base, and stages that were adjacent
   * stay adjacent, with the new stage between them when the base was the second of the two.
   */
  lemma {:induction false} InsertBeforeAdjacency(stages: seq<Stage>, base: string, name: string, h: Handler, a: string, b: string)
    requires Unique(Names(stages)) && name !in Names(stages) && base in Names(stages)
    requires Adjacent(stages, a, b)
    ensures InsertBefore(stages, base, name, h).Success?
    ensures var r := InsertBefore(stages, base, name, h).value;
      && Adjacent(r, name, base)
      && (b != base ==> Adjacent(r, a, b))
      && (b == base ==> Adjacent(r, a, name))
  {
    InsertBeforePositions(stages, base, name, h, name);
    InsertBeforePositions(stages, base, name, h, base);
    InsertBeforePositions(stages, base, name, h, a);
    InsertBeforePositions(stages, base, name, h, b);
    var ns := Names(stages);
    if b != base {
      PositionOfUnique(ns, Position(ns, b));
      assert Position(ns, b) != Position(ns, base);
    }
  }

  /**
   * The editable pipeline of one channel. Its methods apply the operations above and leave
   * the stages untouched when the operation throws.
   */
  class Pipeline {
    var stages: seq<Stage>

    ghost predicate Valid()
      reads this
    {
      Unique(Names(stages))
    }

    constructor ()
      ensures Valid() && stages == []
    {
      stages := [];
    }

    method AddLast(name: string, h: Handler) returns (o: Outcome)
      requires Valid()
      modifies this
      ensures Valid()
      ensures var r := AppendStage(old(stages), name, h);
        if r.Success? then o == Pass && stages == r.value else o == Fail(r.error) && stages == old(stages)
    {
      AppendKeepsUnique(stages, name, h);
      var r := AppendStage(stages, name, h);
      if r.Success? {
        stages := r.value;
        o := Pass;
      } else {
        o := Fail(r.error);
      }
    }

    method AddBefore(base: string, name: string, h: Handler) returns (o: Outcome)
      requires Valid()
      modifies this
      ensures Valid()
      ensures var r := InsertBefore(old(stages), base, name, h);
        if r.Success? then o == Pass && stages == r.value else o == Fail(r.error) && stages == old(stages)
    {
      InsertBeforeKeepsUnique(stages, base, name, h);
      var r := InsertBefore(stages, base, name, h);
      if r.Success? {
        stages := r.value;
        o := Pass;
      } else {
        o := Fail(r.error);
      }
    }

    method AddAfter(base: string, name: string, h: Handler) returns (o: Outcome)
      requires Valid()
      modifies this
      ensures Valid()
      ensures var r := InsertAfter(old(stages), base, name, h);
        if r.Success? then o == Pass && stages == r.value else o == Fail(r.error) && stages == old(stages)
    {
      InsertAfterKeepsUnique(stages, base, name, h);
      var r := InsertAfter(stages, base, name, h);
      if r.Success? {
        stages := r.value;
        o := Pass;
      } else {
        o := Fail(r.error);
      }
    }

    method Replace(oldName: string, newName: string, h: Handler) returns (o: Outcome)
      requires Valid()
      modifies this
      ensures Valid()
      ensures var r := ReplaceStage(old(stages), oldName, newName, h);
        if r.Success? then o == Pass && stages == r.value else o == Fail(r.error) && stages == old(stages)
    {
      ReplaceKeepsUnique(stages, oldName, newName, h);
      var r := ReplaceStage(stages, oldName, newName, h);
      if r.Success? {
        stages := r.value;
        o := Pass;
      } else {
        o := Fail(r.error);
      }
    }

    method Remove(name: string) returns (o: Outcome)
      requires Valid()
      modifies this
      ensures Valid()
      ensures var r := RemoveStage(old(stages), name);
        if r.Success? then o == Pass && stages == r.value else o == Fail(r.error) && stages == old(stages)
    {
      RemoveKeepsUnique(stages, name);
      var r := RemoveStage(stages, name);
      if r.Success? {
        stages := r.value;
        o := Pass;
      } else {
        o := Fail(r.error);
      }
    }
  }
}

=== FILE: server.dfy ===
/**
 * NettyServer: binds the listening channel once and closes it on shutdown. A start while
 * started and a shutdown while not started are refused; a failed bind is only logged. The
 * bind itself is a parameter: the channel it bound, or nothing when it was interrupted or
 * threw.
 */
module Server {
  import opened Wrappers
  import opened Channels

  const START_PRIORITY: int := 0
  const SHUTDOWN_PRIORITY: int := 90

  /** The arguments of `new NettyServer(...)`, in the order they are checked. */
  function ServerArguments(config: bool, playHandlerFactory: bool, eventLoopGroupHolder: bool,
                           encryptionFactory: bool, jsonMapper: bool, virtualHostManager: bool,
                           sessionClient: bool): (r: seq<(string, bool)>)
    ensures |r| == 7 && r[0] == ("config", config) && r[1] == ("playHandlerFactory", playHandlerFactory)
    ensures (forall i :: 0 <= i < |r| ==> r[i].1) <==>
      config && playHandlerFactory && eventLoopGroupHolder && encryptionFactory && jsonMapper
      && virtualHostManager && sessionClient
  {
    var r := [("config", config), ("playHandlerFactory", playHandlerFactory),
              ("eventLoopGroupHolder", eventLoopGroupHolder), ("encryptionFactory", encryptionFactory),
              ("jsonMapper", jsonMapper), ("virtualHostManager", virtualHostManager), ("sessionClient", sessionClient)];
    assert r[2].1 == eventLoopGroupHolder && r[3].1 == encryptionFactory && r[4].1 == jsonMapper
      && r[5].1 == virtualHostManager && r[6].1 == sessionClient;
    assert (forall i :: 0 <= i < |r| ==> r[i].1) <== (
      config && playHandlerFactory && eventLoopGroupHolder && encryptionFactory && jsonMapper
      && virtualHostManager && sessionClient) by {
      forall i | 0 <= i < |r| && config && playHandlerFactory && eventLoopGroupHolder && encryptionFactory
        && jsonMapper && virtualHostManager && sessionClient
        ensures r[i].1
      {
        assert i in {0, 1, 2, 3, 4, 5, 6};
      }
    }
    r
  }

  /** `new NettyServer(...)`: the server is constructed exactly when every argument is present. */
  function ConstructionCheck(config: bool, playHandlerFactory: bool, eventLoopGroupHolder: bool,
                             encryptionFactory: bool, jsonMapper: bool, virtualHostManager: bool,
                             sessionClient: bool): (r: Outcome)
    ensures r.Pass? <==>
      config && playHandlerFactory && eventLoopGroupHolder && encryptionFactory && jsonMapper
      && virtualHostManager && sessionClient
  {
    RequireNonNull(ServerArguments(config, playHandlerFactory, eventLoopGroupHolder, encryptionFactory,
                                   jsonMapper, virtualHostManager, sessionClient))
  }

  /** The configuration is checked first, then the play handler factory. */
  lemma ConstructionCheckOrder(config: bool, playHandlerFactory: bool, eventLoopGroupHolder: bool,
                               encryptionFactory: bool, jsonMapper: bool, virtualHostManager: bool,
                               sessionClient: bool)
    ensures var r := ConstructionCheck(config, playHandlerFactory, eventLoopGroupHolder, encryptionFactory,
                                       jsonMapper, virtualHostManager, sessionClient);
      && (!config ==> r == Fail(NullPointerException("config" + " must not be null")))
      && (config && !playHandlerFactory ==> r == Fail(NullPointerException("playHandlerFactory" + " must not be null")))
  {
    var arguments := ServerArguments(config, playHandlerFactory, eventLoopGroupHolder, encryptionFactory,
                                     jsonMapper, virtualHostManager, sessionClient);
    assert arguments[1..][0] == arguments[1];
  }

  class NettyServer {
    var channel: Channel?
    var started: bool

    /** A server that has not been started. */
    constructor ()
      ensures channel == null && !started
    {
      channel, started := null, false;
    }

    /**
     * `start`: refused while started. Otherwise the server is started exactly when the bind
     * gave a channel, which is then the server's channel; a failed bind leaves the server
     * stopped and its channel as it was, and nothing is thrown.
     */
    method Start(bind: Option<Channel>) returns (o: Outcome)
      modifies this
      ensures old(started) ==> o == Fail(IllegalStateException("Already started")) && started && channel == old(channel)
      ensures !old(started) ==>
        && o == Pass && (started <==> bind.Some?)
        && channel == (if bind.Some? then bind.value else old(channel))
    {
      if started {
        return Fail(IllegalStateException("Already started"));
      }
      if bind.Some? {
        channel := bind.value;
        started := true;
      }
      o := Pass;
    }

    /**
     * `shutdown`: refused while not started. Otherwise the channel, if any, is closed, and
     * the server is stopped even when closing fails, whose exception `closeResult` then
     * reports.
     */
    method Shutdown(closeResult: Outcome) returns (o: Outcome)
      modifies this, if channel != null then {channel} else {}
      ensures !old(started) ==> o == Fail(IllegalStateException("Not started.")) && !started && channel == old(channel)
      ensures old(started) ==>
        && !started && channel == old(channel)
        && (channel != null ==> !channel.active && o == closeResult)
        && (channel == null ==> o == Pass)
    {
      if !started {
        return Fail(IllegalStateException("Not started."));
      }
      o := Pass;
      if channel != null {
        channel.Close();
        o := closeResult;
      }
      started := false;
    }
  }

  /** After a shutdown the server can be started again, whether or not closing succeeded. */
  method RestartAfterShutdown(s: NettyServer, closeResult: Outcome, bind: Channel) returns (o: Outcome)
    requires s.started
    modifies s, s.channel
    ensures o == Pass && s.started && s.channel == bind
  {
    var closed := s.Shutdown(closeResult);
    o := s.Start(Some(bind));
  }
}

=== FILE: session_client.dfy ===
/**
 * NettySessionClient: asks the session server whether a player joined. The join request is
 * hashed and sent as one GET over an HTTP client that runs on the server's worker event loop
 * group; the client is created lazily and created again when its group has gone down. The
 * completed response is accepted or rejected by `AcceptResponse`.
 *
 * SHA-1, the two's-complement hex rendering of the digest and URL encoding are parameters
 * (`Hashing`); the HTTP transport is reduced to the list of URLs each client was asked to get.
 */
module SessionClient {
  import opened Wrappers
  import opened Bytes
  import opened Connections
  import opened Hosts
  import opened EventLoops
  import Text

  /** The session server's join check, up to the query. */
  const SESSION_URL: string := "https://sessionserver.mojang.com/session/minecraft/hasJoined?"
  const HASHING_ALGORITHM: string := "SHA1"
  const NO_CONTENT: int32 := 204
  const UNAVAILABLE: string := "Event loop group is (still) not available"

  /** The pieces of the request the model does not compute. */
  datatype Hashing = Hashing(
    sha1: seq<uint8> -> seq<uint8>,
    toHexTwosComplement: seq<uint8> -> string,
    urlEncode: string -> string)

  /** `new NettySessionClient(eventLoopGroupHolder, jsonMapper)`. */
  function ConstructionCheck(hasEventLoopGroupHolder: bool, hasJsonMapper: bool): (r: Outcome)
    ensures r.Pass? <==> hasEventLoopGroupHolder && hasJsonMapper
    ensures !hasEventLoopGroupHolder ==>
      r == Fail(NullPointerException("eventLoopGroupHolder" + " must not be null"))
  {
    var arguments := [("eventLoopGroupHolder", hasEventLoopGroupHolder), ("jsonMapper", hasJsonMapper)];
    assert arguments[1..][0] == arguments[1];
    RequireNonNull(arguments)
  }

  /** What the digest is fed: the server id in ISO-8859-1, the shared secret, the public key. */
  function DigestInput(serverId: string, sharedSecret: seq<uint8>, publicKey: seq<uint8>): (r: seq<uint8>)
    ensures |r| == |serverId| + |sharedSecret| + |publicKey|
    ensures r[..|serverId|] == Text.Latin1(serverId)
    ensures r[|serverId|..|serverId| + |sharedSecret|] == sharedSecret
    ensures r[|serverId| + |sharedSecret|..] == publicKey
  {
    Text.Latin1(serverId) + sharedSecret + publicKey
  }

  /** A message digest being fed; `input` is everything it was fed so far. */
  class MessageDigest {
    var input: seq<uint8>

    constructor ()
      ensures input == []
    {
      input := [];
    }

    method Update(bytes: seq<uint8>)
      modifies this
      ensures input == old(input) + bytes
    {
      input := input + bytes;
    }
  }

  /** The join check URL, with the already encoded user name and hash in its query. */
  function JoinUrl(encodedUsername: string, encodedHash: string): string {
    SESSION_URL + "username=" + encodedUsername + "&serverId=" + encodedHash
  }

  /**
   * As long as the encoder never produces `&`, which URL encoding escapes, the query splits
   * back into exactly the user name and the hash parameter.
   */
  lemma JoinUrlQuery(encodedUsername: string, encodedHash: string)
    requires '&' !in encodedUsername && '&' !in encodedHash
    ensures var url := JoinUrl(encodedUsername, encodedHash);
      && url[..|SESSION_URL|] == SESSION_URL
      && Text.SplitOn(url[|SESSION_URL|..], '&') == ["username=" + encodedUsername, "serverId=" + encodedHash]
  {
    var fields := ["username=" + encodedUsername, "serverId=" + encodedHash];
    var query := Text.Join(fields, '&');
    JoinUrlFields(encodedUsername, encodedHash);
    assert JoinUrl(encodedUsername, encodedHash)[|SESSION_URL|..] == query;
    FieldsFreeOfAmpersand(encodedUsername, encodedHash);
    Text.SplitJoin(fields, '&');
  }

  /** The query is the two parameters joined by `&`. */
  lemma JoinUrlFields(encodedUsername: string, encodedHash: string)
    ensures JoinUrl(encodedUsername, encodedHash)
      == SESSION_URL + Text.Join(["username=" + encodedUsername, "serverId=" + encodedHash], '&')
  {
    var fields := ["username=" + encodedUsername, "serverId=" + encodedHash];
    assert Text.Join(fields, '&') == fields[0] + ['&'] + fields[1];
  }

  lemma FieldsFreeOfAmpersand(encodedUsername: string, encodedHash: string)
    requires '&' !in encodedUsername && '&' !in encodedHash
    ensures var fields := ["username=" + encodedUsername, "serverId=" + encodedHash];
      forall i :: 0 <= i < |fields| ==> '&' !in fields[i]
  {
    assert '&' !in "username=" && '&' !in "serverId=";
  }

  /** The URL `annotateJoin` requests for a join. */
  function RequestUrl(join: JoinRequest, h: Hashing): string {
    var sha := h.toHexTwosComplement(h.sha1(DigestInput(join.serverId, join.sharedSecret, join.publicKey)));
    JoinUrl(h.urlEncode(join.username), h.urlEncode(sha))
  }

  /** A completed HTTP response: its status and its body, if any. */
  datatype Response = Response(statusCode: int32, hasResponseBody: bool, responseBody: Option<string>)

  /** An accepted status is a success other than 204 No Content. */
  predicate AcceptedStatus(status: int32) {
    200 <= status <= 299 && status != NO_CONTENT
  }

  /**
   * The completion of the lookup: a missing response or one without a body, then a status
   * outside 2xx or 204, then a missing or empty body are rejected, in that order; anything
   * else is read as a profile.
   */
  function AcceptResponse(response: Option<Response>, mapper: JsonMapper): (r: Result<Profile>)
    ensures r.Success? <==>
      && response.Some? && response.value.hasResponseBody && AcceptedStatus(response.value.statusCode)
      && response.value.responseBody.Some? && |response.value.responseBody.value| >= 1
    ensures r.Success? ==> r.value == mapper.deserializeProfile(response.value.responseBody.value)
    ensures (response.None? || !response.value.hasResponseBody) ==>
      r == Failure(UnsupportedOperationException("No response"))
    ensures response.Some? && response.value.hasResponseBody && !AcceptedStatus(response.value.statusCode) ==>
      r == Failure(UnsupportedOperationException("Unexpected status code: " + Text.DecimalString(response.value.statusCode)))
    ensures r.Failure? ==> r.error.UnsupportedOperationException?
  {
    match response
    case None => Failure(UnsupportedOperationException("No response"))
    case Some(res) =>
      if !res.hasResponseBody then Failure(UnsupportedOperationException("No response"))
      else if res.statusCode < 200 || res.statusCode > 299 || res.statusCode == NO_CONTENT then
        Failure(UnsupportedOperationException("Unexpected status code: " + Text.DecimalString(res.statusCode)))
      else
        match res.responseBody
        case None => Failure(UnsupportedOperationException("No response body"))
        case Some(body) =>
          if |body| < 1 then Failure(UnsupportedOperationException("No response body"))
          else Success(mapper.deserializeProfile(body))
  }

  /** `isAvailable`: neither shutting down, nor shut down, nor terminated. */
  predicate IsAvailable(g: EventLoopGroup)
    reads g
  {
    !g.IsShuttingDown() && !g.IsShutdown() && !g.IsTerminated()
  }

  /** A group is available exactly while it runs. */
  lemma AvailableIffRunning(g: EventLoopGroup)
    ensures IsAvailable(g) <==> g.state == Running
  {
    if g.state != Running {
      assert g.IsShuttingDown();
    }
  }

  /** An asynchronous HTTP client bound to an event loop group. */
  class HttpClient {
    const group: EventLoopGroup
    var closed: bool
    /** The URLs this client was asked to get, oldest first. */
    var requests: seq<string>

    constructor (group: EventLoopGroup)
      ensures this.group == group && !closed && requests == []
    {
      this.group := group;
      closed, requests := false, [];
    }

    /** `close`: the client's group is the caller's and is left running. */
    method Close()
      modifies this`closed
      ensures closed
    {
      closed := true;
    }

    /** `prepareGet(url).execute()`. */
    method Get(url: string)
      modifies this`requests
      ensures requests == old(requests) + [url]
    {
      requests := requests + [url];
    }
  }

  class NettySessionClient {
    const holder: DefaultEventLoopGroupHolder
    const jsonMapper: JsonMapper
    var client: HttpClient?

    constructor (holder: DefaultEventLoopGroupHolder, jsonMapper: JsonMapper)
      ensures this.holder == holder && this.jsonMapper == jsonMapper && client == null
    {
      this.holder, this.jsonMapper := holder, jsonMapper;
      client := null;
    }

    /**
     * `createClient`: a client on the holder's worker group. Without one, the HTTP client
     * starts a group of its own.
     */
    method CreateClient() returns (c: HttpClient)
      requires holder.Valid()
      ensures fresh(c) && !c.closed && c.requests == []
      ensures holder.workerGroup != null ==> c.group == holder.workerGroup
      ensures holder.workerGroup == null ==> fresh(c.group) && c.group.state == Running
    {
      var view := holder.GetWorkerGroup();
      if view != null {
        c := new HttpClient(view.delegate);
      } else {
        var own := new EventLoopGroup(DEFAULT_THREADS);
        c := new HttpClient(own);
      }
    }

    /**
     * `getClient`: a missing or closed client is created. An open one is kept while its group
     * is available; otherwise it is replaced, without being closed, by a new one, and the
     * lookup fails if the new one's group is not available either. The new client stays.
     */
    method GetClient() returns (r: Result<HttpClient>)
      requires holder.Valid()
      modifies this`client
      ensures r.Success? ==> client == r.value && !client.closed
      ensures r.Failure? ==> r.error == IllegalStateException(UNAVAILABLE)
      ensures old(client) == null || old(client.closed) ==>
        && r.Success? && fresh(client) && client.requests == []
        && (holder.workerGroup != null ==> client.group == holder.workerGroup)
      ensures old(client) != null && !old(client.closed) && IsAvailable(old(client).group) ==>
        r == Success(old(client))
      ensures old(client) != null && !old(client.closed) && !IsAvailable(old(client).group) ==>
        && fresh(client) && client.requests == []
        && (holder.workerGroup != null ==> client.group == holder.workerGroup)
        && (r.Success? <==> IsAvailable(client.group))
    {
      if client == null || client.closed {
        client := CreateClient();
      } else {
        if !IsAvailable(client.group) {
          client := CreateClient();
        }
        if !IsAvailable(client.group) {
          return Failure(IllegalStateException(UNAVAILABLE));
        }
      }
      r := Success(client);
    }

    /**
     * `annotateJoin`: the digest is fed the three parts in order, then the join check is
     * requested through the current client. A failing `getClient` is thrown to the caller
     * and nothing is requested.
     */
    method AnnotateJoin(join: JoinRequest, h: Hashing) returns (o: Outcome)
      requires holder.Valid()
      modifies this`client, (if client == null then {} else {client})`requests
      ensures o.Fail? ==> o.error == IllegalStateException(UNAVAILABLE)
      ensures o.Pass? ==> client != null && !client.closed
      ensures o.Pass? && client == old(client) ==> client.requests == old(client.requests) + [RequestUrl(join, h)]
      ensures o.Pass? && client != old(client) ==> fresh(client) && client.requests == [RequestUrl(join, h)]
      ensures old(client) != null && !old(client.closed) && IsAvailable(old(client).group) ==> o.Pass? && client == old(client)
    {
      var md := new MessageDigest();
      md.Update(Text.Latin1(join.serverId));
      md.Update(join.sharedSecret);
      md.Update(join.publicKey);
      assert md.input == DigestInput(join.serverId, join.sharedSecret, join.publicKey);
      var sha := h.toHexTwosComplement(h.sha1(md.input));
      var url := JoinUrl(h.urlEncode(join.username), h.urlEncode(sha));
      var r := GetClient();
      if r.Failure? {
        return Fail(r.error);
      }
      r.value.Get(url);
      o := Pass;
    }

    /** `shutdown`: closes the client if there is one. */
    method Shutdown()
      modifies client
      ensures client == old(client) && (client != null ==> client.closed)
    {
      if client != null {
        client.Close();
      }
    }
  }

  /**
   * Once the holder is started again after its groups went down, the next lookup moves the
   * open client over to the new worker group and succeeds.
   */
  method RecoverAfterRestart(sc: NettySessionClient) returns (r: Result<HttpClient>)
    requires sc.holder.Valid() && sc.client != null && !sc.client.closed
    requires sc.client.group.state == Terminated
    modifies sc.holder, sc`client
    ensures r.Success? && r.value == sc.client && sc.client.group == sc.holder.workerGroup
    ensures sc.client.group.state == Running
  {
    sc.holder.Start();
    AvailableIffRunning(sc.client.group);
    r := sc.GetClient();
    AvailableIffRunning(sc.client.group);
  }
}

=== FILE: status.dfy ===
/**
 * ProtocolStatusHandler: after a handshake with next state 1 the client asks for the server
 * list status (packet 0x00) and may then ping (packet 0x01). The status answer leaves the
 * connection open; the pong echoes the ping's payload and closes it.
 */
module Status {
  import opened Wrappers
  import opened Bytes
  import opened Codec
  import opened Buffers
  import opened Channels
  import opened Connections
  import opened Hosts
  import VarInt
  import Text
  import NettyUtils

  const STATUS_REQUEST_ID: int32 := 0x00
  const PING_REQUEST_ID: int32 := 0x01
  const STATUS_RESPONSE_ID: int32 := 0x00
  const PONG_ID: int32 := 0x01

  /** The handler's two final fields. */
  datatype ProtocolStatusHandler = ProtocolStatusHandler(jsonMapper: JsonMapper, connection: DecidedConnection)

  /**
   * The constructor: a sharable handler class is refused, then each argument must be present,
   * checked in the order of the fields.
   */
  function NewStatusHandler(sharable: bool, jsonMapper: Option<JsonMapper>, connection: Option<DecidedConnection>)
    : (r: Result<ProtocolStatusHandler>)
    ensures r.Success? <==> !sharable && jsonMapper.Some? && connection.Some?
    ensures sharable ==> r == Failure(IllegalStateException("@Sharable not allowed here"))
    ensures !sharable && jsonMapper.None? ==> r == Failure(NullPointerException("jsonMapper must not be null"))
    ensures !sharable && jsonMapper.Some? && connection.None? ==>
      r == Failure(NullPointerException("connection must not be null"))
    ensures r.Success? ==> r.value.jsonMapper == jsonMapper.value && r.value.connection == connection.value
  {
    if sharable then Failure(IllegalStateException("@Sharable not allowed here"))
    else if jsonMapper.None? then Failure(NullPointerException("jsonMapper must not be null"))
    else if connection.None? then Failure(NullPointerException("connection must not be null"))
    else Success(ProtocolStatusHandler(jsonMapper.value, connection.value))
  }

  /** The serialized status the connection's virtual host reports for it. */
  function StatusJson(handler: ProtocolStatusHandler, hosts: VirtualHostManager): Json {
    var c := handler.connection;
    handler.jsonMapper.serialize(hosts.policy(c.virtualHost).status(c))
  }

  /** The status response packet: its id, then the JSON as a protocol string. */
  function StatusResponsePacket(json: Json): (r: seq<uint8>)
    ensures |r| == 1 + |StringBytes(json)| && r[0] == 0x00
  {
    VarInt.Encode(STATUS_RESPONSE_ID) + StringBytes(json)
  }

  /** The pong packet: its id, then the eight bytes of the payload. */
  function PongPacket(payload: int64): (r: seq<uint8>)
    ensures |r| == 9 && r[0] == 0x01
  {
    VarInt.Encode(PONG_ID) + LongBytes(payload)
  }

  /** What the ping's content makes the handler send: the pong, or the failed read's exception. */
  function PingReply(content: seq<uint8>): (r: Result<seq<uint8>>)
    ensures r.Success? <==> |content| >= 8
    ensures r.Failure? ==> r.error == IndexOutOfBoundsException
  {
    match ReadLongFrom(content)
    case Failure(e) => Failure(e)
    case Success((payload, _)) => Success(PongPacket(payload))
  }

  /** A client reading the status response finds the status id and then exactly the JSON. */
  lemma StatusResponseReadBack(json: Json, rest: seq<uint8>)
    ensures var bs := StatusResponsePacket(json) + rest;
      && ReadVarIntFrom(bs) == Success((STATUS_RESPONSE_ID, 1))
      && ReadStringFrom(bs[1..]) == Success((json, |StringBytes(json)|))
  {
    var bs := StatusResponsePacket(json) + rest;
    VarIntRoundTrip(STATUS_RESPONSE_ID, StringBytes(json) + rest);
    assert bs == VarInt.Encode(STATUS_RESPONSE_ID) + (StringBytes(json) + rest);
    assert bs[1..] == StringBytes(json) + rest;
    StringRoundTrip(json, rest);
  }

  /**
   * The pong echoes the ping: whatever long the client sends comes back after the pong id,
   * and bytes after the payload are ignored.
   */
  lemma PingEcho(payload: int64, rest: seq<uint8>)
    ensures PingReply(LongBytes(payload) + rest) == Success(PongPacket(payload))
    ensures var pong := PongPacket(payload);
      && ReadVarIntFrom(pong) == Success((PONG_ID, 1))
      && ReadLongFrom(pong[1..]) == Success((payload, 8))
  {
    ReadLongOfBytes(payload, rest);
    var pong := PongPacket(payload);
    VarIntRoundTrip(PONG_ID, LongBytes(payload));
    assert pong[1..] == LongBytes(payload) + [];
    ReadLongOfBytes(payload, []);
  }

  /** `handleStatusRequest`: one status response goes out and the connection stays open. */
  method HandleStatusRequest(ch: Channel, handler: ProtocolStatusHandler, hosts: VirtualHostManager)
    modifies ch`outbound
    ensures ch.outbound == old(ch.outbound) + [StatusResponsePacket(StatusJson(handler, hosts))]
  {
    var c := handler.connection;
    var response := hosts.policy(c.virtualHost).status(c);
    var serialized := handler.jsonMapper.serialize(response);
    var output := new ByteBuf.Allocate();
    WriteVarInt(output, STATUS_RESPONSE_ID);
    WriteString(output, serialized);
    assert output.data == StatusResponsePacket(serialized);
    ch.WriteAndFlush(output.data);
  }

  /**
   * `handlePingRequest`: the payload is read, echoed after the pong id, and the channel is
   * closed once the pong is written. With fewer than eight bytes the read throws and nothing
   * is sent.
   */
  method HandlePingRequest(ch: Channel, content: ByteBuf) returns (o: Outcome)
    requires content.Valid()
    modifies ch`outbound, ch`active, content`readerIndex
    ensures content.Valid()
    ensures var r := old(PingReply(content.Readable()));
      if r.Success? then o == Pass && ch.outbound == old(ch.outbound) + [r.value] && !ch.active
      else o == Fail(r.error) && ch.outbound == old(ch.outbound) && ch.active == old(ch.active)
  {
    ghost var reply := PingReply(content.Readable());
    var payload := content.ReadLong();
    if payload.Failure? {
      return Fail(payload.error);
    }
    var output := new ByteBuf.Allocate();
    WriteVarInt(output, PONG_ID);
    output.WriteLong(payload.value);
    assert output.data == PongPacket(payload.value) == reply.value;
    NettyUtils.WriteFlushAndClose(ch, output.data);
    o := Pass;
  }

  /**
   * `handlePacket`: 0x00 is answered with the status, 0x01 with the pong, and any other id
   * is refused with its number in hexadecimal, touching nothing.
   */
  method HandlePacket(ch: Channel, handler: ProtocolStatusHandler, hosts: VirtualHostManager,
                      packetId: int32, content: ByteBuf) returns (o: Outcome)
    requires content.Valid()
    modifies ch`outbound, ch`active, content`readerIndex
    ensures content.Valid()
    ensures packetId == STATUS_REQUEST_ID ==>
      && o == Pass && ch.active == old(ch.active) && content.readerIndex == old(content.readerIndex)
      && ch.outbound == old(ch.outbound) + [StatusResponsePacket(StatusJson(handler, hosts))]
    ensures packetId == PING_REQUEST_ID ==>
      var r := old(PingReply(content.Readable()));
      if r.Success? then o == Pass && ch.outbound == old(ch.outbound) + [r.value] && !ch.active
      else o == Fail(r.error) && ch.outbound == old(ch.outbound) && ch.active == old(ch.active)
    ensures packetId != STATUS_REQUEST_ID && packetId != PING_REQUEST_ID ==>
      && o == Fail(ProtocolException("Unexpected packet " + Text.HexString(packetId) + " during status"))
      && ch.outbound == old(ch.outbound) && ch.active == old(ch.active)
      && content.readerIndex == old(content.readerIndex)
  {
    if packetId == STATUS_REQUEST_ID {
      HandleStatusRequest(ch, handler, hosts);
      o := Pass;
    } else if packetId == PING_REQUEST_ID {
      o := HandlePingRequest(ch, content);
    } else {
      o := Fail(ProtocolException("Unexpected packet " + Text.HexString(packetId) + " during status"));
    }
  }

  /** Two status requests in a row get the same answer: the handler keeps no state between them. */
  method StatusTwice(ch: Channel, handler: ProtocolStatusHandler, hosts: VirtualHostManager, content: ByteBuf)
    requires content.Valid()
    modifies ch`outbound, ch`active, content`readerIndex
    ensures var p := StatusResponsePacket(StatusJson(handler, hosts));
      ch.outbound == old(ch.outbound) + [p, p] && ch.active == old(ch.active)
  {
    var first := HandlePacket(ch, handler, hosts, STATUS_REQUEST_ID, content);
    var second := HandlePacket(ch, handler, hosts, STATUS_REQUEST_ID, content);
  }
}

=== FILE: text.dfy ===
/**
 * The string building blocks the handlers rely on: Java's decimal rendering of an `int` in a
 * string concatenation, splitting on and joining with a separator character (how a client
 * takes a legacy status reply apart), and ISO-8859-1 encoding.
 */
module Text {
  import opened Bytes

  function DigitChar(d: nat): (c: char)
    requires d < 10
    ensures '0' <= c <= '9'
  {
    ['0', '1', '2', '3', '4', '5', '6', '7', '8', '9'][d]
  }

  predicate IsDigit(c: char) {
    '0' <= c <= '9'
  }

  /** The decimal digits of `n` without leading zeros. */
  function Digits(n: nat): (s: string)
    ensures |s| >= 1 && forall i :: 0 <= i < |s| ==> IsDigit(s[i])
  {
    if n < 10 then [DigitChar(n)] else Digits(n / 10) + [DigitChar(n % 10)]
  }

  /** `String.valueOf(int)`: an optional minus sign and the digits. */
  function DecimalString(i: int): (s: string)
    ensures |s| >= 1 && forall k :: 0 <= k < |s| ==> IsDigit(s[k]) || s[k] == '-'
  {
    if i < 0 then "-" + Digits(-i) else Digits(i)
  }

  /** The number a string of digits denotes. */
  function ParseDigits(s: string): nat
    requires forall i :: 0 <= i < |s| ==> IsDigit(s[i])
  {
    if s == [] then 0
    else
      assert IsDigit(s[|s| - 1]);
      10 * ParseDigits(s[..|s| - 1]) + (s[|s| - 1] as int - '0' as int)
  }

  /** The inverse of `DecimalString`, as a client reading a player count would apply it. */
  function ParseDecimal(s: string): int
    requires |s| >= 1
    requires forall k :: 0 <= k < |s| ==> IsDigit(s[k]) || s[k] == '-'
    requires forall k :: 1 <= k < |s| ==> IsDigit(s[k])
  {
    var magnitude: int := if s[0] == '-' then ParseDigits(s[1..]) else ParseDigits(s);
    if s[0] == '-' then -magnitude else magnitude
  }

  lemma {:induction false} DigitsRoundTrip(n: nat)
    ensures ParseDigits(Digits(n)) == n
  {
    if n >= 10 {
      var s := Digits(n);
      assert s[..|s| - 1] == Digits(n / 10);
      DigitsRoundTrip(n / 10);
    }
  }

  /** Reading back a rendered number gives the number. */
  lemma DecimalRoundTrip(i: int)
    ensures forall k :: 1 <= k < |DecimalString(i)| ==> IsDigit(DecimalString(i)[k])
    ensures ParseDecimal(DecimalString(i)) == i
  {
    if i < 0 {
      assert DecimalString(i)[1..] == Digits(-i);
      DigitsRoundTrip(-i);
    } else {
      DigitsRoundTrip(i);
    }
  }

  function HexDigit(d: nat): (c: char)
    requires d < 16
  {
    "0123456789abcdef"[d]
  }

  /** The value of a lower-case hexadecimal digit. */
  function HexValue(c: char): (d: nat)
    ensures d < 16
  {
    if '0' <= c <= '9' then c as int - '0' as int
    else if 'a' <= c <= 'f' then c as int - 'a' as int + 10
    else 0
  }

  /** The lower-case hexadecimal digits of `n` without leading zeros. */
  function HexDigits(n: nat): (s: string)
    ensures |s| >= 1
  {
    if n < 16 then [HexDigit(n)] else HexDigits(n / 16) + [HexDigit(n % 16)]
  }

  function ParseHexDigits(s: string): nat {
    if s == [] then 0 else 16 * ParseHexDigits(s[..|s| - 1]) + HexValue(s[|s| - 1])
  }

  /** `Integer.toHexString(int)`: the 32 bits as an unsigned number, in lower-case hexadecimal. */
  function HexString(i: int32): (s: string)
    ensures |s| >= 1
  {
    HexDigits(Unsigned32(i))
  }

  lemma {:induction false} HexDigitsRoundTrip(n: nat)
    ensures ParseHexDigits(HexDigits(n)) == n
  {
    if n >= 16 {
      var s := HexDigits(n);
      assert s[..|s| - 1] == HexDigits(n / 16);
      HexDigitsRoundTrip(n / 16);
      HexDigitValue(n % 16);
    } else {
      HexDigitValue(n);
    }
  }

  /** Each digit reads back as its value. */
  lemma HexDigitValue(d: nat)
    requires d < 16
    ensures HexValue(HexDigit(d)) == d
  {
    if d < 10 {
      assert HexDigit(d) == '0' + d as char;
    } else {
      assert HexDigit(d) == 'a' + (d - 10) as char;
    }
  }

  /** The rendering names the bits of the number, a negative one as its two's complement. */
  lemma HexRoundTrip(i: int32)
    ensures ParseHexDigits(HexString(i)) == Unsigned32(i)
    ensures i < 0 ==> ParseHexDigits(HexString(i)) == i + TWO_32
  {
    HexDigitsRoundTrip(Unsigned32(i));
  }

  /** The index of the first `c` in `s`. */
  function IndexOf(s: string, c: char): (i: nat)
    requires c in s
    ensures i < |s| && s[i] == c && c !in s[..i]
  {
    if s[0] == c then 0
    else
      var j := IndexOf(s[1..], c);
      assert s[1..][..j] == s[1..j + 1];
      j + 1
  }

  /** The fields of `s` between occurrences of `c`; there is always at least one. */
  function SplitOn(s: string, c: char): (fields: seq<string>)
    ensures |fields| >= 1
    decreases |s|
  {
    if c !in s then [s]
    else
      var i := IndexOf(s, c);
      [s[..i]] + SplitOn(s[i + 1..], c)
  }

  /** The fields with `c` between each two. */
  function Join(fields: seq<string>, c: char): string
    requires |fields| >= 1
  {
    if |fields| == 1 then fields[0] else fields[0] + [c] + Join(fields[1..], c)
  }

  /** Splitting what was joined gives back the fields, as long as none contains the separator. */
  lemma {:induction false} SplitJoin(fields: seq<string>, c: char)
    requires |fields| >= 1
    requires forall i :: 0 <= i < |fields| ==> c !in fields[i]
    ensures SplitOn(Join(fields, c), c) == fields
  {
    if |fields| > 1 {
      var rest := Join(fields[1..], c);
      var s := fields[0] + [c] + rest;
      assert Join(fields, c) == s;
      SeparatorAfterField(fields[0], c, rest);
      assert SplitOn(s, c) == [fields[0]] + SplitOn(rest, c);
      SplitJoin(fields[1..], c);
      assert fields == [fields[0]] + fields[1..];
    }
  }

  /** The first separator in a field followed by a separator is the one after the field. */
  lemma SeparatorAfterField(f: string, c: char, rest: string)
    requires c !in f
    ensures c in f + [c] + rest
    ensures var s := f + [c] + rest; IndexOf(s, c) == |f| && s[..|f|] == f && s[|f| + 1..] == rest
  {
    var s := f + [c] + rest;
    assert s[|f|] == c;
    assert s[..|f|] == f;
    assert s[..|f| + 1] == f + [c];
    assert s[|f| + 1..] == rest;
  }

  /** `String.getBytes(ISO_8859_1)`: one byte per character, `?` for what Latin-1 lacks. */
  function Latin1(s: string): (r: seq<uint8>)
    ensures |r| == |s|
    ensures forall i :: 0 <= i < |s| && s[i] as int < 0x100 ==> r[i] == s[i] as int
  {
    if s == [] then []
    else [if s[0] as int < 0x100 then s[0] as int else '?' as int] + Latin1(s[1..])
  }
}

=== FILE: utf16.dfy ===
/**
 * UTF-16 big-endian, the character encoding of legacy ping strings: a character outside the
 * Basic Multilingual Plane becomes a surrogate pair, every code unit two bytes, high byte first.
 * The decoder follows Java's `UTF_16BE` charset with malformed input replaced: the reversed byte
 * order mark 0xFFFE, a low surrogate on its own, a high surrogate together with a following unit
 * that is not a low surrogate, and the one to three bytes left over at the end each become one
 * U+FFFD. So a string holding U+FFFE does not survive encoding and decoding.
 */
module Utf16 {
  import opened Bytes

  const REPLACEMENT: char := '\U{FFFD}'

  function Units(c: char): (r: seq<uint16>)
    ensures 1 <= |r| <= 2
  {
    var cp := c as int;
    if cp < 0x1_0000 then [cp]
    else
      var v := cp - 0x1_0000;
      [0xD800 + v / 0x400, 0xDC00 + v % 0x400]
  }

  /** The number of UTF-16 code units of `s` (Java's `String.length()`). */
  function CodeUnits(s: string): nat {
    if s == [] then 0 else |Units(s[0])| + CodeUnits(s[1..])
  }

  /** Text within the Basic Multilingual Plane has one code unit per character. */
  lemma {:induction false} BmpCodeUnits(s: string)
    requires forall i :: 0 <= i < |s| ==> s[i] as int < 0x1_0000
    ensures CodeUnits(s) == |s|
  {
    if s != [] {
      assert forall i :: 0 <= i < |s[1..]| ==> s[1..][i] == s[i + 1];
      BmpCodeUnits(s[1..]);
    }
  }

  function UnitBytes(u: uint16): seq<uint8> {
    [u / 0x100, u % 0x100]
  }

  function EncodeChar(c: char): (r: seq<uint8>)
    ensures |r| == 2 * |Units(c)|
  {
    var us := Units(c);
    if |us| == 1 then UnitBytes(us[0]) else UnitBytes(us[0]) + UnitBytes(us[1])
  }

  /** `String.getBytes(UTF_16BE)`. */
  function EncodeBe(s: string): (r: seq<uint8>)
    ensures |r| == 2 * CodeUnits(s)
  {
    if s == [] then [] else EncodeChar(s[0]) + EncodeBe(s[1..])
  }

  function UnitAt(bs: seq<uint8>, i: nat): uint16
    requires i + 2 <= |bs|
  {
    bs[i] as int * 0x100 + bs[i + 1] as int
  }

  /** The unit Java's `UTF_16BE` decoder refuses anywhere in the input. */
  const REVERSED_MARK: uint16 := 0xFFFE

  /** Decoding of UTF-16BE bytes as Java's `UTF_16BE` charset does it, malformed input replaced. */
  function DecodeBe(bs: seq<uint8>): string
    decreases |bs|
  {
    if |bs| < 2 then (if |bs| == 1 then [REPLACEMENT] else [])
    else
      var u := UnitAt(bs, 0);
      if 0xD800 <= u < 0xDC00 then
        if |bs| < 4 then [REPLACEMENT]
        else if 0xDC00 <= UnitAt(bs, 2) < 0xE000 then
          [(0x1_0000 + (u - 0xD800) * 0x400 + (UnitAt(bs, 2) - 0xDC00)) as char] + DecodeBe(bs[4..])
        else [REPLACEMENT] + DecodeBe(bs[4..])
      else if 0xDC00 <= u < 0xE000 || u == REVERSED_MARK then [REPLACEMENT] + DecodeBe(bs[2..])
      else [u as char] + DecodeBe(bs[2..])
  }

  /** The character U+FFFE encodes to the reversed mark and decodes to U+FFFD. */
  lemma ReversedMarkReplaced(rest: seq<uint8>)
    ensures EncodeChar('\U{FFFE}') == [0xFF, 0xFE]
    ensures DecodeBe(EncodeChar('\U{FFFE}') + rest) == [REPLACEMENT] + DecodeBe(rest)
  {
    assert ([0xFF, 0xFE] + rest)[2..] == rest;
  }

  /** A high surrogate followed by any unit but a low surrogate is replaced together with it. */
  lemma UnpairedHighSurrogateReplaced(high: uint16, next: uint16, rest: seq<uint8>)
    requires 0xD800 <= high < 0xDC00 && !(0xDC00 <= next < 0xE000)
    ensures DecodeBe(UnitBytes(high) + UnitBytes(next) + rest) == [REPLACEMENT] + DecodeBe(rest)
  {
    var bs := UnitBytes(high) + UnitBytes(next) + rest;
    assert UnitAt(bs, 0) == high && UnitAt(bs, 2) == next;
    assert bs[4..] == rest;
  }

  lemma DecodeEncodedChar(c: char, rest: seq<uint8>)
    requires c != '\U{FFFE}'
    ensures DecodeBe(EncodeChar(c) + rest) == [c] + DecodeBe(rest)
  {
    var cp := c as int;
    var bs := EncodeChar(c) + rest;
    if cp < 0x1_0000 {
      assert UnitAt(bs, 0) == cp;
      assert bs[2..] == rest;
    } else {
      var v := cp - 0x1_0000;
      assert UnitAt(bs, 0) == 0xD800 + v / 0x400;
      assert UnitAt(bs, 2) == 0xDC00 + v % 0x400;
      assert bs[4..] == rest;
    }
  }

  /** Decoding what was encoded gives back the string, when it does not hold U+FFFE. */
  lemma {:induction false} RoundTrip(s: string)
    requires '\U{FFFE}' !in s
    ensures DecodeBe(EncodeBe(s)) == s
  {
    if s != [] {
      DecodeEncodedChar(s[0], EncodeBe(s[1..]));
      RoundTrip(s[1..]);
    }
  }
}

=== FILE: utf8.dfy ===
/**
 * UTF-8, the character encoding of modern protocol strings. Strings are sequences of Unicode
 * scalar values; the decoder accepts exactly the shortest-form encoding of a scalar value and
 * puts one U+FFFD in place of each byte that starts no such encoding. Java's decoder also
 * replaces malformed input, but a malformed prefix of several bytes as a whole.
 */
module Utf8 {
  import opened Bytes

  const REPLACEMENT: char := '\U{FFFD}'

  predicate IsScalar(cp: int) {
    0 <= cp < 0xD800 || 0xE000 <= cp < 0x11_0000
  }

  function EncodeChar(c: char): (r: seq<uint8>)
    ensures 1 <= |r| <= 4
  {
    var cp := c as int;
    if cp < 0x80 then [cp]
    else if cp < 0x800 then [0xC0 + cp / 0x40, 0x80 + cp % 0x40]
    else if cp < 0x1_0000 then [0xE0 + cp / 0x1000, 0x80 + (cp / 0x40) % 0x40, 0x80 + cp % 0x40]
    else [0xF0 + cp / 0x4_0000, 0x80 + (cp / 0x1000) % 0x40, 0x80 + (cp / 0x40) % 0x40, 0x80 + cp % 0x40]
  }

  function Encode(s: string): (r: seq<uint8>)
    ensures |s| <= |r| <= 4 * |s|
  {
    if s == [] then [] else EncodeChar(s[0]) + Encode(s[1..])
  }

  /** The length of the sequence a lead byte announces, 0 for a byte that cannot lead. */
  function SequenceLength(lead: uint8): nat {
    if lead < 0x80 then 1
    else if 0xC0 <= lead < 0xE0 then 2
    else if 0xE0 <= lead < 0xF0 then 3
    else if 0xF0 <= lead < 0xF8 then 4
    else 0
  }

  function CodePoint(bs: seq<uint8>): int
    requires 1 <= |bs| <= 4
  {
    var b0: int := bs[0];
    if |bs| == 1 then b0
    else if |bs| == 2 then (b0 - 0xC0) * 0x40 + (bs[1] as int - 0x80)
    else if |bs| == 3 then (b0 - 0xE0) * 0x1000 + (bs[1] as int - 0x80) * 0x40 + (bs[2] as int - 0x80)
    else (b0 - 0xF0) * 0x4_0000 + (bs[1] as int - 0x80) * 0x1000 + (bs[2] as int - 0x80) * 0x40 + (bs[3] as int - 0x80)
  }

  /** The first character of `bs` and the number of bytes it occupies. */
  function DecodeChar(bs: seq<uint8>): (r: (char, nat))
    requires |bs| > 0
    ensures 1 <= r.1 <= |bs|
  {
    var n := SequenceLength(bs[0]);
    if n == 0 || n > |bs| then (REPLACEMENT, 1)
    else
      var cp := CodePoint(bs[..n]);
      if IsScalar(cp) && EncodeChar(cp as char) == bs[..n] then (cp as char, n) else (REPLACEMENT, 1)
  }

  function Decode(bs: seq<uint8>): string
    decreases |bs|
  {
    if bs == [] then [] else var (c, n) := DecodeChar(bs); [c] + Decode(bs[n..])
  }

  lemma DecodeEncodedChar(c: char, rest: seq<uint8>)
    ensures DecodeChar(EncodeChar(c) + rest) == (c, |EncodeChar(c)|)
  {
    var cp := c as int;
    var e := EncodeChar(c);
    var bs := e + rest;
    assert bs[..|e|] == e;
    assert cp == (cp / 0x40) * 0x40 + cp % 0x40;
    if cp < 0x80 {
    } else if cp < 0x800 {
      assert SequenceLength(bs[0]) == 2;
      assert CodePoint(e) == cp;
    } else if cp < 0x1_0000 {
      assert cp / 0x40 == (cp / 0x1000) * 0x40 + (cp / 0x40) % 0x40;
      assert SequenceLength(bs[0]) == 3;
      assert CodePoint(e) == cp;
    } else {
      assert cp / 0x40 == (cp / 0x1000) * 0x40 + (cp / 0x40) % 0x40;
      assert cp / 0x1000 == (cp / 0x4_0000) * 0x40 + (cp / 0x1000) % 0x40;
      assert SequenceLength(bs[0]) == 4;
      assert CodePoint(e) == cp;
    }
  }

  /** Decoding what was encoded gives back the string. */
  lemma {:induction false} RoundTrip(s: string)
    ensures Decode(Encode(s)) == s
  {
    if s != [] {
      var e := EncodeChar(s[0]);
      DecodeEncodedChar(s[0], Encode(s[1..]));
      assert (e + Encode(s[1..]))[|e|..] == Encode(s[1..]);
      RoundTrip(s[1..]);
    }
  }
}

=== FILE: varint.dfy ===
/**
 * The protocol's variable-length integer: seven bits per byte, least significant group first,
 * the high bit set on every byte but the last. A Java `int` is encoded through its unsigned
 * 32-bit image (the writer shifts with `>>>`), so a negative value takes five bytes.
 */
module VarInt {
  import opened Wrappers
  import opened Bytes

  /** At most five bytes are read for one value. */
  const MAX_VARINT_BYTES: nat := 5

  function Pow128(n: nat): (r: nat)
    ensures r >= 1
  {
    if n == 0 then 1 else 128 * Pow128(n - 1)
  }

  /** The groups of an unsigned number. */
  function Groups(u: nat): (r: seq<uint8>)
    ensures |r| >= 1
    decreases u
  {
    if u < 128 then [u] else [u % 128 + 128] + Groups(u / 128)
  }

  /** The bytes `writeVarInt` emits for the Java `int` `v`. */
  function Encode(v: int32): (r: seq<uint8>)
    ensures 1 <= |r| <= MAX_VARINT_BYTES
  {
    EncodedLengthBound(Unsigned32(v), 5);
    Groups(Unsigned32(v))
  }

  /** Every byte but the last carries the continuation bit; the last does not. */
  lemma {:induction false} GroupsContinuation(u: nat)
    ensures forall i :: 0 <= i < |Groups(u)| - 1 ==> Groups(u)[i] >= 128
    ensures Groups(u)[|Groups(u)| - 1] < 128
    decreases u
  {
    if u >= 128 {
      GroupsContinuation(u / 128);
    }
  }

  /** A number below 128^k needs at most k groups. */
  lemma {:induction false} EncodedLengthBound(u: nat, k: nat)
    requires 1 <= k && u < Pow128(k)
    ensures |Groups(u)| <= k
    decreases u
  {
    if u >= 128 {
      assert k >= 2;
      assert u / 128 < Pow128(k - 1);
      EncodedLengthBound(u / 128, k - 1);
    }
  }

  /**
   * Reads groups from `bs`, `k` of them having been read already: fails when the input ends
   * before a byte without continuation bit, or when a sixth byte would be needed.
   */
  function DecodeGroups(bs: seq<uint8>, k: nat): Result<(nat, nat)>
    requires k <= MAX_VARINT_BYTES
    decreases MAX_VARINT_BYTES - k
  {
    if k == MAX_VARINT_BYTES then Failure(ProtocolException("VarInt too big"))
    else if |bs| == 0 then Failure(IndexOutOfBoundsException)
    else if bs[0] < 128 then Success((bs[0], 1))
    else
      match DecodeGroups(bs[1..], k + 1)
      case Failure(e) => Failure(e)
      case Success(p) => Success((bs[0] - 128 + 128 * p.0, p.1 + 1))
  }

  /** `readVarInt`: the value and the number of bytes consumed. */
  function Decode(bs: seq<uint8>): (r: Result<(int32, nat)>)
    ensures r.Success? ==> 1 <= r.value.1 <= |bs| && r.value.1 <= MAX_VARINT_BYTES
  {
    match DecodeGroups(bs, 0)
    case Failure(e) => Failure(e)
    case Success(p) =>
      DecodeGroupsConsumed(bs, 0);
      Success((Signed32(p.0 % TWO_32), p.1))
  }

  lemma {:induction false} DecodeGroupsConsumed(bs: seq<uint8>, k: nat)
    requires k <= MAX_VARINT_BYTES
    ensures DecodeGroups(bs, k).Success? ==>
      1 <= DecodeGroups(bs, k).value.1 <= |bs| && DecodeGroups(bs, k).value.1 <= MAX_VARINT_BYTES - k
    decreases MAX_VARINT_BYTES - k
  {
    if k < MAX_VARINT_BYTES && |bs| > 0 && bs[0] >= 128 {
      DecodeGroupsConsumed(bs[1..], k + 1);
    }
  }

  lemma {:induction false} DecodeGroupsOfGroups(u: nat, k: nat, rest: seq<uint8>)
    requires k < MAX_VARINT_BYTES && u < Pow128(MAX_VARINT_BYTES - k)
    ensures DecodeGroups(Groups(u) + rest, k) == Success((u, |Groups(u)|))
    decreases u
  {
    if u >= 128 {
      assert MAX_VARINT_BYTES - k >= 2;
      assert u / 128 < Pow128(MAX_VARINT_BYTES - k - 1);
      assert (Groups(u) + rest)[1..] == Groups(u / 128) + rest;
      DecodeGroupsOfGroups(u / 128, k + 1, rest);
    }
  }

  /** Reading back what was written yields the same `int` and consumes exactly its bytes. */
  lemma RoundTrip(v: int32, rest: seq<uint8>)
    ensures Decode(Encode(v) + rest) == Success((v, |Encode(v)|))
  {
    assert Pow128(5) == 0x8_0000_0000;
    DecodeGroupsOfGroups(Unsigned32(v), 0, rest);
  }
}

=== FILE: wrappers.dfy ===
/** Failure-compatible result types and the Java exceptions the connection front-end can raise. */
module Wrappers {

  datatype Option<+T> = None | Some(value: T)

  /** The exceptions thrown by the modelled code, by their Java class. */
  datatype Exception =
    | ProtocolException(message: string)
    | IllegalStateException(message: string)
    | IllegalArgumentException(message: string)
    | IndexOutOfBoundsException
    | NegativeArraySizeException
    | NoSuchElementException(message: string)
    | NullPointerException(message: string)
    | UnsupportedOperationException(message: string)
    | AssertionError

  /** A value, or the exception that was thrown instead of returning it. */
  datatype Result<+T> = Success(value: T) | Failure(error: Exception) {
    predicate IsFailure() {
      Failure?
    }

    function PropagateFailure<U>(): Result<U>
      requires Failure?
    {
      Failure(error)
    }

    function Extract(): T
      requires Success?
    {
      value
    }
  }

  /** Normal completion of a void Java method, or the exception it threw. */
  datatype Outcome = Pass | Fail(error: Exception) {
    predicate IsFailure() {
      Fail?
    }

    function PropagateFailure(): Outcome
      requires Fail?
    {
      this
    }
  }

  /**
   * `Objects.requireNonNull` applied to constructor arguments in turn: each named argument
   * must be present, checked in the order given; the first one missing is named in the
   * exception.
   */
  function RequireNonNull(arguments: seq<(string, bool)>): (r: Outcome)
    ensures r.Pass? <==> forall i :: 0 <= i < |arguments| ==> arguments[i].1
    ensures r.Fail? ==>
      exists i :: && 0 <= i < |arguments| && !arguments[i].1
                  && (forall j :: 0 <= j < i ==> arguments[j].1)
                  && r.error == NullPointerException(arguments[i].0 + " must not be null")
  {
    if arguments == [] then Pass
    else if !arguments[0].1 then Fail(NullPointerException(arguments[0].0 + " must not be null"))
    else
      var r := RequireNonNull(arguments[1..]);
      assert forall i :: 1 <= i < |arguments| ==> arguments[i] == arguments[1..][i - 1];
      r
  }
}
